=== FILE: README.md ===
# MBFinanceMate: a verified model of its pure core

MBFinanceMate is a small Express back end and a vanilla JavaScript dashboard. The
back end relays market data for a personal dividend portfolio. Most of it is glue
around HTTP requests. This project models the parts that are sequential logic and
proves what they promise:

- **`Cache`**: the in-memory TTL cache (`cacheGet`/`cacheSet`). It expires lazily and strictly: an entry whose `expires` is before `now` is a miss and is removed.
- **`Retry`**: `withRetry`, as a loop over the outcomes of successive calls. It also records the back-off delays `300 * 2^i`.
- **`PortfolioStore`**: the handlers of the portfolio routes. These are `POST /api/portfolio/add`, `PUT`/`PATCH /api/portfolio/:id` and `DELETE /api/portfolio/:id`, together with `ensureIds` and the ticker list that the portfolio-wide endpoints derive from the file. The JSON file is a sequence of positions passed in and out.
- **`NewsFeed`**: the `/api/news` and `/api/news/portfolio` pipelines after the upstream answers arrive. This covers ticker-query parsing, the twelve-month window, `categorizeNewsItem`, the newest-first sort, JavaScript `slice` paging, and fetching in groups of 20.
- **`Dividends`**: the trailing-twelve-month sum of `getDividendTTM`, and the `/api/dividend-calendar` filter and sort.
- **`Eia`**: the same-week five-year average of `getEia5yAvgSameWeek`.
- **`Resolve`**: `resolveToTicker`, with the symbol search as an injected function.
- **`PortfolioView`**: the portfolio page's pure helpers. These are the normalisation in `parseLocaleNumber`, `fmtPct`, the average yield on cost, the yield colour classes and the top-8 allocation.
- **`Analyse`**: the macro tab's `trendArrow`, `generateInterpretation` and colour classes.
- **`NewsView`**: the news card's `extractKeyFacts` bullet points and topic badges.
- **`Js`, `Text`, `Seqs`**: the JavaScript semantics these rely on.
  - `Js` covers numbers with NaN, `||`, `Number(..)`, `String(..)` and the integer conversion of `slice`.
  - `Text` covers `trim`, ASCII case mapping, `includes`, `split`, `indexOf`, `replace` and code-point string order.
  - `Seqs` covers `Array.prototype.slice`, chunking and two stable insertion sorts.

Whatever the code takes from the outside world is a parameter:

- the clock (`now`, `today`);
- fresh ids (`crypto.randomUUID`);
- the parsing of dates and of number strings (`Js.Coercions`, `parseDate`);
- `toFixed(2)` (`fixed2`);
- the answer of each upstream request (`fetched`, `search`), with `None` for a request that threw.

Some behaviours of the code are easy to overlook; the model keeps them as written:

- Adding a position only rejects a `shares` or `avgPrice` of 0 or NaN (`!row.shares || !row.avgPrice`). Negative values are accepted.
- PUT and PATCH do no validation at all: any whitelisted field is written with its normalised value.
- The cache still answers at exactly `now == expires`. Only `now > expires` misses.
- `withRetry` also sleeps after the last failed attempt before it rethrows.
- `limit` is capped from above only, so a negative `limit` gives a negative end index, and `slice` then drops the oldest articles from the end of the list.

## Model

| member | source | states |
|---|---|---|
| Js.OrElse | server.js:391 | `x || d` on a number: 0 and NaN give the default, any other number is kept, and the result is always a number |
| Js.ToNumber | server.js:160 | `Number(v)`: `null` is 0, a number is itself, a boolean is 1 or 0 |
| Js.ToText | server.js:192 | `String(v)`: a string is itself, `null` is the text `null` |
| Js.ToIntegerBounds | server.js:418 | the index conversion of `slice` truncates toward zero: NaN is 0, a non-negative number is floored, a negative one is rounded up |
| Js.ToIntegerExact | server.js:418 | an integral index is passed through unchanged |
| Text.LeadingSpaces | server.js:157 | the position of the first non-whitespace character: everything before it is whitespace |
| Text.TrailingStart | server.js:157 | the start of the trailing whitespace run: everything from it on is whitespace, the character before it is not |
| Text.Trim | server.js:157 | `trim()`: the result is a contiguous piece of the input starting after its leading whitespace; it neither starts nor ends with whitespace; it is empty exactly when the input is all whitespace; an input without whitespace is returned unchanged |
| Text.UpperChar | server.js:159 | a small letter becomes a capital that lower-cases back to it; every other character is kept; no small letter remains |
| Text.LowerChar | server.js:369 | a capital becomes a small letter; every other character is kept; no capital remains |
| Text.Upper | server.js:159 | `toUpperCase()` keeps the length and maps each character on its own |
| Text.Lower | server.js:369 | `toLowerCase()` keeps the length and maps each character on its own |
| Text.UpperIdempotent | server.js:159 | upper-casing twice is upper-casing once, and a text without small letters is unchanged |
| Text.LowerOfUpper | news.js:55 | upper-casing first does not change what a case-insensitive test sees |
| Text.ContainsPiece | news.js:55 | every piece of a contained word is contained too |
| Text.Split | server.js:386 | `split(',')` gives at least one piece, and no piece contains the separator |
| Text.JoinSplit | server.js:386 | joining the pieces of `split` with the separator gives back the input |
| Text.SplitAt | server.js:386 | a separator after a separator-free prefix splits off exactly that prefix |
| Text.SplitNone | server.js:386 | a text without the separator is one piece |
| Text.SplitJoin | server.js:386 | splitting a join of separator-free pieces gives back the pieces |
| Text.IndexOf | portfolio.js:21 | the first occurrence of a character, -1 exactly when it is absent |
| Text.LastIndexOf | portfolio.js:18 | the last occurrence of a character, -1 exactly when it is absent |
| Text.DeleteAll | portfolio.js:21 | `replace(/c/g, "")`: the character is gone and the text never grows |
| Text.DeleteAllCounts | portfolio.js:21 | every other character keeps its count, and the length drops by the number removed |
| Text.DeleteAllAppend | portfolio.js:21 | deleting works piece by piece, so what stays keeps its order |
| Text.DeleteAround | portfolio.js:21 | deleting a character around another one keeps that one in place between the stripped pieces before and after it |
| Text.DeleteKeepsAbsent | portfolio.js:21 | deleting never brings in a character the text did not hold |
| Text.IndexOfAfter | portfolio.js:18-21 | the first occurrence in `x + c + y` is right after `x` when `x` holds none |
| Text.ReplaceFirstAfter | portfolio.js:21 | replacing the first occurrence in `x + c + y`, where `x` holds none, puts the new character right after `x` |
| Text.ReplaceFirst | portfolio.js:21 | `replace(c, d)` with a string pattern: only the first occurrence changes, an input without it is unchanged |
| Text.LexLeTotal | server.js:709 | any two strings are comparable in code-point order |
| Text.LexLeTransitive | server.js:709 | code-point order is transitive |
| Text.NatText | server.js:570 | `String(n)` of a natural number is a non-empty run of digits |
| Text.NatTextRoundTrip | server.js:570 | reading back the decimal digits of `String(n)` gives `n` |
| Text.NatTextWidth | server.js:570 | a four-digit year prints as four characters |
| Seqs.ClampIndex | server.js:418 | the relative index of `slice`: a negative index counts from the end, and the result is clamped to `[0, length]` |
| Seqs.JsSlice | server.js:418 | `Array.prototype.slice(start, end)`: the ordinary sub-range when in bounds, the tail when `end` runs past the end, empty when `end <= start`, and a negative `end` cuts from the back |
| Seqs.SliceWidth | server.js:418 | a slice between two non-negative indices holds at most `end - start` elements |
| Seqs.SliceSubset | server.js:418 | a slice holds only elements of the list |
| Seqs.SliceNonIncreasing | server.js:418 | a slice of a newest-first list is newest-first |
| Seqs.AppendIncreasing | server.js:370-377 | pushing results whose rank is above everything pushed before keeps the list strictly ordered by rank |
| Seqs.Chunks | server.js:449-452 | groups of at most `n`, none empty, all but the last full; there are no groups exactly when the list is empty |
| Seqs.FlattenChunks | server.js:449-452 | concatenating the groups gives back the list |
| Seqs.ChunkOffsets | server.js:450-451 | group `k` is `slice(k*n, k*n + n)` |
| Seqs.SpliceMultiset | server.js:240 | `splice(k, 1)` removes exactly the element at `k` |
| Seqs.TakeLargest | portfolio.js:223-224 | the first `n` of a descending list are in order, and together with the rest they are the whole list; if anything is left over, exactly `n` were taken, each at least as large as every left-over element |
| Seqs.InsertDesc | server.js:415 | inserting into a descending list keeps it descending and adds exactly that element |
| Seqs.ConsNonIncreasing | server.js:415 | an element at least as large as everything in a descending list may be put in front |
| Seqs.SortDesc | server.js:415 | `sort((a, b) => b - a)`: a descending permutation of the input |
| Seqs.InsertAsc | server.js:709 | inserting into a list ascending by key keeps it ascending and adds exactly that element |
| Seqs.ConsAscending | server.js:709 | an element at most every key may be put in front of an ascending list |
| Seqs.LeBeforeSorted | server.js:709 | an element at most the first key of an ascending list may be put in front |
| Seqs.SortAsc | server.js:709 | `sort(localeCompare)`: an ascending permutation of the input |
| Cache.Get | server.js:68-73 | a hit exactly when the key is stored and `now` is not past its expiry, returning the stored value; an expired entry is removed and every other entry is kept |
| Cache.Set | server.js:74-76 | the key now maps to the value with expiry `now + ttl`, and every other entry is kept |
| Cache.SetThenGet | server.js:68-76 | a value set is read back up to and including its expiry instant |
| Cache.SetThenGetExpired | server.js:71 | after its expiry the value reads as a miss and the entry is gone |
| Cache.SetLeavesOtherKeys | server.js:74-75 | setting one key does not change what any other key reads |
| Cache.MissStaysMissed | server.js:68-72 | a miss stays a miss later, both in the cache as it was and in the cache the miss left behind |
| Retry.WithRetry | server.js:78-85 | at most `tries` calls; a success is the first success and every earlier call failed; if nothing succeeds there were exactly `tries` failed calls and the last error is rethrown (nothing for `tries <= 0`); after failure `j` the delay was `300 * 2^j` |
| PortfolioStore.WithId | server.js:141 | only the id changes, and it is filled in exactly when missing |
| PortfolioStore.EnsureIds | server.js:138-145 | same length; every position keeps all its fields except the id; a missing id gets the next fresh id in order; the flag is set exactly when some id was missing |
| PortfolioStore.EnsureIdsChanged | server.js:139-141 | `changed` is true exactly when some position lacked an id |
| PortfolioStore.EnsureIdsComplete | server.js:140-143 | afterwards every position has an id |
| PortfolioStore.MissingPositive | server.js:141 | the count of missing ids up to `n` is positive exactly when one of those positions lacks an id |
| PortfolioStore.MissingGrows | server.js:141 | each position without an id takes a later fresh id than those before it |
| PortfolioStore.EnsureIdsUnique | server.js:141 | with distinct existing ids and fresh ids that are distinct and unused, all ids afterwards are distinct |
| PortfolioStore.TextField | server.js:157-162 | `(it[k] || '').trim()`: empty for an absent or falsy field, the trimmed string for a string, an exception for any other truthy value |
| PortfolioStore.NumberField | server.js:160-163 | `Number(it[k] || 0)`: 0 for an absent or falsy field, otherwise the number conversion of the value |
| PortfolioStore.NewRow | server.js:155-164 | the new row has the fresh id, trimmed texts, the trimmed and upper-cased ticker and converted numbers; building it throws exactly when a text field holds a truthy non-string |
| PortfolioStore.Add | server.js:147-177 | 500 when building the row throws; 400 when shares or price is 0 or NaN or no name, ISIN or ticker is given, with the list unchanged; otherwise 200 with exactly the new row appended and the earlier rows untouched |
| PortfolioStore.AddTicker | server.js:155-172 | buying `q` shares of ticker `t` at price `p` succeeds and stores exactly the expected row with the upper-cased ticker |
| PortfolioStore.FindIndex | server.js:185 | `findIndex`: the first position with that id, -1 exactly when none has it |
| PortfolioStore.AllowedIsEveryKey | server.js:188 | the whitelist names every field a position has besides its id |
| PortfolioStore.Norm | server.js:192-194 | the per-field normalisation: numeric fields through `Number`, the ticker upper-cased and trimmed, other fields `String(v || '')` trimmed |
| PortfolioStore.SetField | server.js:197 | writing one field changes that field only, never the id |
| PortfolioStore.Merge | server.js:197 | `{ ...item, ...upd }`: each whitelisted field in the update takes the update's value, every other field and the id keep theirs |
| PortfolioStore.PutUpdate | server.js:189-196 | the update map is well kinded: numeric values for numeric fields only |
| PortfolioStore.PutUpdateIsRestriction | server.js:189-196 | the update holds exactly the whitelisted keys present in the body, each normalised |
| PortfolioStore.PutUpdateAt | server.js:190-195 | a key is in the update exactly when it is whitelisted and in the body, and then it carries the normalised body value |
| PortfolioStore.Update | server.js:185-199 | 404 with the list unchanged when no position has the id; otherwise 200 where only the first match is replaced, by its merge with the update |
| PortfolioStore.Put | server.js:180-204 | 404 exactly when the id is unknown, with the list unchanged; otherwise 200, same length, only the matched record replaced |
| PortfolioStore.PutOverwrites | server.js:189-197 | after a successful PUT each whitelisted field in the body holds its normalised value and every other field, including the id, is as before |
| PortfolioStore.MergeOverwrites | server.js:197 | merging the PUT update overwrites exactly the fields the body names |
| PortfolioStore.SameFields | server.js:197 | two positions with the same id and the same seven fields are the same position |
| PortfolioStore.MergeIdempotent | server.js:197 | spreading the same update over a record twice gives what spreading it once gave |
| PortfolioStore.UpdateIdempotent | server.js:185-199 | applying the same update to the same id twice leaves the list and the reply as the first application made them |
| PortfolioStore.PutIdempotent | server.js:180-204 | sending the same PUT twice leaves the list and the reply as the first request made them |
| PortfolioStore.Patch | server.js:207-229 | deleting non-whitelisted keys and then merging the normalised entries has the same effect as PUT, on every list, id and body; 404 exactly when no position has the id |
| PortfolioStore.Delete | server.js:232-247 | 404 exactly when the id is unknown, with the list unchanged; otherwise 200, returning the first match and keeping the others in order, one shorter |
| PortfolioStore.DeleteRemovesOne | server.js:240-242 | the remaining list plus the removed record are the old list, as a multiset |
| PortfolioStore.AddThenDelete | server.js:147-247 | when no stored position has the fresh id, deleting the position just added returns it and leaves the list as it was before the add |
| PortfolioStore.TickerOf | server.js:688 | a position's normalised ticker is empty exactly when its ticker is blank |
| PortfolioStore.Tickers | server.js:688 | the ticker list has no empty entries and is no longer than the portfolio |
| PortfolioStore.TickersExact | server.js:441 | a text is in the ticker list exactly when it is the non-empty normalised ticker of some position |
| PortfolioStore.TickersSound | server.js:441 | every listed ticker comes from a position |
| PortfolioStore.TickersComplete | server.js:441 | every position with a non-blank ticker contributes it |
| NewsFeed.NormTickers | server.js:387-388 | `map(trim, toUpperCase).filter(Boolean)` leaves no empty ticker and never adds one |
| NewsFeed.ParseTickers | server.js:385-389 | at most 20 tickers, none empty, none containing a comma |
| NewsFeed.NoCommaSurvives | server.js:386-388 | normalising comma-free pieces leaves them comma-free |
| NewsFeed.TrimUpperKeeps | server.js:387 | trimming and upper-casing never introduces a non-letter character |
| NewsFeed.ParseTickersRoundTrip | server.js:385-389 | a comma-joined list of 1 to 20 clean upper-case tickers parses back to itself |
| NewsFeed.NormTickersIdentity | server.js:387-388 | clean upper-case tickers are left as they are |
| NewsFeed.Limit | server.js:391 | `min(Number(limit) || 150, 1000)`: never above 1000, 150 for a missing, zero or NaN argument, 1000 for an argument of 1000 or more, otherwise the argument |
| NewsFeed.Offset | server.js:392 | `max(Number(offset) || 0, 0)`: never negative, and a non-negative argument is taken as given |
| NewsFeed.Recent | server.js:407-409 | keeps exactly the articles with a valid timestamp from the last 365 days, with their multiplicities |
| NewsFeed.Categorize | server.js:368-378 | a category is listed exactly when its keyword rule holds for the lower-cased title, and the list is in push order with no repeats |
| NewsFeed.CategoriesRanked | server.js:370-377 | the four conditional pushes produce a list strictly ordered by category |
| NewsFeed.EveryCategoryTested | server.js:371-376 | the pushes list exactly the categories whose rule holds |
| NewsFeed.Tag | server.js:412 | each article is kept in place with its categories attached |
| NewsFeed.Sorted | server.js:409-415 | the recent articles, tagged, as a newest-first permutation |
| NewsFeed.Feed | server.js:407-420 | the page holds only recent articles of the input with their categories and is newest first; `total` counts all recent articles; `limit` and `offset` are the clamped arguments |
| NewsFeed.PageSound | server.js:415-418 | any slice of the sorted list holds only recent, correctly tagged input articles, newest first |
| NewsFeed.FromTagged | server.js:412 | a tagged item is an input article carrying its own categories |
| NewsFeed.FromRecent | server.js:409 | a recent article is an input article inside the window |
| NewsFeed.News | server.js:383-425 | 400 exactly when the query yields no ticker; otherwise the page over the articles gathered for the parsed tickers |
| NewsFeed.Label | server.js:402 | `{ ...n, ticker: t }` on every article of an answer, in order |
| NewsFeed.GatherAppend | server.js:399-404 | gathering two ticker lists one after the other gives the concatenation of their articles |
| NewsFeed.Answer | server.js:401-403 | every article of one ticker's answer is an article the request returned, labelled with that ticker; a failed request gives none |
| NewsFeed.Gather | server.js:399-404 | every gathered article is labelled with one of the requested tickers and comes from the answer to the request for that ticker |
| NewsFeed.GatherOne | server.js:400-403 | one ticker contributes exactly its answer's articles, in order and labelled with it, or nothing when its request failed |
| NewsFeed.ChunkedGatherIsGather | server.js:447-466 | fetching in groups of 20 gathers the same articles in the same order as fetching ticker by ticker |
| NewsFeed.PortfolioNews | server.js:429-483 | 400 exactly when there is no portfolio file or no ticker in it; otherwise the feed over the articles gathered, in groups of 20, for the portfolio's tickers, which is the feed over the articles gathered for them one by one |
| NewsFeed.FeedItems | server.js:418 | the page is `slice(offset, offset + limit)` of the sorted recent articles |
| NewsFeed.PageAtMostMax | server.js:391 | with a non-negative limit a page never holds more than 1000 articles |
| NewsFeed.WindowWidth | server.js:418 | a window of width at most 1000 from a non-negative offset holds at most 1000 elements |
| NewsFeed.NegativeLimitDropsOldest | server.js:391 | a limit of `-n` at offset 0 returns every recent article except the `n` oldest |
| NewsFeed.NegativeWindow | server.js:418 | `slice(0, -n)` drops the last `n` elements |
| NewsFeed.NegativeLimitBounds | server.js:391-392 | with offset 0 and limit `-n`, the slice runs from 0 to `-n` |
| NewsFeed.FullPage | server.js:417-418 | when the limit covers every recent article, the first page is all of them |
| NewsView.AllFacts | news.js:9-31 | at most four points before the cut |
| NewsView.KeyFacts | news.js:6-34 | nothing for an empty text, never more than three points |
| NewsView.KeyFactsPresent | news.js:13-33 | the number point appears exactly when something matched and lists the matches joined by `, `; the dividend and earnings points appear exactly when one of their words occurs; the risk point appears when a risk word occurs unless the three earlier points all did |
| NewsView.AllFactsInOrder | news.js:14-31 | the points are pushed in the order numbers, dividends, earnings, risks |
| NewsView.PushOrder | news.js:14-31 | any choice of the four pushes gives a list strictly ordered by kind |
| NewsView.KeyFactsOrdered | news.js:33 | the returned points are in that fixed order, with no repeats |
| NewsView.Badges | news.js:51-57 | each badge appears exactly when one of its words occurs case-insensitively, and the badges are a repeat-free list in the order div, earn, ma |
| NewsView.DivBadgeHasDividendFact | news.js:55-60 | a card with the dividend badge also carries the dividend bullet point |
| Dividends.Rows | server.js:293-295 | every history row is the ex-date and amount of a record with an amount and an ex-date, and every such record gives its row |
| Dividends.RowsOne | server.js:293-295 | one record gives its row `{ exDate, amount: Number(cash_amount) }` exactly when it has an amount and an ex-date, and nothing otherwise |
| Dividends.Within | server.js:297-298 | keeps only rows whose ex-date parses to a time no earlier than one year ago |
| Dividends.SumAppend | server.js:299 | the sum over two row lists together is the sum of their sums |
| Dividends.WithinAppend | server.js:298 | the window filter works row by row |
| Dividends.RowsAppend | server.js:293-295 | the usable-record filter works record by record |
| Dividends.DividendTtm | server.js:281-306 | a failed request gives 0, no samples and an empty history; otherwise the history is the usable rows, `samples` their number and the TTM value the sum over the rows of the last year |
| Dividends.TtmAddsOne | server.js:293-301 | one more record adds one sample exactly when it is usable, and adds its amount (NaN as 0) exactly when it is usable and inside the last year |
| Dividends.TtmOfEqualPayments | server.js:297-299 | `n` usable payments of `a`, all inside the last year, sum to `n * a` |
| Dividends.ScaleIsProduct | server.js:299 | adding `a` to itself `n` times is `n * a` |
| Dividends.EqualSum | server.js:293-299 | the year's sum of `n` in-window payments of `a` is `a` added `n` times |
| Dividends.RowsOfPaid | server.js:293-295 | usable records each become a row, keeping their ex-date and amount |
| Dividends.WithinAll | server.js:298 | when every row is in the window, the filter keeps them all |
| Dividends.SumConst | server.js:299 | rows all worth `a` sum to `a` added once per row |
| Dividends.NonEmpty | server.js:698-702 | `x || null` on a date: a present, non-empty date is kept, anything else becomes `null` |
| Dividends.OrNull | server.js:700 | `x || null`: a truthy value is kept, a falsy one becomes `null` |
| Dividends.ToEntry | server.js:695-703 | a calendar entry carries the ticker and the ex-date; pay, record and declaration dates are kept when filled and `null` otherwise; amount and frequency are kept when truthy and `null` otherwise |
| Dividends.Upcomings | server.js:695-704 | every entry is the mapped form of an upcoming record of the answer, so it belongs to the ticker and has an ex-date from today on; every such record of the answer appears |
| Dividends.UpcomingsAppend | server.js:695-704 | the answer is filtered and mapped record by record, keeping feed order |
| Dividends.UpcomingsOne | server.js:695-704 | one record gives its calendar entry exactly when its ex-date is set and not before today |
| Dividends.Collect | server.js:692-707 | every entry is the mapped form of an upcoming record in the answer for a requested ticker, so it belongs to that ticker and has an ex-date from today on |
| Dividends.CollectAppend | server.js:692-707 | the tickers are asked one after another and their entries concatenated, with no de-duplication |
| Dividends.CollectOne | server.js:692-707 | one ticker contributes exactly the upcoming entries of its answer, or nothing when its request throws |
| Dividends.Calendar | server.js:681-715 | no file gives an empty calendar; otherwise a permutation of the upcoming entries of every portfolio ticker, sorted by ex-date, every date from today on |
| Dividends.CalendarComplete | server.js:688-709 | every upcoming record in the answer for a portfolio ticker is on the calendar |
| Dividends.CollectHas | server.js:692-706 | every upcoming record in the answer for a requested ticker is collected |
| Eia.Find | server.js:571 | `find` by period: the first row with that period, none exactly when no row has it |
| Eia.Where | server.js:569-572 | the years of `k..5` whose row is found with a non-null value, each once, in ascending loop order |
| Eia.Found | server.js:569-576 | the values of a year lookup, one per year that has one: the `i`-th value belongs to the `i`-th year of `Where` |
| Eia.Hits | server.js:568-576 | every counted value is the value found for one of the years `k..5`, the value of every year with a non-null row is counted, and the `i`-th counted value is the value of the `i`-th such year, so each is counted exactly once and in loop order |
| Eia.WhereCount | server.js:569-575 | the list of years with a value has exactly as many entries as there are such years |
| Eia.HitsCount | server.js:568-576 | `cnt`, the number of counted values, is the number of years with a non-null row |
| Eia.FiveYearAvg | server.js:544-583 | `null` without a key, without data or with no hit; otherwise the latest period and value with the mean of the values found for the same week of the five previous years |
| Eia.TotalBounds | server.js:573 | a sum of `n` values within `[lo, hi]` lies within `[n*lo, n*hi]` |
| Eia.MeanWithin | server.js:578 | the average of values within `[lo, hi]` lies within `[lo, hi]` |
| Eia.SameWeekKey | server.js:565-570 | the key for year `k` back has the same week suffix and the year reduced by `k`, as four digits |
| Eia.FourDigitYear | server.js:570 | a four-digit year prints as four digits that read back as the year |
| Resolve.Query | server.js:268-271 | the search text is the input or its upper-cased form, and is an ISIN exactly when the upper-cased input is |
| Resolve.ResolveTicker | server.js:263-279 | no input gives `null`; a ticker-shaped input is the ticker, upper-cased; any other input gives the upper-cased ticker the search returns for its query, or `null` when the search gives nothing or an empty ticker; any answer is non-empty with no lower-case letter |
| Resolve.ShapedNeedsNoSearch | server.js:266 | a ticker-shaped input gets the same answer whatever the search would say |
| Resolve.IsinSearchedUpper | server.js:268-271 | an ISIN is never ticker-shaped and is looked up in upper case |
| Resolve.OtherSearchedAsTyped | server.js:270-271 | any other input is looked up trimmed but in its own case |
| PortfolioView.Unseparated | portfolio.js:17-27 | the text with its separators removed holds no comma and no dot |
| PortfolioView.UnseparatedAppend | portfolio.js:21 | removing separators works piece by piece |
| PortfolioView.UnseparatedDelete | portfolio.js:21 | deleting every occurrence of one separator keeps every non-separator character in order |
| PortfolioView.UnseparatedReplace | portfolio.js:21 | turning the first separator into a dot keeps every non-separator character in order |
| PortfolioView.ReplaceCounts | portfolio.js:21 | replacing the first occurrence trades one of the old character for one of the new |
| PortfolioView.DeleteAbsent | portfolio.js:27 | stripping a character that does not occur changes nothing |
| PortfolioView.Normalize | portfolio.js:14-27 | normalisation never lengthens the text |
| PortfolioView.NormalizeKeepsRest | portfolio.js:17-27 | normalisation only touches separators: every other character stays, in order |
| PortfolioView.NormalizeCommaDecimal | portfolio.js:17-22 | with both separators and the comma last, the result is the text before the first comma without dots, then `.`, then the text after it without dots |
| PortfolioView.CommaDecimalCounts | portfolio.js:17-22 | in that case exactly one dot is left and one comma fewer than the text had |
| PortfolioView.CommaBecomesDot | portfolio.js:21 | in a dot-free text, turning the first comma into a dot leaves exactly one dot and one comma fewer |
| PortfolioView.NormalizeDotDecimal | portfolio.js:17-22 | with both separators and the dot last, every comma goes and nothing else changes: the first dot stays the decimal point, with the text around it stripped of commas |
| PortfolioView.DecimalAt | portfolio.js:21 | deleting the group separator and then turning the first decimal separator into `.` leaves the digits on either side of that separator in place, only stripped of group separators |
| PortfolioView.ReplaceSame | portfolio.js:21 | replacing the first dot by a dot changes nothing |
| PortfolioView.NormalizeCommaOnly | portfolio.js:24-25 | with commas only, the first comma becomes a dot and every later comma stays |
| PortfolioView.NormalizeNoComma | portfolio.js:27 | without commas the text is passed on unchanged |
| PortfolioView.ParseLocale | portfolio.js:9-28 | a number argument is returned as it is; a blank or whitespace-only text gives 0; any other text is trimmed and normalised |
| PortfolioView.FmtPct | portfolio.js:44-47 | the placeholder `–` exactly for `null` and NaN; a strictly positive value starts with `+` |
| PortfolioView.FmtPctSign | portfolio.js:47 | the `+` marks exactly the strictly positive values |
| PortfolioView.AvgYoc | portfolio.js:135-136 | `null` exactly when the cost basis is not positive; otherwise a percentage with the sign of the income |
| PortfolioView.AvgYocShown | portfolio.js:135-137 | the page shows `–` exactly when the cost basis is not positive or the income is NaN |
| PortfolioView.Band | portfolio.js:165-169 | up from the upper threshold, flat from the lower one, down below it and for `null` or NaN |
| PortfolioView.BandMonotone | portfolio.js:165-169 | a larger value never gets a worse colour |
| PortfolioView.YocClass | portfolio.js:168-169 | yield on cost: up from 8, down below 5 or when unknown |
| PortfolioView.OfficialYield | portfolio.js:160-163 | `null` exactly when there is no positive current price |
| PortfolioView.YieldClass | portfolio.js:165-166 | official yield: up from 6, down below 3 or when unknown |
| PortfolioView.NoPriceNoYield | portfolio.js:160-166 | without a positive price the yield column shows `–` in the down colour |
| PortfolioView.Label | portfolio.js:219 | `ticker || name || "—"` is never empty |
| PortfolioView.Candidates | portfolio.js:217-222 | every slice is the label and value `Number(positionValue || 0)` of a position of positive value, every such position gives its slice, and there are no more slices than positions |
| PortfolioView.CandidatesAppend | portfolio.js:217-222 | positions are turned into slices one by one in portfolio order, so equal positions give equal slices, one each |
| PortfolioView.CandidatesOne | portfolio.js:217-222 | one position gives its slice exactly when its value is above 0, and nothing otherwise |
| PortfolioView.Ranked | portfolio.js:223 | the slices sorted largest first, none lost or added |
| PortfolioView.Allocation | portfolio.js:217-224 | at most 8 slices, largest first |
| PortfolioView.AllocationPositive | portfolio.js:217-224 | every slice on the chart is a positive position of the portfolio |
| PortfolioView.AllocationTopEight | portfolio.js:223-224 | the chart and the dropped slices are all the candidates; something is dropped only when the chart is full; no dropped slice is larger than a shown one |
| Analyse.TrendArrow | analyse.js:32-44 | `–`, `null` and NaN are flat; up exactly when an upper threshold is given and exceeded; down exactly when a lower threshold is given and undercut and up did not fire |
| Analyse.UpWins | analyse.js:37-39 | with crossed thresholds a value above both reads as rising |
| Analyse.NullThresholdNeverFires | analyse.js:37-42 | a `null` threshold switches its direction off |
| Analyse.Slot | analyse.js:49-63 | the line chosen for a topic is about that topic |
| Analyse.LinesFrom | analyse.js:49-65 | the lines from topic `k` on, one per topic at most, in topic order |
| Analyse.Interpretation | analyse.js:46-66 | a line appears exactly when its topic's test selects it, and the lines are in the order inflation, money supply, curve, VIX |
| Analyse.InflationLine | analyse.js:50-51 | "elevated" exactly above 3, "falling" exactly below 2.5, nothing in between or for NaN |
| Analyse.FixedLines | analyse.js:54-59 | exactly one money-supply line and one yield-curve line, each the right one of its pair |
| Analyse.VixLine | analyse.js:62-63 | "high" exactly above 20, "low" exactly below 15 |
| Analyse.LineCount | analyse.js:46-65 | between 2 and 4 lines |
| Analyse.OrderedLength | analyse.js:47-65 | a list with at most one line per topic, in topic order, has at most four lines |
| Analyse.TopicAtLeast | analyse.js:47-65 | in such a list the `i`-th line has topic at least `i` |
| Analyse.CpiTone | analyse.js:90 | inflation card: negative exactly above 3, positive otherwise, NaN included |
| Analyse.BelowZeroTone | analyse.js:91-92 | money-supply and yield-curve cards: negative exactly below 0, positive otherwise, NaN included |
| Analyse.VixTone | analyse.js:93 | VIX card: negative exactly above 20, neutral otherwise, never positive |
| Analyse.ColoursAgreeWithText | analyse.js:50-93 | each card is coloured negative exactly when the interpretation carries the warning line of its topic |
| Analyse.ArrowsAgreeWithText | analyse.js:84-87 | each card's arrow points up or down exactly when the interpretation carries the matching line |

## Left out

- `pLimit` (server.js:101-108) is left out: it only schedules promises concurrently on the event loop.
- All network access is left out. This covers axios, `polygonGET` and `cachedGetRaw` beyond the cache lookup, the fallbacks of `getVIX`, `getFearGreed` and every front-end `fetch`. What a request returned is a parameter, with `None` for a request that threw.
- Reading and writing `portfolio.json` is left out, and so is the read-modify-write race between concurrent requests. The list is passed in and returned.
- Express wiring, rate limiting, helmet, CORS, static files and API-key loading are left out.
- The second `/api/market-dashboard` handler (server.js:954) is left out, because the first registration shadows it.
- The enrichment arithmetic of `GET /api/portfolio` is left out, and so are the other dashboard endpoints.
- All DOM, canvas and chart code is left out: dividends.js, cycles.js, tabs.js, sector.js, charts.js, the `render*` functions, `setVal` and `loadAnalyse`.
- `highlightNumbers` and the numeric regular expression of `extractKeyFacts` are left out. The list of matches is an input.
- Floating point is left out. Numbers are exact reals plus NaN, and infinities are not modelled.
- Rounding is left out: `toFixed` and `toLocaleString` are not modelled, and `fmtPct` receives `toFixed(2)` as the function `fixed2`.
- The clock, `new Date(..)` parsing, `toISOString` and `crypto.randomUUID` are parameters.
- The `Number(..)` grammar for strings is injected through `Js.Coercions`. `String(..)` of a number is injected the same way.
- Case mapping covers ASCII letters only.
- JSON bodies hold `null`, booleans, numbers and strings. Arrays, objects and `undefined` are not modelled; `undefined` and `null` are the same absent value.
- `localeCompare` and string `>=` are modelled as code-point order. That agrees with them on the fixed-width `YYYY-MM-DD` dates compared here.
- The order in which concurrent requests push their articles (`Promise.all`) is left out. Answers are gathered in ticker order.
- The per-ticker caps (`perTickerCap`) are left out, as are the request parameters sent upstream and the derivation of cache keys.
- `cachedGetRaw` treats a falsy cached value as a miss. That is left out; `Cache.Get` models the cache itself.
- NewsFeed.News: the `fetched` answers stand for what the upstream returns for the per-ticker cap each route sends (`min(max(limit, 150), 200)` for `/api/news`, 50 for the portfolio route); the caps themselves are not modelled.
- NewsFeed.News: `Page` carries the ticker list for both routes, while only the portfolio route puts `tickers` into its JSON reply; `/api/news` answers `items`, `total`, `limit` and `offset` only.
- NewsFeed.Sorted: states a newest-first permutation but not the stability of `Array.prototype.sort` among articles with equal timestamps.
- Seqs.SortDesc: states a descending permutation. It does not state stability, although the insertion sort is stable.
- Seqs.SortAsc: states an ascending permutation. It does not state stability.
- Dividends.Calendar: states the order by ex-date, but not the order among entries with the same ex-date.
- Dividends.DividendTtm: the `toFixed(4)` rounding of `dps_ttm` is not modelled, so the value is the exact sum.
- PortfolioView.Normalize: its own contract states only that the text never grows. The result itself is pinned down case by case by NormalizeCommaDecimal (both separators, comma last), NormalizeDotDecimal (both, dot last), NormalizeCommaOnly and NormalizeNoComma, each giving the result position by position; NormalizeKeepsRest and CommaDecimalCounts add what every case keeps.
- PortfolioView.ParseLocale: stops before the final `Number(..)`, which belongs to the injected number grammar.
- Eia.FiveYearAvg: `sum / cnt` is exact real division without rounding.

=== FILE: analyse.dfy ===
/** The macro dashboard's classifiers: the trend arrow of a reading, the
    interpretation lines and the colour class of each card. A reading that
    failed to load is the number NaN (`Number("–")`), for which every
    comparison is false. */
module Analyse {
  import opened Js
  import Seqs

  /** What `trendArrow` is given: the placeholder `"–"`, `null`, or a value
      that `Number(..)` turns into a number. */
  datatype Reading = Dash | Nothing | Val(n: Num)

  /** `Number(current)`. */
  function ReadingNum(r: Reading): Num {
    match r
    case Dash => NaN
    case Nothing => Real(0.0)
    case Val(n) => n
  }

  /** `macro-up`, `macro-down`, `macro-flat`. */
  datatype Trend = Rising | Falling | Level

  /** `trendArrow(current, thresholdUp, thresholdDown)`; `None` is a `null` threshold. */
  function TrendArrow(current: Reading, up: Option<real>, down: Option<real>): (t: Trend)
    ensures current.Dash? || current.Nothing? || current.n.NaN? ==> t == Level
    ensures t == Rising <==> current.Val? && up.Some? && Gt(current.n, up.value)
    ensures t == Falling <==> current.Val? && down.Some? && Lt(current.n, down.value)
                              && !(up.Some? && Gt(current.n, up.value))
  {
    if current.Dash? || current.Nothing? then Level
    else
      var v := ReadingNum(current);
      if up.Some? && Gt(v, up.value) then Rising
      else if down.Some? && Lt(v, down.value) then Falling
      else Level
  }

  /** The upper test comes first: with crossed thresholds a value above both reads as rising. */
  lemma UpWins(x: real, up: real, down: real)
    requires up < x < down
    ensures TrendArrow(Val(Real(x)), Some(up), Some(down)) == Rising
  {
  }

  /** A `null` threshold switches its direction off. */
  lemma NullThresholdNeverFires(current: Reading, up: Option<real>, down: Option<real>)
    ensures up.None? ==> TrendArrow(current, up, down) != Rising
    ensures down.None? ==> TrendArrow(current, up, down) != Falling
  {
  }

  /** The interpretation lines, in the order they are pushed. The flag
      picks the first of each pair of sentences: inflation elevated rather
      than falling, money supply shrinking rather than expanding, curve
      inverted rather than normalising, VIX high rather than low. */
  datatype Line = Inflation(high: bool) | Money(shrinking: bool) | Curve(inverted: bool) | Vix(high: bool)

  /** Inflation, money supply, yield curve, volatility. */
  function Topic(l: Line): (k: nat)
    ensures k <= 3
  {
    match l
    case Inflation(_) => 0
    case Money(_) => 1
    case Curve(_) => 2
    case Vix(_) => 3
  }

  /** The line of topic `k`, when there is one. */
  function Slot(k: nat, cpi: Num, m2: Num, spread: Num, vix: Num): (r: Option<Line>)
    ensures r.Some? ==> Topic(r.value) == k
  {
    if k == 0 then (if Gt(cpi, 3.0) then Some(Inflation(true)) else if Lt(cpi, 2.5) then Some(Inflation(false)) else None)
    else if k == 1 then Some(Money(Lt(m2, 0.0)))
    else if k == 2 then Some(Curve(Lt(spread, 0.0)))
    else if k == 3 then (if Gt(vix, 20.0) then Some(Vix(true)) else if Lt(vix, 15.0) then Some(Vix(false)) else None)
    else None
  }

  /** The lines of topics `k..3`, in order: at most one per topic. */
  function LinesFrom(k: nat, cpi: Num, m2: Num, spread: Num, vix: Num): (r: seq<Line>)
    requires k <= 4
    ensures Seqs.Increasing(r, Topic)
    ensures forall x :: x in r ==> k <= Topic(x)
    ensures forall x :: x in r <==> k <= Topic(x) && Slot(Topic(x), cpi, m2, spread, vix) == Some(x)
    decreases 4 - k
  {
    if k == 4 then []
    else
      var rest := LinesFrom(k + 1, cpi, m2, spread, vix);
      match Slot(k, cpi, m2, spread, vix)
      case None => rest
      case Some(l) =>
        Seqs.AppendIncreasing([l], rest, k + 1, Topic);
        [l] + rest
  }

  /** `generateInterpretation(cpi, m2, spread, vix)`, as its list of lines:
      at most one line per topic, in topic order. */
  function Interpretation(cpi: Num, m2: Num, spread: Num, vix: Num): (r: seq<Line>)
    ensures Seqs.Increasing(r, Topic)
    ensures forall x :: x in r <==> Slot(Topic(x), cpi, m2, spread, vix) == Some(x)
  {
    LinesFrom(0, cpi, m2, spread, vix)
  }

  /** The inflation line: elevated above 3, falling below 2.5, none in
      between or for NaN. */
  lemma InflationLine(cpi: Num, m2: Num, spread: Num, vix: Num)
    ensures Inflation(true) in Interpretation(cpi, m2, spread, vix) <==> Gt(cpi, 3.0)
    ensures Inflation(false) in Interpretation(cpi, m2, spread, vix) <==> Lt(cpi, 2.5)
  {
    assert Topic(Inflation(true)) == 0 && Topic(Inflation(false)) == 0;
  }

  /** Always exactly the one money-supply line and the one yield-curve line
      their signs select. */
  lemma FixedLines(cpi: Num, m2: Num, spread: Num, vix: Num)
    ensures var r := Interpretation(cpi, m2, spread, vix);
      && Money(Lt(m2, 0.0)) in r && Money(!Lt(m2, 0.0)) !in r
      && Curve(Lt(spread, 0.0)) in r && Curve(!Lt(spread, 0.0)) !in r
  {
    assert Topic(Money(Lt(m2, 0.0))) == 1 && Topic(Money(!Lt(m2, 0.0))) == 1;
    assert Topic(Curve(Lt(spread, 0.0))) == 2 && Topic(Curve(!Lt(spread, 0.0))) == 2;
  }

  /** The VIX line: high above 20, low below 15. */
  lemma VixLine(cpi: Num, m2: Num, spread: Num, vix: Num)
    ensures Vix(true) in Interpretation(cpi, m2, spread, vix) <==> Gt(vix, 20.0)
    ensures Vix(false) in Interpretation(cpi, m2, spread, vix) <==> Lt(vix, 15.0)
  {
    assert Topic(Vix(true)) == 3 && Topic(Vix(false)) == 3;
  }

  /** Two to four lines in all. */
  lemma LineCount(cpi: Num, m2: Num, spread: Num, vix: Num)
    ensures 2 <= |Interpretation(cpi, m2, spread, vix)| <= 4
  {
    var r := Interpretation(cpi, m2, spread, vix);
    OrderedLength(r);
    FixedLines(cpi, m2, spread, vix);
    var a := Money(Lt(m2, 0.0));
    var b := Curve(Lt(spread, 0.0));
    var i :| 0 <= i < |r| && r[i] == a;
    var j :| 0 <= j < |r| && r[j] == b;
    assert i != j;
  }

  /** Strictly ordered topics 0..3 fit in four lines. */
  lemma OrderedLength(r: seq<Line>)
    requires Seqs.Increasing(r, Topic)
    ensures |r| <= 4
  {
    if |r| > 0 {
      TopicAtLeast(r, |r| - 1);
    }
  }

  lemma {:induction false} TopicAtLeast(r: seq<Line>, i: nat)
    requires Seqs.Increasing(r, Topic) && i < |r|
    ensures Topic(r[i]) >= i
    decreases i
  {
    if i > 0 {
      TopicAtLeast(r, i - 1);
    }
  }

  /** `macro-pos`, `macro-neg`, `macro-neutral`. */
  datatype Tone = Positive | Negative | Neutral

  function CpiTone(cpi: Num): (t: Tone)
    ensures t != Neutral
    ensures t == Negative <==> Gt(cpi, 3.0)
  {
    if Gt(cpi, 3.0) then Negative else Positive
  }

  /** The money-supply and yield-curve cards share one rule: negative below zero. */
  function BelowZeroTone(x: Num): (t: Tone)
    ensures t != Neutral
    ensures t == Negative <==> Lt(x, 0.0)
  {
    if Lt(x, 0.0) then Negative else Positive
  }

  /** `vix > 20` on the loaded text; the placeholder compares as NaN. */
  function VixTone(vix: Reading): (t: Tone)
    ensures t != Positive
    ensures t == Negative <==> Gt(ReadingNum(vix), 20.0)
  {
    if Gt(ReadingNum(vix), 20.0) then Negative else Neutral
  }

  /** A card is coloured negative exactly when the text warns about it. */
  lemma ColoursAgreeWithText(cpi: Num, m2: Num, spread: Num, vix: Reading)
    ensures var r := Interpretation(cpi, m2, spread, ReadingNum(vix));
      && (CpiTone(cpi) == Negative <==> Inflation(true) in r)
      && (BelowZeroTone(m2) == Negative <==> Money(true) in r)
      && (BelowZeroTone(spread) == Negative <==> Curve(true) in r)
      && (VixTone(vix) == Negative <==> Vix(true) in r)
  {
    InflationLine(cpi, m2, spread, ReadingNum(vix));
    FixedLines(cpi, m2, spread, ReadingNum(vix));
    VixLine(cpi, m2, spread, ReadingNum(vix));
  }

  /** Each arrow points the way its line of text says. */
  lemma ArrowsAgreeWithText(cpi: Num, m2: Num, spread: Num, vix: Reading)
    requires !vix.Nothing?
    ensures var r := Interpretation(cpi, m2, spread, ReadingNum(vix));
      && (TrendArrow(Val(cpi), Some(3.0), Some(2.5)) == Rising <==> Inflation(true) in r)
      && (TrendArrow(Val(cpi), Some(3.0), Some(2.5)) == Falling <==> Inflation(false) in r)
      && (TrendArrow(Val(m2), Some(0.0), Some(0.0)) == Falling <==> Money(true) in r)
      && (TrendArrow(Val(spread), Some(0.0), Some(0.0)) == Falling <==> Curve(true) in r)
      && (TrendArrow(vix, Some(20.0), Some(15.0)) == Rising <==> Vix(true) in r)
      && (TrendArrow(vix, Some(20.0), Some(15.0)) == Falling <==> Vix(false) in r)
  {
    InflationLine(cpi, m2, spread, ReadingNum(vix));
    FixedLines(cpi, m2, spread, ReadingNum(vix));
    VixLine(cpi, m2, spread, ReadingNum(vix));
  }
}

=== FILE: cache.dfy ===
/** The server's in-memory response cache: a map from request key to a
    value and an expiry instant, with no capacity bound and no sweep.
    A read past the expiry instant is a miss and evicts that one entry.
    The clock is the explicit `now` argument, in milliseconds. */
module Cache {
  import opened Js

  datatype Entry<V> = Entry(value: V, expires: int)

  type Store<V> = map<string, Entry<V>>

  /** The time-to-live a caller gets when it does not pass one. */
  const DefaultTtlMs: int := 30_000

  /** What a read returns, together with the store it leaves behind. */
  datatype Lookup<V> = Lookup(hit: Option<V>, store: Store<V>)

  /** `cacheGet(key)` at time `now`. */
  function Get<V>(c: Store<V>, key: string, now: int): (r: Lookup<V>)
    ensures r.hit.Some? <==> key in c && now <= c[key].expires
    ensures r.hit.Some? ==> r.hit.value == c[key].value
    ensures r.store.Keys == if key in c && now > c[key].expires then c.Keys - {key} else c.Keys
    ensures forall k :: k in r.store ==> r.store[k] == c[k]
  {
    if key !in c then Lookup(None, c)
    else if now > c[key].expires then Lookup(None, c - {key})
    else Lookup(Some(c[key].value), c)
  }

  /** `cacheSet(key, value, ttl)` at time `now`: last write wins. */
  function Set<V>(c: Store<V>, key: string, value: V, ttl: int, now: int): (r: Store<V>)
    ensures key in r && r[key] == Entry(value, now + ttl)
    ensures r.Keys == c.Keys + {key}
    ensures forall k :: k in c && k != key ==> r[k] == c[k]
  {
    c[key := Entry(value, now + ttl)]
  }

  /** A value written at `now` is read back at any instant up to and including `now + ttl`. */
  lemma SetThenGet<V>(c: Store<V>, key: string, value: V, ttl: int, now: int, later: int)
    requires later <= now + ttl
    ensures Get(Set(c, key, value, ttl, now), key, later).hit == Some(value)
  {
  }

  /** Past `now + ttl` the same read misses and drops the entry, even though nothing evicted it before. */
  lemma SetThenGetExpired<V>(c: Store<V>, key: string, value: V, ttl: int, now: int, later: int)
    requires later > now + ttl
    ensures Get(Set(c, key, value, ttl, now), key, later).hit == None
    ensures key !in Get(Set(c, key, value, ttl, now), key, later).store
  {
  }

  /** Writing one key does not change what a read of another key returns. */
  lemma SetLeavesOtherKeys<V>(c: Store<V>, key: string, value: V, ttl: int, now: int, other: string, later: int)
    requires other != key
    ensures Get(Set(c, key, value, ttl, now), other, later).hit == Get(c, other, later).hit
  {
  }

  /** Once a read at `now` misses, every later read of the same store misses too. */
  lemma MissStaysMissed<V>(c: Store<V>, key: string, now: int, later: int)
    requires Get(c, key, now).hit == None && later >= now
    ensures Get(c, key, later).hit == None
    ensures Get(Get(c, key, now).store, key, later).hit == None
  {
  }
}

=== FILE: dividends.dfy ===
/** Dividend post-processing: the trailing-twelve-month dividend per share
    of `getDividendTTM`, and the upcoming ex-dates of `/api/dividend-calendar`.
    The upstream answers are inputs; so are today's date as `YYYY-MM-DD`,
    the clock in milliseconds and the date parser. */
module Dividends {
  import opened Js
  import Text
  import Seqs
  import PortfolioStore

  /** A dividend record of the upstream feed; `None` is a missing field. */
  datatype Dividend = Dividend(cash: Value, exDate: Option<string>, payDate: Option<string>,
                               recordDate: Option<string>, frequency: Value, declarationDate: Option<string>)

  /** A history row of the TTM answer. */
  datatype Row = Row(exDate: string, amount: Num)

  /** The TTM answer: `dps_ttm`, `samples` and `history`. */
  datatype Ttm = Ttm(dps: real, samples: nat, history: seq<Row>)

  const YearMs: int := 365 * 24 * 3600 * 1000

  // ---- trailing twelve months ---------------------------------------------

  /** `d?.cash_amount != null && d?.ex_dividend_date`. */
  predicate Usable(d: Dividend) {
    !d.cash.Null? && d.exDate.Some? && d.exDate.value != ""
  }

  /** The history row of a record: `{ exDate, amount: Number(d.cash_amount) }`. */
  function RowOf(d: Dividend, conv: Coercions): Row
    requires d.exDate.Some?
  {
    Row(d.exDate.value, ToNumber(d.cash, conv))
  }

  /** The usable records as history rows, in feed order (`RowsOne` and
      `RowsAppend` pin the list record by record). */
  function Rows(ds: seq<Dividend>, conv: Coercions): (r: seq<Row>)
    ensures |r| <= |ds|
    ensures forall i :: 0 <= i < |r| ==> r[i].exDate != ""
    ensures forall x :: x in r ==> exists d :: d in ds && Usable(d) && x == RowOf(d, conv)
    ensures forall d {:trigger RowOf(d, conv)} :: d in ds && Usable(d) ==> RowOf(d, conv) in r
    decreases |ds|
  {
    if |ds| == 0 then []
    else
      var d := ds[0];
      var rest := Rows(ds[1..], conv);
      assert forall x :: x in rest ==> exists e :: e in ds && Usable(e) && x == RowOf(e, conv) by {
        forall x | x in rest ensures exists e :: e in ds && Usable(e) && x == RowOf(e, conv) {
          var e :| e in ds[1..] && Usable(e) && x == RowOf(e, conv);
          assert e in ds;
        }
      }
      assert forall e :: e in ds ==> e == d || e in ds[1..];
      RowIfUsable(d, conv) + rest
  }

  /** The row of one record when it is usable, and nothing otherwise. */
  function RowIfUsable(d: Dividend, conv: Coercions): seq<Row> {
    if Usable(d) then [RowOf(d, conv)] else []
  }

  /** One record gives its row exactly when it is usable. */
  lemma RowsOne(d: Dividend, conv: Coercions)
    ensures Rows([d], conv) == if Usable(d) then [RowOf(d, conv)] else []
  {
    assert [d][1..] == [];
  }

  /** `new Date(r.exDate).getTime() >= cutoff`; an unparseable date is NaN and fails. */
  predicate InYear(r: Row, now: int, parseDate: string -> Num) {
    Ge(parseDate(r.exDate), (now - YearMs) as real)
  }

  function Within(rows: seq<Row>, now: int, parseDate: string -> Num): (r: seq<Row>)
    ensures |r| <= |rows|
    ensures forall x :: x in r ==> x in rows && InYear(x, now, parseDate)
    decreases |rows|
  {
    if |rows| == 0 then []
    else (if InYear(rows[0], now, parseDate) then [rows[0]] else []) + Within(rows[1..], now, parseDate)
  }

  /** `rows.reduce((s, r) => s + (r.amount || 0), 0)`: a NaN amount counts as 0. */
  function Sum(rows: seq<Row>): real
    decreases |rows|
  {
    if |rows| == 0 then 0.0 else OrElse(rows[0].amount, 0.0).v + Sum(rows[1..])
  }

  lemma {:induction false} SumAppend(a: seq<Row>, b: seq<Row>)
    ensures Sum(a + b) == Sum(a) + Sum(b)
    decreases |a|
  {
    if |a| == 0 {
      assert a + b == b;
    } else {
      SumAppend(a[1..], b);
      assert (a + b)[1..] == a[1..] + b;
    }
  }

  lemma {:induction false} WithinAppend(a: seq<Row>, b: seq<Row>, now: int, parseDate: string -> Num)
    ensures Within(a + b, now, parseDate) == Within(a, now, parseDate) + Within(b, now, parseDate)
    decreases |a|
  {
    if |a| == 0 {
      assert a + b == b;
    } else {
      var ab := a + b;
      assert ab[0] == a[0] && ab[1..] == a[1..] + b;
      WithinAppend(a[1..], b, now, parseDate);
      var h := if InYear(a[0], now, parseDate) then [a[0]] else [];
      assert Within(ab, now, parseDate) == h + Within(ab[1..], now, parseDate);
      assert Within(a, now, parseDate) == h + Within(a[1..], now, parseDate);
    }
  }

  lemma {:induction false} RowsAppend(a: seq<Dividend>, b: seq<Dividend>, conv: Coercions)
    ensures Rows(a + b, conv) == Rows(a, conv) + Rows(b, conv)
    decreases |a|
  {
    if |a| == 0 {
      assert a + b == b;
    } else {
      var ab := a + b;
      assert ab[0] == a[0] && ab[1..] == a[1..] + b;
      RowsAppend(a[1..], b, conv);
      RowsStep(ab, conv);
      RowsStep(a, conv);
      Seqs.Regroup(Rows(ab, conv), Rows(a, conv), RowIfUsable(a[0], conv), Rows(a[1..], conv), Rows(b, conv));
    }
  }

  lemma RowsStep(ds: seq<Dividend>, conv: Coercions)
    requires |ds| > 0
    ensures Rows(ds, conv) == RowIfUsable(ds[0], conv) + Rows(ds[1..], conv)
  {
  }

  /** `getDividendTTM` after the request: `None` is a request that threw,
      which answers zero with an empty history. */
  function DividendTtm(feed: Option<seq<Dividend>>, now: int, conv: Coercions, parseDate: string -> Num): (r: Ttm)
    ensures feed.None? ==> r == Ttm(0.0, 0, [])
    ensures feed.Some? ==> r.history == Rows(feed.value, conv) && r.samples == |r.history|
    ensures feed.Some? ==> r.dps == Sum(Within(r.history, now, parseDate))
  {
    match feed
    case None => Ttm(0.0, 0, [])
    case Some(ds) =>
      var rows := Rows(ds, conv);
      Ttm(Sum(Within(rows, now, parseDate)), |rows|, rows)
  }

  /** One more record in the feed adds its amount (NaN as 0) exactly when it
      is usable and its ex-date lies within the last year, and nothing otherwise. */
  lemma TtmAddsOne(ds: seq<Dividend>, d: Dividend, now: int, conv: Coercions, parseDate: string -> Num)
    ensures var before := DividendTtm(Some(ds), now, conv, parseDate);
      var after := DividendTtm(Some(ds + [d]), now, conv, parseDate);
      && after.samples == before.samples + (if Usable(d) then 1 else 0)
      && after.dps == before.dps +
           (if Usable(d) && InYear(Row(d.exDate.value, ToNumber(d.cash, conv)), now, parseDate)
            then OrElse(ToNumber(d.cash, conv), 0.0).v else 0.0)
  {
    RowsAppend(ds, [d], conv);
    var rows := Rows(ds, conv);
    var last := Rows([d], conv);
    assert [d][1..] == [];
    WithinAppend(rows, last, now, parseDate);
    var w := Within(last, now, parseDate);
    assert |w| <= 1;
    assert |w| == 1 ==> w[1..] == [];
    SumAppend(Within(rows, now, parseDate), w);
  }

  /** A usable record paying `a` whose ex-date lies within the last year. */
  predicate PaidInYear(d: Dividend, a: real, now: int, parseDate: string -> Num) {
    Usable(d) && d.cash == Number(a) && InYear(Row(d.exDate.value, Real(a)), now, parseDate)
  }

  /** Payments of the same amount within the year add up to their number
      times it: `n` usable in-window records of `a` each sum to `n * a`. */
  lemma TtmOfEqualPayments(ds: seq<Dividend>, a: real, now: int, conv: Coercions, parseDate: string -> Num)
    requires forall i :: 0 <= i < |ds| ==> PaidInYear(ds[i], a, now, parseDate)
    ensures DividendTtm(Some(ds), now, conv, parseDate).dps == |ds| as real * a
  {
    TtmIsScale(ds, a, now, conv, parseDate);
    ScaleIsProduct(|ds|, a);
  }

  lemma TtmIsScale(ds: seq<Dividend>, a: real, now: int, conv: Coercions, parseDate: string -> Num)
    requires forall i :: 0 <= i < |ds| ==> PaidInYear(ds[i], a, now, parseDate)
    ensures DividendTtm(Some(ds), now, conv, parseDate).dps == Scale(|ds|, a)
  {
    EqualSum(ds, a, now, conv, parseDate);
  }

  /** `a` added `n` times. */
  function Scale(n: nat, a: real): real {
    if n == 0 then 0.0 else a + Scale(n - 1, a)
  }

  lemma {:induction false} ScaleIsProduct(n: nat, a: real)
    ensures Scale(n, a) == n as real * a
  {
    if n > 0 {
      ScaleIsProduct(n - 1, a);
      assert (n - 1) as real * a + a == n as real * a;
    }
  }

  lemma EqualSum(ds: seq<Dividend>, a: real, now: int, conv: Coercions, parseDate: string -> Num)
    requires forall i :: 0 <= i < |ds| ==> PaidInYear(ds[i], a, now, parseDate)
    ensures Sum(Within(Rows(ds, conv), now, parseDate)) == Scale(|ds|, a)
  {
    var rows := Rows(ds, conv);
    assert |rows| == |ds| && forall i :: 0 <= i < |rows| ==> rows[i].amount == Real(a) && InYear(rows[i], now, parseDate) by {
      RowsOfPaid(ds, a, now, conv, parseDate);
    }
    assert Within(rows, now, parseDate) == rows by { WithinAll(rows, now, parseDate); }
    SumConst(rows, a);
  }

  lemma {:induction false} RowsOfPaid(ds: seq<Dividend>, a: real, now: int, conv: Coercions, parseDate: string -> Num)
    requires forall i :: 0 <= i < |ds| ==> PaidInYear(ds[i], a, now, parseDate)
    ensures |Rows(ds, conv)| == |ds|
    ensures forall i :: 0 <= i < |ds| ==> Some(Rows(ds, conv)[i].exDate) == ds[i].exDate && Rows(ds, conv)[i].amount == Real(a)
    decreases |ds|
  {
    if |ds| > 0 {
      RowsOfPaid(ds[1..], a, now, conv, parseDate);
      assert ToNumber(ds[0].cash, conv) == Real(a);
    }
  }

  lemma {:induction false} WithinAll(rows: seq<Row>, now: int, parseDate: string -> Num)
    requires forall i :: 0 <= i < |rows| ==> InYear(rows[i], now, parseDate)
    ensures Within(rows, now, parseDate) == rows
    decreases |rows|
  {
    if |rows| > 0 {
      WithinAll(rows[1..], now, parseDate);
      assert [rows[0]] + rows[1..] == rows;
    }
  }

  lemma {:induction false} SumConst(rows: seq<Row>, a: real)
    requires forall i :: 0 <= i < |rows| ==> rows[i].amount == Real(a)
    ensures Sum(rows) == Scale(|rows|, a)
    decreases |rows|
  {
    if |rows| > 0 {
      SumConst(rows[1..], a);
    }
  }

  // ---- the calendar --------------------------------------------------------

  /** A calendar entry; every field after the ex-date is `x || null`, so an
      empty date and a zero amount or frequency become `null`. */
  datatype Entry = Entry(ticker: string, exDate: string, payDate: Option<string>, recordDate: Option<string>,
                         amount: Value, frequency: Value, declarationDate: Option<string>)

  /** A truthy optional string: present and not empty. */
  predicate Filled(x: Option<string>) {
    x.Some? && x.value != ""
  }

  /** `x || null` on an optional string. */
  function NonEmpty(x: Option<string>): (r: Option<string>)
    ensures Filled(x) ==> r == x
    ensures !Filled(x) ==> r == None
  {
    if x.Some? && x.value != "" then x else None
  }

  /** `x || null` on a JSON value. */
  function OrNull(v: Value): (r: Value)
    ensures Truthy(v) ==> r == v
    ensures !Truthy(v) ==> r == Null
  {
    if Truthy(v) then v else Null
  }

  /** The `map` of one record; only the ticker and the ex-date are kept as they are. */
  function ToEntry(t: string, d: Dividend): (e: Entry)
    requires d.exDate.Some?
    ensures e.ticker == t && e.exDate == d.exDate.value
    ensures e.payDate == (if Filled(d.payDate) then d.payDate else None)
    ensures e.recordDate == (if Filled(d.recordDate) then d.recordDate else None)
    ensures e.declarationDate == (if Filled(d.declarationDate) then d.declarationDate else None)
    ensures e.amount == (if Truthy(d.cash) then d.cash else Null)
    ensures e.frequency == (if Truthy(d.frequency) then d.frequency else Null)
  {
    Entry(t, d.exDate.value, NonEmpty(d.payDate), NonEmpty(d.recordDate),
          OrNull(d.cash), OrNull(d.frequency), NonEmpty(d.declarationDate))
  }

  /** A record that makes it onto the calendar: it has an ex-date, and that
      date is today or later. */
  predicate Upcoming(d: Dividend, today: string) {
    d.exDate.Some? && d.exDate.value != "" && Text.LexLe(today, d.exDate.value)
  }

  /** The entries of one ticker's answer: `filter(ex_dividend_date)`, `map`,
      then `filter(exDate >= nowISO)`, in feed order. */
  function Upcomings(t: string, ds: seq<Dividend>, today: string): (r: seq<Entry>)
    ensures forall e :: e in r ==> e.ticker == t && e.exDate != "" && Text.LexLe(today, e.exDate)
    ensures forall e :: e in r ==> exists d :: d in ds && Upcoming(d, today) && e == ToEntry(t, d)
    ensures forall d {:trigger ToEntry(t, d)} :: d in ds && Upcoming(d, today) ==> ToEntry(t, d) in r
    decreases |ds|
  {
    if |ds| == 0 then []
    else
      var d := ds[0];
      var rest := Upcomings(t, ds[1..], today);
      assert forall e :: e in rest ==> exists x :: x in ds && Upcoming(x, today) && e == ToEntry(t, x) by {
        forall e | e in rest ensures exists x :: x in ds && Upcoming(x, today) && e == ToEntry(t, x) {
          var x :| x in ds[1..] && Upcoming(x, today) && e == ToEntry(t, x);
          assert x in ds;
        }
      }
      assert forall x :: x in ds ==> x == d || x in ds[1..];
      UpcomingIfDue(t, d, today) + rest
  }

  /** The entry of one record when it is upcoming, and nothing otherwise. */
  function UpcomingIfDue(t: string, d: Dividend, today: string): seq<Entry> {
    if Upcoming(d, today) then [ToEntry(t, d)] else []
  }

  /** The answer is filtered record by record, in feed order. */
  lemma {:induction false} UpcomingsAppend(t: string, a: seq<Dividend>, b: seq<Dividend>, today: string)
    ensures Upcomings(t, a + b, today) == Upcomings(t, a, today) + Upcomings(t, b, today)
    decreases |a|
  {
    if |a| == 0 {
      assert a + b == b;
    } else {
      var ab := a + b;
      assert ab[0] == a[0] && ab[1..] == a[1..] + b;
      UpcomingsAppend(t, a[1..], b, today);
      UpcomingsStep(t, ab, today);
      UpcomingsStep(t, a, today);
      Seqs.Regroup(Upcomings(t, ab, today), Upcomings(t, a, today), UpcomingIfDue(t, a[0], today),
                   Upcomings(t, a[1..], today), Upcomings(t, b, today));
    }
  }

  lemma UpcomingsStep(t: string, s: seq<Dividend>, today: string)
    requires |s| > 0
    ensures Upcomings(t, s, today) == UpcomingIfDue(t, s[0], today) + Upcomings(t, s[1..], today)
  {
  }

  /** One record gives its entry exactly when it is upcoming. */
  lemma UpcomingsOne(t: string, d: Dividend, today: string)
    ensures Upcomings(t, [d], today) == if Upcoming(d, today) then [ToEntry(t, d)] else []
  {
    assert [d][1..] == [];
  }

  /** The entries of one ticker's request; nothing when it threw. */
  function Answer(t: string, fetched: string -> Option<seq<Dividend>>, today: string): seq<Entry> {
    match fetched(t) case None => [] case Some(ds) => Upcomings(t, ds, today)
  }

  /** The loop over the tickers; a request that throws is logged and skipped.
      Every entry is an upcoming record of the answer for one of the tickers
      (`CollectAppend` and `CollectOne` pin the list ticker by ticker, so a
      ticker listed twice contributes its entries twice). */
  function Collect(tickers: seq<string>, fetched: string -> Option<seq<Dividend>>, today: string): (r: seq<Entry>)
    ensures forall e :: e in r ==> e.ticker in tickers && e.exDate != "" && Text.LexLe(today, e.exDate)
    ensures forall e :: e in r ==> exists t, d :: t in tickers && fetched(t).Some? && d in fetched(t).value
                                                 && Upcoming(d, today) && e == ToEntry(t, d)
    decreases |tickers|
  {
    if |tickers| == 0 then []
    else
      var t := tickers[0];
      var rest := Collect(tickers[1..], fetched, today);
      assert forall e :: e in rest ==> exists u, d :: u in tickers && fetched(u).Some? && d in fetched(u).value
                                                     && Upcoming(d, today) && e == ToEntry(u, d) by {
        forall e | e in rest ensures exists u, d :: u in tickers && fetched(u).Some? && d in fetched(u).value
                                                     && Upcoming(d, today) && e == ToEntry(u, d) {
          var u, d :| u in tickers[1..] && fetched(u).Some? && d in fetched(u).value && Upcoming(d, today) && e == ToEntry(u, d);
          assert u in tickers;
        }
      }
      Answer(t, fetched, today) + rest
  }

  /** The tickers are asked one after another. */
  lemma {:induction false} CollectAppend(a: seq<string>, b: seq<string>, fetched: string -> Option<seq<Dividend>>, today: string)
    ensures Collect(a + b, fetched, today) == Collect(a, fetched, today) + Collect(b, fetched, today)
    decreases |a|
  {
    if |a| == 0 {
      assert a + b == b;
    } else {
      var ab := a + b;
      assert ab[0] == a[0] && ab[1..] == a[1..] + b;
      CollectAppend(a[1..], b, fetched, today);
      CollectStep(ab, fetched, today);
      CollectStep(a, fetched, today);
      Seqs.Regroup(Collect(ab, fetched, today), Collect(a, fetched, today), Answer(a[0], fetched, today),
                   Collect(a[1..], fetched, today), Collect(b, fetched, today));
    }
  }

  lemma CollectStep(tickers: seq<string>, fetched: string -> Option<seq<Dividend>>, today: string)
    requires |tickers| > 0
    ensures Collect(tickers, fetched, today) == Answer(tickers[0], fetched, today) + Collect(tickers[1..], fetched, today)
  {
  }

  /** One ticker gives the upcoming entries of its answer, or nothing when the
      request threw. */
  lemma CollectOne(t: string, fetched: string -> Option<seq<Dividend>>, today: string)
    ensures fetched(t).None? ==> Collect([t], fetched, today) == []
    ensures fetched(t).Some? ==> Collect([t], fetched, today) == Upcomings(t, fetched(t).value, today)
  {
    assert [t][1..] == [];
  }

  /** The sort key `String(a.exDate)`. */
  function ExDate(e: Entry): string {
    e.exDate
  }

  /** `GET /api/dividend-calendar`: no portfolio file (`None`) gives an empty
      calendar; otherwise the upcoming dividends of every ticker of the
      portfolio, earliest ex-date first. */
  function Calendar(file: Option<seq<PortfolioStore.Position>>, fetched: string -> Option<seq<Dividend>>, today: string): (r: seq<Entry>)
    ensures file.None? ==> r == []
    ensures file.Some? ==> multiset(r) == multiset(Collect(PortfolioStore.Tickers(file.value), fetched, today))
    ensures Seqs.Ascending(r, ExDate)
    ensures forall e :: e in r ==> e.exDate != "" && Text.LexLe(today, e.exDate)
  {
    if file.None? then []
    else
      var all := Collect(PortfolioStore.Tickers(file.value), fetched, today);
      var r := Seqs.SortAsc(all, ExDate);
      assert forall e :: e in r ==> e in multiset(all);
      r
  }

  /** Nothing upcoming is lost: every record with an ex-date from today on,
      in the answer for a ticker of the portfolio, is on the calendar. */
  lemma CalendarComplete(items: seq<PortfolioStore.Position>, fetched: string -> Option<seq<Dividend>>, today: string,
                         t: string, d: Dividend)
    requires t in PortfolioStore.Tickers(items)
    requires fetched(t).Some? && d in fetched(t).value && Upcoming(d, today)
    ensures ToEntry(t, d) in Calendar(Some(items), fetched, today)
  {
    var tickers := PortfolioStore.Tickers(items);
    CollectHas(tickers, fetched, today, t, d);
    assert ToEntry(t, d) in multiset(Collect(tickers, fetched, today));
  }

  lemma {:induction false} CollectHas(tickers: seq<string>, fetched: string -> Option<seq<Dividend>>, today: string,
                                      t: string, d: Dividend)
    requires t in tickers
    requires fetched(t).Some? && d in fetched(t).value && Upcoming(d, today)
    ensures ToEntry(t, d) in Collect(tickers, fetched, today)
    decreases |tickers|
  {
    if tickers[0] != t {
      CollectHas(tickers[1..], fetched, today, t, d);
    }
  }
}

=== FILE: eia.dfy ===
/** The five-year same-week average of an EIA weekly series
    (`getEia5yAvgSameWeek`): from the latest period `YYYY` + rest, look up the
    periods `(YYYY-k)` + rest for k = 1..5 and average the values found. The
    series rows, newest first, are an input. */
module Eia {
  import opened Js
  import Text
  import Seqs

  /** A row of `response.data`: `String(r.period)` and `r.value`. */
  datatype SeriesRow = SeriesRow(period: string, value: Value)

  /** `{ latestDate, latestVal, avg5y }`. */
  datatype SeasonalAvg = SeasonalAvg(latestDate: string, latestVal: Num, avg: Num)

  /** How many earlier years are looked up. */
  const Years: nat := 5

  /** `arr.find(r => String(r.period) === key)`. */
  function Find(arr: seq<SeriesRow>, key: string): (r: Option<nat>)
    ensures r.None? <==> forall i :: 0 <= i < |arr| ==> arr[i].period != key
    ensures r.Some? ==> r.value < |arr| && arr[r.value].period == key
    ensures r.Some? ==> forall i :: 0 <= i < r.value ==> arr[i].period != key
    decreases |arr|
  {
    if |arr| == 0 then None
    else if arr[0].period == key then Some(0)
    else match Find(arr[1..], key)
      case None => None
      case Some(i) => Some(i + 1)
  }

  /** `String(n)` of a number. */
  function ShowNum(x: Num, conv: Coercions): string {
    match x
    case NaN => "NaN"
    case Real(v) => conv.show(v)
  }

  /** `${year - k}${week}`. */
  function YearKey(year: Num, k: int, week: string, conv: Coercions): string {
    ShowNum(if year.NaN? then NaN else Real(year.v - k as real), conv) + week
  }

  /** The value found for the key of year `k`, when there is a row for it
      and its value is not `null`. */
  function HitAt(arr: seq<SeriesRow>, year: Num, week: string, k: int, conv: Coercions): Option<Num> {
    match Find(arr, YearKey(year, k, week, conv))
    case None => None
    case Some(i) => if arr[i].value.Null? then None else Some(ToNumber(arr[i].value, conv))
  }

  /** The years among `k..5` at which `h` has a value, ascending: the loop
      order of `for (let k = 1; k <= 5; k++)`. */
  function Where(h: nat -> Option<Num>, k: nat): (ys: seq<nat>)
    requires 1 <= k <= Years + 1
    ensures forall i :: 0 <= i < |ys| ==> k <= ys[i] <= Years && h(ys[i]).Some?
    ensures forall j :: k <= j <= Years && h(j).Some? ==> j in ys
    ensures forall i :: 0 <= i < |ys| - 1 ==> ys[i] < ys[i + 1]
    decreases Years + 1 - k
  {
    if k > Years then []
    else if h(k).Some? then [k] + Where(h, k + 1)
    else Where(h, k + 1)
  }

  /** The values of `h` at the years `k..5`, in loop order: the values of
      the years of `Where(h, k)`, one each and in the same order. */
  function Found(h: nat -> Option<Num>, k: nat): (r: seq<Num>)
    requires 1 <= k <= Years + 1
    ensures |r| <= Years + 1 - k
    ensures forall x :: x in r ==> exists j :: k <= j <= Years && h(j) == Some(x)
    ensures forall j :: k <= j <= Years && h(j).Some? ==> h(j).value in r
    ensures var ys := Where(h, k);
      |r| == |ys| && forall i :: 0 <= i < |r| ==> h(ys[i]) == Some(r[i])
    decreases Years + 1 - k
  {
    if k > Years then []
    else if h(k).Some? then [h(k).value] + Found(h, k + 1)
    else Found(h, k + 1)
  }

  /** The lookup of each year, as a function of the year. */
  function HitFn(arr: seq<SeriesRow>, year: Num, week: string, conv: Coercions): nat -> Option<Num> {
    (j: nat) => HitAt(arr, year, week, j, conv)
  }

  /** The counted values for the years `k..5`, in loop order: one value for
      each year whose row is found with a non-null value, and nothing else;
      the `i`-th value is the value found for the `i`-th such year. */
  function Hits(arr: seq<SeriesRow>, year: Num, week: string, k: nat, conv: Coercions): (r: seq<Num>)
    requires 1 <= k <= Years + 1
    ensures |r| <= Years + 1 - k
    ensures forall x :: x in r ==> exists j :: k <= j <= Years && HitAt(arr, year, week, j, conv) == Some(x)
    ensures forall j :: k <= j <= Years && HitAt(arr, year, week, j, conv).Some? ==> HitAt(arr, year, week, j, conv).value in r
    ensures var ys := Where(HitFn(arr, year, week, conv), k);
      |r| == |ys| && forall i :: 0 <= i < |r| ==> HitAt(arr, year, week, ys[i], conv) == Some(r[i])
  {
    HitsExact(arr, year, week, k, conv);
    Found(HitFn(arr, year, week, conv), k)
  }

  /** `Found`'s contract, read back through `HitFn`. */
  lemma HitsExact(arr: seq<SeriesRow>, year: Num, week: string, k: nat, conv: Coercions)
    requires 1 <= k <= Years + 1
    ensures var r := Found(HitFn(arr, year, week, conv), k);
      && (forall x :: x in r ==> exists j :: k <= j <= Years && HitAt(arr, year, week, j, conv) == Some(x))
      && (forall j :: k <= j <= Years && HitAt(arr, year, week, j, conv).Some? ==> HitAt(arr, year, week, j, conv).value in r)
  {
    var h := HitFn(arr, year, week, conv);
    var r := Found(h, k);
    forall x | x in r ensures exists j :: k <= j <= Years && HitAt(arr, year, week, j, conv) == Some(x) {
      var j :| k <= j <= Years && h(j) == Some(x);
      assert HitAt(arr, year, week, j, conv) == Some(x);
    }
    forall j | k <= j <= Years && HitAt(arr, year, week, j, conv).Some? ensures HitAt(arr, year, week, j, conv).value in r {
      assert h(j) == HitAt(arr, year, week, j, conv);
    }
  }

  function HitYears(arr: seq<SeriesRow>, year: Num, week: string, k: nat, conv: Coercions): set<nat> {
    YearsWhere(HitFn(arr, year, week, conv), k)
  }

  function YearsWhere(h: nat -> Option<Num>, k: nat): set<nat> {
    set j: nat | k <= j <= Years && h(j).Some?
  }

  lemma YearsWhereStep(h: nat -> Option<Num>, k: nat)
    requires k <= Years
    ensures YearsWhere(h, k) == (if h(k).Some? then {k} else {}) + YearsWhere(h, k + 1)
    ensures k !in YearsWhere(h, k + 1)
  {
    var all, later := YearsWhere(h, k), YearsWhere(h, k + 1);
    forall j | j in all ensures j in (if h(k).Some? then {k} else {}) + later { }
  }

  /** The list of years with a value has one entry per such year. */
  lemma {:induction false} WhereCount(h: nat -> Option<Num>, k: nat)
    requires 1 <= k <= Years + 1
    ensures |Where(h, k)| == |YearsWhere(h, k)|
    decreases Years + 1 - k
  {
    if k > Years {
      assert YearsWhere(h, k) == {};
    } else {
      WhereCount(h, k + 1);
      YearsWhereStep(h, k);
    }
  }

  /** As many values are counted as there are years that have one: the mean
      divides by the number of such years. */
  lemma HitsCount(arr: seq<SeriesRow>, year: Num, week: string, k: nat, conv: Coercions)
    requires 1 <= k <= Years + 1
    ensures |Hits(arr, year, week, k, conv)| == |HitYears(arr, year, week, k, conv)|
  {
    WhereCount(HitFn(arr, year, week, conv), k);
  }

  /** `x + y` on numbers: NaN absorbs. */
  function Add(x: Num, y: Num): Num {
    if x.NaN? || y.NaN? then NaN else Real(x.v + y.v)
  }

  /** `sum += v` over the counted values, starting from 0. */
  function Total(xs: seq<Num>): Num
    decreases |xs|
  {
    if |xs| == 0 then Real(0.0) else Add(Total(xs[..|xs| - 1]), xs[|xs| - 1])
  }

  /** `sum / cnt`. */
  function Mean(xs: seq<Num>): Num
    requires xs != []
  {
    var sum := Total(xs);
    if sum.NaN? then NaN else Real(sum.v / |xs| as real)
  }

  /** `getEia5yAvgSameWeek` after the request. `None` for `data` is a request
      that threw or an answer without a data array; both give `null`. */
  function FiveYearAvg(hasKey: bool, data: Option<seq<SeriesRow>>, conv: Coercions): (r: Option<SeasonalAvg>)
    ensures !hasKey || data.None? || data.value == [] ==> r.None?
    ensures hasKey && data.Some? && data.value != [] ==>
              var p := data.value[0].period;
              var hits := Hits(data.value, conv.parse(Seqs.JsSlice(p, 0, 4)), Seqs.JsSlice(p, 4, |p|), 1, conv);
              && (r.None? <==> hits == [])
              && (r.Some? ==> r.value.latestDate == p && r.value.latestVal == ToNumber(data.value[0].value, conv))
              && (r.Some? ==> r.value.avg == Mean(hits))
  {
    if !hasKey || data.None? || data.value == [] then None
    else
      var arr := data.value;
      var p := arr[0].period;
      var year := conv.parse(Seqs.JsSlice(p, 0, 4));
      var week := Seqs.JsSlice(p, 4, |p|);
      var hits := Hits(arr, year, week, 1, conv);
      if hits == [] then None
      else
        Some(SeasonalAvg(p, ToNumber(arr[0].value, conv), Mean(hits)))
  }

  /** A sum of values within `[lo, hi]` lies within `[n * lo, n * hi]`. */
  lemma {:induction false} TotalBounds(xs: seq<Num>, lo: real, hi: real)
    requires forall i :: 0 <= i < |xs| ==> xs[i].Real? && lo <= xs[i].v <= hi
    ensures Total(xs).Real?
    ensures |xs| as real * lo <= Total(xs).v <= |xs| as real * hi
    decreases |xs|
  {
    if |xs| > 0 {
      var init := xs[..|xs| - 1];
      TotalBounds(init, lo, hi);
      assert (|init| as real) * lo + lo == |xs| as real * lo;
      assert (|init| as real) * hi + hi == |xs| as real * hi;
    }
  }

  /** The average is an average: when every value lies within `[lo, hi]`,
      so does the mean. */
  lemma MeanWithin(xs: seq<Num>, lo: real, hi: real)
    requires xs != []
    requires forall i :: 0 <= i < |xs| ==> xs[i].Real? && lo <= xs[i].v <= hi
    ensures Mean(xs).Real?
    ensures lo <= Mean(xs).v <= hi
  {
    var t, n := Total(xs), |xs| as real;
    assert t.Real? && n * lo <= t.v <= n * hi by { TotalBounds(xs, lo, hi); }
    assert lo <= t.v / n <= hi by { DivBetween(t.v, n, lo, hi); }
    assert Mean(xs) == Real(t.v / n);
  }

  lemma DivBetween(s: real, n: real, lo: real, hi: real)
    requires n > 0.0 && n * lo <= s <= n * hi
    ensures lo <= s / n <= hi
  {
    var q := s / n;
    assert q * n == s;
    assert (q - lo) * n == s - n * lo;
    assert (hi - q) * n == n * hi - s;
  }

  /** For a period `YYYY` + rest whose year reads and prints as a plain
      decimal, the key of year `k` is the same rest after the four digits of
      `YYYY - k`: it has the period's shape, so it can name an earlier row. */
  lemma SameWeekKey(p: string, k: int, conv: Coercions)
    requires 4 <= |p| && Text.IsDigits(p[..4]) && 1 <= k <= Years
    requires Text.DigitsValue(p[..4]) >= 1000 + Years
    requires conv.parse(p[..4]) == Real(Text.DigitsValue(p[..4]) as real)
    requires conv.show((Text.DigitsValue(p[..4]) - k) as real) == Text.NatText(Text.DigitsValue(p[..4]) - k)
    ensures var key := YearKey(conv.parse(Seqs.JsSlice(p, 0, 4)), k, Seqs.JsSlice(p, 4, |p|), conv);
      && |key| == |p|
      && key[4..] == p[4..]
      && Text.IsDigits(key[..4])
      && Text.DigitsValue(key[..4]) == Text.DigitsValue(p[..4]) - k
  {
    var y := Text.DigitsValue(p[..4]);
    assert y <= 9999 by { FourDigits(p[..4]); }
    var t := Text.NatText(y - k);
    assert |t| == 4 && Text.DigitsValue(t) == y - k by { FourDigitYear(y - k); }
    var key := YearKey(conv.parse(Seqs.JsSlice(p, 0, 4)), k, Seqs.JsSlice(p, 4, |p|), conv);
    assert key == t + p[4..] by {
      assert Seqs.JsSlice(p, 0, 4) == p[..4] && Seqs.JsSlice(p, 4, |p|) == p[4..];
    }
    assert key[..4] == t && key[4..] == p[4..];
  }

  /** A four-digit year prints as four digits that read back as the year. */
  lemma FourDigitYear(n: nat)
    requires 1000 <= n <= 9999
    ensures |Text.NatText(n)| == 4 && Text.DigitsValue(Text.NatText(n)) == n
  {
    Text.NatTextWidth(n);
    Text.NatTextRoundTrip(n);
  }

  lemma FourDigits(s: string)
    requires Text.IsDigits(s) && |s| == 4
    ensures Text.DigitsValue(s) <= 9999
  {
    DigitsBound(s);
    assert Pow10(2) == 100;
    assert Pow10(4) == 10000;
  }

  /** A string of `n` decimal digits reads as less than `10^n`. */
  lemma {:induction false} DigitsBound(s: string)
    requires Text.IsDigits(s)
    ensures Text.DigitsValue(s) < Pow10(|s|)
    decreases |s|
  {
    if |s| > 0 {
      DigitsBound(s[..|s| - 1]);
    }
  }

  function Pow10(n: nat): (r: nat)
    ensures r >= 1
  {
    if n == 0 then 1 else 10 * Pow10(n - 1)
  }
}

=== FILE: js.dfy ===
/** JavaScript values as the server and the front end see them: optional
    values, numbers with NaN, JSON request-body values and the coercions
    `Number(..)`, `String(..)` and `x || d` applied to them. */
module Js {

  /** `null` / `undefined` versus a present value. */
  datatype Option<+T> = None | Some(value: T)

  /** A JavaScript number. NaN is a value of its own; every ordered
      comparison with it is false. Infinities are not modelled. */
  datatype Num = Real(v: real) | NaN

  /** `!x` for a number: 0 and NaN are the falsy numbers. */
  predicate Falsy(x: Num) {
    x.NaN? || x.v == 0.0
  }

  /** `x || d` for a number `x` and a numeric default `d`. */
  function OrElse(x: Num, d: real): (r: Num)
    ensures r.Real?
    ensures Falsy(x) ==> r == Real(d)
    ensures !Falsy(x) ==> r == x
  {
    if Falsy(x) then Real(d) else x
  }

  /** `x > y`, false when `x` is NaN. */
  predicate Gt(x: Num, y: real) {
    x.Real? && x.v > y
  }

  /** `x < y`, false when `x` is NaN. */
  predicate Lt(x: Num, y: real) {
    x.Real? && x.v < y
  }

  /** `x >= y`, false when `x` is NaN. */
  predicate Ge(x: Num, y: real) {
    x.Real? && x.v >= y
  }

  /** A relational operator coerces `null` to +0 before comparing. */
  function Coerce(x: Option<Num>): Num {
    match x
    case None => Real(0.0)
    case Some(n) => n
  }

  /** A JSON value of a parsed request body (arrays and objects are not modelled). */
  datatype Value = Null | Bool(b: bool) | Number(n: real) | Str(s: string)

  /** JavaScript truthiness of a JSON value. */
  predicate Truthy(v: Value) {
    match v
    case Null => false
    case Bool(b) => b
    case Number(n) => n != 0.0
    case Str(s) => s != []
  }

  /** The parts of `Number(..)` and `String(..)` that are not modelled here:
      the numeric-literal grammar for strings and the shortest round-trip
      printing of numbers. */
  datatype Coercions = Coercions(parse: string -> Num, show: real -> string)

  /** `Number(v)`. */
  function ToNumber(v: Value, c: Coercions): (r: Num)
    ensures v.Null? ==> r == Real(0.0)
    ensures v.Number? ==> r == Real(v.n)
    ensures v.Bool? ==> r == Real(if v.b then 1.0 else 0.0)
  {
    match v
    case Null => Real(0.0)
    case Bool(b) => Real(if b then 1.0 else 0.0)
    case Number(n) => Real(n)
    case Str(s) => c.parse(s)
  }

  /** `String(v)`. */
  function ToText(v: Value, c: Coercions): (r: string)
    ensures v.Str? ==> r == v.s
    ensures v.Null? ==> r == "null"
  {
    match v
    case Null => "null"
    case Bool(b) => if b then "true" else "false"
    case Number(n) => c.show(n)
    case Str(s) => s
  }

  /** `ToIntegerOrInfinity` of a finite number: truncation toward zero, NaN to 0. */
  function ToInteger(x: Num): int {
    match x
    case NaN => 0
    case Real(v) => if v >= 0.0 then v.Floor else -((-v).Floor)
  }

  /** Truncation moves toward zero by less than one. */
  lemma ToIntegerBounds(x: Num)
    ensures x.NaN? ==> ToInteger(x) == 0
    ensures x.Real? && x.v >= 0.0 ==> 0 <= ToInteger(x) && ToInteger(x) as real <= x.v < ToInteger(x) as real + 1.0
    ensures x.Real? && x.v < 0.0 ==> ToInteger(x) <= 0 && ToInteger(x) as real - 1.0 < x.v <= ToInteger(x) as real
  {
  }

  /** An integral number converts to itself. */
  lemma ToIntegerExact(n: int)
    ensures ToInteger(Real(n as real)) == n
  {
    if n < 0 {
      assert (-(n as real)).Floor == -n;
    }
  }
}

=== FILE: news_api.dfy ===
/** The two news endpoints, `/api/news` and `/api/news/portfolio`, after
    the upstream requests have answered: parsing the ticker query, the
    twelve-month window, the keyword categories, the newest-first sort and
    the `offset`/`limit` page. What each ticker's request returned is an
    input (`None` for a request that failed and was skipped), and so is
    the parsed publication time of each article. */
module NewsFeed {
  import opened Js
  import Text
  import Seqs
  import PortfolioStore

  /** An article as the upstream feed returns it, tagged with the ticker it
      was requested for. `ts` is `new Date(published_utc || 0).getTime()`. */
  datatype Article = Article(ticker: string, title: string, ts: Num)

  datatype Category = DividendUp | DividendDown | SpinOff | Earnings

  /** An article of the response, with the categories computed for it. */
  datatype Item = Item(article: Article, categories: seq<Category>)

  /** The JSON answer: 400 when there are no tickers, otherwise one page. */
  datatype Response =
    | BadRequest
    | Page(items: seq<Item>, total: nat, limit: real, offset: real, tickers: seq<string>)

  const MaxTickers: nat := 20
  const DefaultLimit: real := 150.0
  const MaxLimit: real := 1000.0
  const YearMs: int := 365 * 24 * 3600 * 1000
  const ChunkSize: nat := 20

  // ---- the ticker query ---------------------------------------------------

  /** `s.trim().toUpperCase()`. */
  function NormTicker(s: string): string {
    Text.Upper(Text.Trim(s))
  }

  /** `pieces.map(s => s.trim().toUpperCase()).filter(Boolean)`. */
  function NormTickers(pieces: seq<string>): (r: seq<string>)
    ensures |r| <= |pieces|
    ensures forall j :: 0 <= j < |r| ==> r[j] != []
    decreases |pieces|
  {
    if |pieces| == 0 then []
    else
      var t := NormTicker(pieces[0]);
      if t == [] then NormTickers(pieces[1..]) else [t] + NormTickers(pieces[1..])
  }

  /** `String(q || '').split(',').map(..).filter(Boolean).slice(0, 20)`;
      an absent query is the empty string. */
  function ParseTickers(q: string): (r: seq<string>)
    ensures |r| <= MaxTickers
    ensures forall j :: 0 <= j < |r| ==> r[j] != [] && ',' !in r[j]
  {
    var all := NormTickers(Text.Split(q, ','));
    NoCommaSurvives(Text.Split(q, ','));
    if |all| <= MaxTickers then all else all[..MaxTickers]
  }

  lemma {:induction false} NoCommaSurvives(pieces: seq<string>)
    requires forall i :: 0 <= i < |pieces| ==> ',' !in pieces[i]
    ensures forall j :: 0 <= j < |NormTickers(pieces)| ==> ',' !in NormTickers(pieces)[j]
    decreases |pieces|
  {
    if |pieces| > 0 {
      NoCommaSurvives(pieces[1..]);
      var t := NormTicker(pieces[0]);
      if t != [] {
        TrimUpperKeeps(pieces[0], ',');
      }
    }
  }

  /** Trimming and upper-casing introduce no character that is not a letter
      of the ASCII upper case. */
  lemma TrimUpperKeeps(s: string, c: char)
    requires c !in s && !Text.IsLower(c) && !Text.IsUpper(c)
    ensures c !in NormTicker(s)
  {
    var t := Text.Trim(s);
    var a := Text.LeadingSpaces(s);
    if t != [] {
      assert Text.StartsAt(s, t, a);
      forall i | 0 <= i < |t| ensures t[i] != c {
        assert t[i] == s[a + i];
      }
    }
  }

  /** A ticker list a client writes as `A,B,C` reads back unchanged: each
      ticker non-empty, free of commas and white space, already upper case. */
  lemma {:induction false} ParseTickersRoundTrip(ts: seq<string>)
    requires 1 <= |ts| <= MaxTickers
    requires forall j :: 0 <= j < |ts| ==> ts[j] != [] && ',' !in ts[j]
    requires forall j, i :: 0 <= j < |ts| && 0 <= i < |ts[j]| ==> !Text.IsSpace(ts[j][i]) && !Text.IsLower(ts[j][i])
    ensures ParseTickers(Text.Join(ts, [','])) == ts
  {
    Text.SplitJoin(ts, ',');
    NormTickersIdentity(ts);
  }

  lemma {:induction false} NormTickersIdentity(ts: seq<string>)
    requires forall j :: 0 <= j < |ts| ==> ts[j] != []
    requires forall j, i :: 0 <= j < |ts| && 0 <= i < |ts[j]| ==> !Text.IsSpace(ts[j][i]) && !Text.IsLower(ts[j][i])
    ensures NormTickers(ts) == ts
    decreases |ts|
  {
    if |ts| > 0 {
      var s := ts[0];
      assert forall i :: 0 <= i < |s| ==> !Text.IsSpace(s[i]) && !Text.IsLower(s[i]);
      assert Text.Trim(s) == s;
      assert Text.Upper(s) == s;
      NormTickersIdentity(ts[1..]);
      assert ts == [ts[0]] + ts[1..];
    }
  }

  // ---- limit and offset ---------------------------------------------------

  /** `Math.min(Number(limit) || 150, 1000)`. */
  function Limit(arg: Num): (l: real)
    ensures l <= MaxLimit
    ensures Falsy(arg) ==> l == DefaultLimit
    ensures !Falsy(arg) && arg.v <= MaxLimit ==> l == arg.v
    ensures !Falsy(arg) && arg.v >= MaxLimit ==> l == MaxLimit
  {
    var x := OrElse(arg, DefaultLimit).v;
    if x < MaxLimit then x else MaxLimit
  }

  /** `Math.max(Number(offset) || 0, 0)`. */
  function Offset(arg: Num): (o: real)
    ensures o >= 0.0
    ensures !Falsy(arg) && arg.v >= 0.0 ==> o == arg.v
    ensures Falsy(arg) || arg.v < 0.0 ==> o == 0.0
  {
    var x := OrElse(arg, 0.0).v;
    if x > 0.0 then x else 0.0
  }

  // ---- window, categories, order ------------------------------------------

  /** `!isNaN(n._ts) && n._ts >= now - 365 days`. */
  predicate InWindow(a: Article, now: int) {
    Ge(a.ts, (now - YearMs) as real)
  }

  /** The articles of the last twelve months, in their original order. */
  function Recent(all: seq<Article>, now: int): (r: seq<Article>)
    ensures |r| <= |all|
    ensures forall a :: multiset(r)[a] == if InWindow(a, now) then multiset(all)[a] else 0
    decreases |all|
  {
    if |all| == 0 then []
    else
      assert all == [all[0]] + all[1..];
      (if InWindow(all[0], now) then [all[0]] else []) + Recent(all[1..], now)
  }

  predicate IsWordChar(c: char) {
    Text.IsLower(c) || Text.IsUpper(c) || ('0' <= c <= '9') || c == '_'
  }

  /** `q1`..`q4` as a whole word starting at `i`. */
  predicate QuarterAt(t: string, i: int) {
    && 0 <= i && i + 2 <= |t|
    && t[i] == 'q' && '1' <= t[i + 1] <= '4'
    && (i == 0 || !IsWordChar(t[i - 1]))
    && (i + 2 == |t| || !IsWordChar(t[i + 2]))
  }

  /** `/\bq[1-4]\b/.test(t)`. */
  predicate HasQuarter(t: string) {
    exists i | 0 <= i <= |t| - 2 :: QuarterAt(t, i)
  }

  /** The rank of a category in the order `categorizeNewsItem` pushes them. */
  function Rank(c: Category): nat {
    match c
    case DividendUp => 0
    case DividendDown => 1
    case SpinOff => 2
    case Earnings => 3
  }

  /** The keyword test of each category, on the lower-cased title. */
  predicate Applies(c: Category, t: string) {
    match c
    case DividendUp =>
      Text.Contains(t, "dividend") && (Text.Contains(t, "increase") || Text.Contains(t, "raise"))
    case DividendDown =>
      Text.Contains(t, "dividend") && (Text.Contains(t, "cut") || Text.Contains(t, "reduce") || Text.Contains(t, "slash"))
    case SpinOff =>
      Text.Contains(t, "spin") && Text.Contains(t, "off")
    case Earnings =>
      HasQuarter(t) || Text.Contains(t, "earnings")
  }

  function When(b: bool, c: Category): (r: seq<Category>)
    ensures forall d :: d in r <==> b && d == c
    ensures |r| <= 1
  {
    if b then [c] else []
  }

  /** `categorizeNewsItem`: each category whose keywords the lower-cased title
      holds, once, in the order the tests run. */
  function Categorize(title: string): (r: seq<Category>)
    ensures forall c :: c in r <==> Applies(c, Text.Lower(title))
    ensures Seqs.Increasing(r, Rank)
  {
    var t := Text.Lower(title);
    var r := When(Applies(DividendUp, t), DividendUp) + When(Applies(DividendDown, t), DividendDown)
      + When(Applies(SpinOff, t), SpinOff) + When(Applies(Earnings, t), Earnings);
    EveryCategoryTested(r, t);
    CategoriesRanked(Applies(DividendUp, t), Applies(DividendDown, t), Applies(SpinOff, t), Applies(Earnings, t));
    r
  }

  lemma CategoriesRanked(up: bool, down: bool, spin: bool, earn: bool)
    ensures Seqs.Increasing(When(up, DividendUp) + When(down, DividendDown) + When(spin, SpinOff) + When(earn, Earnings), Rank)
  {
    var a, b, c, d := When(up, DividendUp), When(down, DividendDown), When(spin, SpinOff), When(earn, Earnings);
    assert Seqs.Increasing(a + b, Rank) by { Seqs.AppendIncreasing(a, b, 1, Rank); }
    assert Seqs.Increasing(a + b + c, Rank) by { Seqs.AppendIncreasing(a + b, c, 2, Rank); }
    Seqs.AppendIncreasing(a + b + c, d, 3, Rank);
  }

  lemma EveryCategoryTested(r: seq<Category>, t: string)
    requires r == When(Applies(DividendUp, t), DividendUp) + When(Applies(DividendDown, t), DividendDown)
      + When(Applies(SpinOff, t), SpinOff) + When(Applies(Earnings, t), Earnings)
    ensures forall c :: c in r <==> Applies(c, t)
  {
    forall c ensures c in r <==> Applies(c, t) {
      match c
      case DividendUp =>
      case DividendDown =>
      case SpinOff =>
      case Earnings =>
    }
  }

  /** `filtered.map(n => ({ ...n, categories: categorizeNewsItem(n) }))`. */
  function Tag(xs: seq<Article>): (r: seq<Item>)
    ensures |r| == |xs|
    ensures forall i :: 0 <= i < |xs| ==> r[i] == Item(xs[i], Categorize(xs[i].title))
  {
    seq(|xs|, i requires 0 <= i < |xs| => Item(xs[i], Categorize(xs[i].title)))
  }

  /** The sort key `_ts`; every item that reaches the sort has a numeric one. */
  function TsKey(x: Item): real {
    if x.article.ts.Real? then x.article.ts.v else 0.0
  }

  /** The articles of the window, categorised and sorted newest first. */
  function Sorted(all: seq<Article>, now: int): (r: seq<Item>)
    ensures |r| == |Recent(all, now)|
    ensures Seqs.NonIncreasing(r, TsKey)
    ensures multiset(r) == multiset(Tag(Recent(all, now)))
  {
    Seqs.SortDesc(Tag(Recent(all, now)), TsKey)
  }

  /** The page of the merged articles: window, categorise, sort newest first,
      then `slice(offset, offset + limit)`; `total` counts the whole window.
      Every article of a page was fetched, lies in the window and carries its
      title's categories, and the page runs newest first. */
  function Feed(all: seq<Article>, now: int, limitArg: Num, offsetArg: Num, tickers: seq<string>): (r: Response)
    requires tickers != []
    ensures r.Page? && r.tickers == tickers
    ensures r.total == |Recent(all, now)|
    ensures r.limit == Limit(limitArg) && r.offset == Offset(offsetArg)
    ensures forall x :: x in r.items ==>
      x.article in all && InWindow(x.article, now) && x.categories == Categorize(x.article.title)
    ensures Seqs.NonIncreasing(r.items, TsKey)
  {
    var offset := Offset(offsetArg);
    var limit := Limit(limitArg);
    var a := ToInteger(Real(offset));
    var b := ToInteger(Real(offset + limit));
    PageSound(all, now, a, b);
    Page(Seqs.JsSlice(Sorted(all, now), a, b), |Recent(all, now)|, limit, offset, tickers)
  }

  lemma PageSound(all: seq<Article>, now: int, a: int, b: int)
    ensures var page := Seqs.JsSlice(Sorted(all, now), a, b);
      && (forall x :: x in page ==>
            x.article in all && InWindow(x.article, now) && x.categories == Categorize(x.article.title))
      && Seqs.NonIncreasing(page, TsKey)
  {
    var recent := Recent(all, now);
    var sorted := Sorted(all, now);
    forall x | x in Seqs.JsSlice(sorted, a, b)
      ensures x.article in all && InWindow(x.article, now) && x.categories == Categorize(x.article.title)
    {
      Seqs.SliceSubset(sorted, a, b, x);
      assert x in multiset(Tag(recent));
      FromTagged(recent, x);
      FromRecent(all, now, x.article);
    }
    Seqs.SliceNonIncreasing(sorted, a, b, TsKey);
  }

  lemma FromTagged(xs: seq<Article>, x: Item)
    requires x in Tag(xs)
    ensures x.article in xs && x.categories == Categorize(x.article.title)
  {
    var i :| 0 <= i < |xs| && Tag(xs)[i] == x;
  }

  lemma FromRecent(all: seq<Article>, now: int, a: Article)
    requires a in Recent(all, now)
    ensures a in all && InWindow(a, now)
  {
    assert multiset(Recent(all, now))[a] > 0;
  }

  /** `GET /api/news`. */
  function News(query: string, limitArg: Num, offsetArg: Num, fetched: string -> Option<seq<Article>>, now: int): (r: Response)
    ensures r.BadRequest? <==> ParseTickers(query) == []
    ensures r.Page? ==> r.tickers == ParseTickers(query) && r == Feed(Gather(r.tickers, fetched), now, limitArg, offsetArg, r.tickers)
  {
    var tickers := ParseTickers(query);
    if tickers == [] then BadRequest
    else Feed(Gather(tickers, fetched), now, limitArg, offsetArg, tickers)
  }

  // ---- gathering the per-ticker answers -----------------------------------

  /** `results.forEach(n => all.push({ ...n, ticker: t }))`. */
  function Label(t: string, xs: seq<Article>): (r: seq<Article>)
    ensures |r| == |xs|
    ensures forall i :: 0 <= i < |xs| ==> r[i] == xs[i].(ticker := t)
  {
    seq(|xs|, i requires 0 <= i < |xs| => xs[i].(ticker := t))
  }

  /** The articles of one ticker's request, labelled with it; nothing when
      the request failed. */
  function Answer(t: string, fetched: string -> Option<seq<Article>>): (r: seq<Article>)
    ensures forall a :: a in r ==> fetched(t).Some? && exists x :: x in fetched(t).value && a == x.(ticker := t)
  {
    match fetched(t)
    case None => []
    case Some(xs) =>
      assert forall a :: a in Label(t, xs) ==> exists x :: x in xs && a == x.(ticker := t) by {
        forall a | a in Label(t, xs) ensures exists x :: x in xs && a == x.(ticker := t) {
          var i :| 0 <= i < |xs| && Label(t, xs)[i] == a;
          assert xs[i] in xs;
        }
      }
      Label(t, xs)
  }

  /** The answers of the requests for `tickers`, one after another; a failed
      request contributes nothing. Every article comes from the answer to the
      request for a listed ticker, labelled with that ticker (`GatherAppend`
      and `GatherOne` pin the order and the repeats). */
  function Gather(tickers: seq<string>, fetched: string -> Option<seq<Article>>): (r: seq<Article>)
    ensures forall a :: a in r ==> a.ticker in tickers
    ensures forall a :: a in r ==> exists t :: t in tickers && a in Answer(t, fetched)
    decreases |tickers|
  {
    if |tickers| == 0 then []
    else
      var t := tickers[0];
      var rest := Gather(tickers[1..], fetched);
      assert forall a :: a in rest ==> exists u :: u in tickers && a in Answer(u, fetched) by {
        forall a | a in rest ensures exists u :: u in tickers && a in Answer(u, fetched) {
          var u :| u in tickers[1..] && a in Answer(u, fetched);
          assert u in tickers;
        }
      }
      Answer(t, fetched) + rest
  }

  /** Gathering two ticker lists one after the other gives the concatenation
      of their articles. */
  lemma {:induction false} GatherAppend(a: seq<string>, b: seq<string>, fetched: string -> Option<seq<Article>>)
    ensures Gather(a + b, fetched) == Gather(a, fetched) + Gather(b, fetched)
    decreases |a|
  {
    if |a| > 0 {
      var ab := a + b;
      assert ab[0] == a[0] && ab[1..] == a[1..] + b;
      GatherAppend(a[1..], b, fetched);
      GatherStep(ab, fetched);
      GatherStep(a, fetched);
      Seqs.Regroup(Gather(ab, fetched), Gather(a, fetched), Answer(a[0], fetched), Gather(a[1..], fetched), Gather(b, fetched));
    } else {
      assert a + b == b;
    }
  }

  lemma GatherStep(tickers: seq<string>, fetched: string -> Option<seq<Article>>)
    requires |tickers| > 0
    ensures Gather(tickers, fetched) == Answer(tickers[0], fetched) + Gather(tickers[1..], fetched)
  {
  }

  /** One ticker gives its labelled answer, or nothing when its request failed. */
  lemma GatherOne(t: string, fetched: string -> Option<seq<Article>>)
    ensures fetched(t).None? ==> Gather([t], fetched) == []
    ensures fetched(t).Some? ==> Gather([t], fetched) == Label(t, fetched(t).value)
  {
    assert [t][1..] == [];
  }

  /** `for (const group of chunks) { ...; allNews.push(...groupNews) }`. */
  function GatherChunks(groups: seq<seq<string>>, fetched: string -> Option<seq<Article>>): seq<Article>
    decreases |groups|
  {
    if |groups| == 0 then [] else Gather(groups[0], fetched) + GatherChunks(groups[1..], fetched)
  }

  /** Fetching in groups of 20 collects the same articles, in the same order,
      as fetching the tickers one by one. */
  lemma {:induction false} ChunkedGatherIsGather(tickers: seq<string>, fetched: string -> Option<seq<Article>>)
    ensures GatherChunks(Seqs.Chunks(tickers, ChunkSize), fetched) == Gather(tickers, fetched)
    decreases |tickers|
  {
    if |tickers| > ChunkSize {
      var rest := tickers[ChunkSize..];
      ChunkedGatherIsGather(rest, fetched);
      assert Seqs.Chunks(tickers, ChunkSize)[1..] == Seqs.Chunks(rest, ChunkSize);
      GatherAppend(tickers[..ChunkSize], rest, fetched);
      assert tickers == tickers[..ChunkSize] + rest;
    } else if |tickers| > 0 {
      assert Seqs.Chunks(tickers, ChunkSize) == [tickers];
    }
  }

  /** `GET /api/news/portfolio`: 400 without a portfolio file (`None`) or
      without a ticker in it, otherwise the page over the portfolio's tickers,
      fetched in groups of 20. */
  function PortfolioNews(file: Option<seq<PortfolioStore.Position>>, limitArg: Num, offsetArg: Num,
                         fetched: string -> Option<seq<Article>>, now: int): (r: Response)
    ensures r.BadRequest? <==> file.None? || PortfolioStore.Tickers(file.value) == []
    ensures r.Page? ==> r.tickers == PortfolioStore.Tickers(file.value)
    ensures r.Page? ==> r == Feed(Gather(r.tickers, fetched), now, limitArg, offsetArg, r.tickers)
  {
    if file.None? then BadRequest
    else
      var tickers := PortfolioStore.Tickers(file.value);
      if tickers == [] then BadRequest
      else
        var all := GatherChunks(Seqs.Chunks(tickers, ChunkSize), fetched);
        ChunkedGatherIsGather(tickers, fetched);
        Feed(all, now, limitArg, offsetArg, tickers)
  }

  // ---- page bounds ----------------------------------------------------------

  /** The page is the slice of the sorted articles between the truncated
      offset and the truncated offset plus limit. */
  lemma FeedItems(all: seq<Article>, now: int, limitArg: Num, offsetArg: Num, tickers: seq<string>)
    requires tickers != []
    ensures var o := Offset(offsetArg);
      Feed(all, now, limitArg, offsetArg, tickers).items
        == Seqs.JsSlice(Sorted(all, now), ToInteger(Real(o)), ToInteger(Real(o + Limit(limitArg))))
  {
  }

  /** With a non-negative limit a page never holds more than 1000 articles. */
  lemma PageAtMostMax(all: seq<Article>, now: int, limitArg: Num, offsetArg: Num, tickers: seq<string>)
    requires tickers != []
    requires Limit(limitArg) >= 0.0
    ensures |Feed(all, now, limitArg, offsetArg, tickers).items| <= 1000
  {
    FeedItems(all, now, limitArg, offsetArg, tickers);
    WindowWidth(Sorted(all, now), Offset(offsetArg), Limit(limitArg));
  }

  lemma WindowWidth<T>(s: seq<T>, o: real, l: real)
    requires o >= 0.0 && 0.0 <= l <= MaxLimit
    ensures |Seqs.JsSlice(s, ToInteger(Real(o)), ToInteger(Real(o + l)))| <= 1000
  {
    var a, b := ToInteger(Real(o)), ToInteger(Real(o + l));
    assert a as real <= o < a as real + 1.0 by { ToIntegerBounds(Real(o)); }
    assert b as real <= o + l < b as real + 1.0 by { ToIntegerBounds(Real(o + l)); }
    Seqs.SliceWidth(s, a, b);
  }

  /** A negative `limit` is not rejected: it makes the end index negative,
      and `slice` counts it from the end, so from offset 0 the page is every
      article but the oldest `n`. */
  lemma NegativeLimitDropsOldest(all: seq<Article>, now: int, n: int, tickers: seq<string>)
    requires tickers != []
    requires 0 < n <= |Recent(all, now)|
    ensures var r := Feed(all, now, Real(-(n as real)), Real(0.0), tickers);
      && |r.items| == r.total - n
      && r.items == Sorted(all, now)[..r.total - n]
  {
    FeedItems(all, now, Real(-(n as real)), Real(0.0), tickers);
    NegativeWindow(Sorted(all, now), n);
  }

  lemma NegativeWindow<T>(s: seq<T>, n: int)
    requires 0 < n <= |s|
    ensures var o := Offset(Real(0.0));
      Seqs.JsSlice(s, ToInteger(Real(o)), ToInteger(Real(o + Limit(Real(-(n as real)))))) == s[..|s| - n]
  {
    NegativeLimitBounds(n);
  }

  lemma NegativeLimitBounds(n: int)
    requires n > 0
    ensures ToInteger(Real(Offset(Real(0.0)))) == 0
    ensures ToInteger(Real(Offset(Real(0.0)) + Limit(Real(-(n as real))))) == -n
  {
    assert Offset(Real(0.0)) == 0.0;
    assert Limit(Real(-(n as real))) == (-n) as real;
    ToIntegerExact(-n);
    ToIntegerExact(0);
  }

  /** From offset 0 with a limit that covers them all, the page is every
      recent article, each exactly once. */
  lemma FullPage(all: seq<Article>, now: int, limitArg: Num, tickers: seq<string>)
    requires tickers != []
    requires Limit(limitArg) >= |Recent(all, now)| as real
    ensures var r := Feed(all, now, limitArg, Real(0.0), tickers);
      multiset(r.items) == multiset(Tag(Recent(all, now)))
  {
    var l := Limit(limitArg);
    var sorted := Sorted(all, now);
    var b := ToInteger(Real(Offset(Real(0.0)) + l));
    assert ToInteger(Real(Offset(Real(0.0)))) == 0 by {
      assert Offset(Real(0.0)) == 0.0;
      ToIntegerExact(0);
    }
    assert b >= |sorted| by {
      assert Offset(Real(0.0)) + l == l;
      ToIntegerBounds(Real(l));
    }
    assert Seqs.JsSlice(sorted, 0, b) == sorted;
    assert Feed(all, now, limitArg, Real(0.0), tickers).items == sorted;
  }
}

=== FILE: news_view.dfy ===
/** The news card's classifiers: the key-fact bullet points of
    `extractKeyFacts` and the topic badges of `renderNewsCard`. The matches
    of the numeric regular expression are an input (`text.match(..)`, with
    `null` as the empty list); every keyword test is a case-insensitive
    search for a lower-case ASCII word. */
module NewsView {
  import Text
  import Seqs

  /** `/re1|re2|.../i.test(text)` for plain words. */
  predicate AnyWord(text: string, words: seq<string>) {
    exists i :: 0 <= i < |words| && Text.ContainsCI(text, words[i])
  }

  const DividendWords: seq<string> := ["dividend", "distribution", "payout", "yield"]
  const EarningsWords: seq<string> := ["eps", "revenue", "earnings", "forecast", "beat", "miss", "quarter"]
  const RiskWords: seq<string> := ["risk", "lawsuit", "regulation", "investigation", "sec", "warns"]

  // ---- extractKeyFacts ------------------------------------------------------

  /** A bullet point: the important numbers (the matches joined by `", "`),
      dividends, earnings and outlook, risks and warnings. */
  datatype Fact = Numbers(list: string) | Dividends | Earnings | Risks

  function Kind(f: Fact): nat {
    match f
    case Numbers(_) => 0
    case Dividends => 1
    case Earnings => 2
    case Risks => 3
  }

  function When(b: bool, f: Fact): (r: seq<Fact>)
    ensures f in r <==> b
    ensures |r| <= 1
    ensures forall x :: x in r ==> x == f
  {
    if b then [f] else []
  }

  /** All points before the cut to three, in push order. */
  function AllFacts(text: string, matches: seq<string>): (r: seq<Fact>)
    ensures |r| <= 4
  {
    When(matches != [], Numbers(Text.Join(matches, ", ")))
    + When(AnyWord(text, DividendWords), Dividends)
    + When(AnyWord(text, EarningsWords), Earnings)
    + When(AnyWord(text, RiskWords), Risks)
  }

  /** `extractKeyFacts(text)`: nothing for an empty text, otherwise the
      points whose test fires, in a fixed order, the first three of them. */
  function KeyFacts(text: string, matches: seq<string>): (r: seq<Fact>)
    ensures text == "" ==> r == []
    ensures |r| <= 3
  {
    if text == "" then [] else
      var all := AllFacts(text, matches);
      if |all| <= 3 then all else all[..3]
  }

  /** Which points appear: the number point exactly when something matched,
      listing the matches; the dividend and earnings points exactly when one
      of their words occurs; the risk point when one of its words occurs,
      unless the three points before it take all the room. */
  lemma KeyFactsPresent(text: string, matches: seq<string>)
    requires text != ""
    ensures var r := KeyFacts(text, matches);
      && (Numbers(Text.Join(matches, ", ")) in r <==> matches != [])
      && (forall l :: Numbers(l) in r ==> l == Text.Join(matches, ", "))
      && (Dividends in r <==> AnyWord(text, DividendWords))
      && (Earnings in r <==> AnyWord(text, EarningsWords))
      && (Risks in r <==> AnyWord(text, RiskWords)
                          && !(matches != [] && AnyWord(text, DividendWords) && AnyWord(text, EarningsWords)))
  {
    var n := When(matches != [], Numbers(Text.Join(matches, ", ")));
    var d := When(AnyWord(text, DividendWords), Dividends);
    var e := When(AnyWord(text, EarningsWords), Earnings);
    var k := When(AnyWord(text, RiskWords), Risks);
    var all := AllFacts(text, matches);
    assert all == n + d + e + k;
    if |all| <= 3 {
      assert forall x :: x in all <==> x in n || x in d || x in e || x in k;
    } else {
      assert |n| == 1 && |d| == 1 && |e| == 1 && |k| == 1;
      assert all[..3] == n + d + e;
      assert forall x :: x in all[..3] <==> x in n || x in d || x in e;
    }
  }

  lemma AllFactsInOrder(text: string, matches: seq<string>)
    ensures Seqs.Increasing(AllFacts(text, matches), Kind)
  {
    PushOrder(matches != [], Text.Join(matches, ", "), AnyWord(text, DividendWords),
      AnyWord(text, EarningsWords), AnyWord(text, RiskWords));
  }

  lemma PushOrder(num: bool, list: string, div: bool, earn: bool, risk: bool)
    ensures Seqs.Increasing(When(num, Numbers(list)) + When(div, Dividends) + When(earn, Earnings) + When(risk, Risks), Kind)
  {
    var n, d, e, k := When(num, Numbers(list)), When(div, Dividends), When(earn, Earnings), When(risk, Risks);
    assert Seqs.Increasing(n + d, Kind) by { Seqs.AppendIncreasing(n, d, 1, Kind); }
    assert Seqs.Increasing(n + d + e, Kind) by { Seqs.AppendIncreasing(n + d, e, 2, Kind); }
    Seqs.AppendIncreasing(n + d + e, k, 3, Kind);
  }

  /** The points keep the push order: numbers, dividends, earnings, risks. */
  lemma KeyFactsOrdered(text: string, matches: seq<string>)
    ensures Seqs.Increasing(KeyFacts(text, matches), Kind)
  {
    var all := AllFacts(text, matches);
    AllFactsInOrder(text, matches);
    if text != "" && |all| > 3 {
      assert forall i :: 0 <= i < 3 ==> all[..3][i] == all[i];
    }
  }

  // ---- badges -----------------------------------------------------------------

  /** `div`, `earn`, `ma`. */
  datatype Badge = Div | Earn | Ma

  function BadgeRank(b: Badge): nat {
    match b
    case Div => 0
    case Earn => 1
    case Ma => 2
  }

  const DivBadgeWords: seq<string> := ["dividend", "distribution", "sonderdividende"]
  const EarnBadgeWords: seq<string> := ["earnings", "eps", "revenue", "results", "quarter", "q1", "q2", "q3", "q4"]
  const MaBadgeWords: seq<string> := ["merger", "acquisition", "spin-off", "spin off", "spinoff", "buyout"]

  function Tag(b: bool, x: Badge): (r: seq<Badge>)
    ensures x in r <==> b
    ensures |r| <= 1
    ensures forall y :: y in r ==> y == x
  {
    if b then [x] else []
  }

  /** The badges of a card for `title + " " + (description || summary)`. */
  function Badges(fullText: string): (r: seq<Badge>)
    ensures Div in r <==> AnyWord(fullText, DivBadgeWords)
    ensures Earn in r <==> AnyWord(fullText, EarnBadgeWords)
    ensures Ma in r <==> AnyWord(fullText, MaBadgeWords)
    ensures Seqs.Increasing(r, BadgeRank)
  {
    var d := Tag(AnyWord(fullText, DivBadgeWords), Div);
    var e := Tag(AnyWord(fullText, EarnBadgeWords), Earn);
    var m := Tag(AnyWord(fullText, MaBadgeWords), Ma);
    assert Seqs.Increasing(d + e, BadgeRank) by { Seqs.AppendIncreasing(d, e, 1, BadgeRank); }
    Seqs.AppendIncreasing(d + e, m, 2, BadgeRank);
    d + e + m
  }

  /** A card with the dividend badge also carries the dividend bullet point:
      each badge word contains a word of the bullet test. */
  lemma DivBadgeHasDividendFact(fullText: string, matches: seq<string>)
    requires Div in Badges(fullText)
    ensures Dividends in KeyFacts(fullText, matches)
  {
    var i :| 0 <= i < |DivBadgeWords| && Text.ContainsCI(fullText, DivBadgeWords[i]);
    assert fullText != "";
    if i == 2 {
      assert Text.ContainsCI(fullText, "sonderdividende"[6..14]) by {
        Text.ContainsPiece(Text.Lower(fullText), DivBadgeWords[2], 6, 14);
      }
      assert "sonderdividende"[6..14] == DividendWords[0];
    } else {
      assert DivBadgeWords[i] == DividendWords[i];
    }
    assert AnyWord(fullText, DividendWords);
    KeyFactsPresent(fullText, matches);
  }
}

=== FILE: portfolio_view.dfy ===
/** The pure helpers of the portfolio page: reading a number typed with
    either decimal convention, the percentage text, the average yield on
    cost, the colour classes of the yield columns and the eight slices of
    the allocation chart. */
module PortfolioView {
  import opened Js
  import Text
  import Seqs

  // ---- parseLocaleNumber ----------------------------------------------------

  /** What `parseLocaleNumber` hands on: a number argument as it is, the 0 of
      a blank input, or the normalised text given to `Number(..)`. */
  datatype Parsed = Given(n: real) | Blank | Normalized(s: string)

  /** `String(v ?? "")` of an argument that is not a number. */
  function RawText(v: Value): string {
    match v
    case Null => ""
    case Bool(b) => if b then "true" else "false"
    case Number(n) => ""
    case Str(s) => s
  }

  /** The text without its separators: the digits, signs and anything else, in order. */
  function Unseparated(s: string): (r: string)
    ensures ',' !in r && '.' !in r
    decreases |s|
  {
    if |s| == 0 then ""
    else (if s[0] == ',' || s[0] == '.' then "" else [s[0]]) + Unseparated(s[1..])
  }

  lemma {:induction false} UnseparatedAppend(a: string, b: string)
    ensures Unseparated(a + b) == Unseparated(a) + Unseparated(b)
    decreases |a|
  {
    if |a| == 0 {
      assert a + b == b;
    } else {
      var ab := a + b;
      assert ab[0] == a[0] && ab[1..] == a[1..] + b;
      var h := if a[0] == ',' || a[0] == '.' then "" else [a[0]];
      assert Unseparated(ab) == h + Unseparated(ab[1..]);
      assert Unseparated(a) == h + Unseparated(a[1..]);
      assert Unseparated(a[1..] + b) == Unseparated(a[1..]) + Unseparated(b) by {
        UnseparatedAppend(a[1..], b);
      }
    }
  }

  /** Deleting a separator leaves the rest untouched. */
  lemma {:induction false} UnseparatedDelete(s: string, c: char)
    requires c == ',' || c == '.'
    ensures Unseparated(Text.DeleteAll(s, c)) == Unseparated(s)
    decreases |s|
  {
    if |s| > 0 {
      UnseparatedDelete(s[1..], c);
      var h := if s[0] == c then "" else [s[0]];
      UnseparatedAppend(h, Text.DeleteAll(s[1..], c));
    }
  }

  /** Turning a separator into `.` leaves the rest untouched. */
  lemma UnseparatedReplace(s: string, c: char)
    requires c == ',' || c == '.'
    ensures Unseparated(Text.ReplaceFirst(s, c, '.')) == Unseparated(s)
  {
    if c in s {
      var i := Text.IndexOf(s, c);
      assert s == s[..i] + [c] + s[i + 1..];
      assert Text.ReplaceFirst(s, c, '.') == s[..i] + ['.'] + s[i + 1..];
      UnseparatedAppend(s[..i] + [c], s[i + 1..]);
      UnseparatedAppend(s[..i], [c]);
      UnseparatedAppend(s[..i] + ['.'], s[i + 1..]);
      UnseparatedAppend(s[..i], ['.']);
    }
  }

  /** Replacing the first `c` by `d` trades one `c` for one `d`. */
  lemma ReplaceCounts(s: string, c: char, d: char)
    requires c in s
    ensures multiset(Text.ReplaceFirst(s, c, d)) == multiset(s) - multiset{c} + multiset{d}
  {
    var i := Text.IndexOf(s, c);
    assert s == s[..i] + [c] + s[i + 1..];
    assert Text.ReplaceFirst(s, c, d) == s[..i] + [d] + s[i + 1..];
  }

  /** Deleting a character the text does not hold changes nothing. */
  lemma {:induction false} DeleteAbsent(s: string, c: char)
    requires c !in s
    ensures Text.DeleteAll(s, c) == s
    decreases |s|
  {
    if |s| > 0 {
      DeleteAbsent(s[1..], c);
      assert [s[0]] + s[1..] == s;
    }
  }

  /** The decimal separator `Normalize` picks when both occur: the one that occurs last. */
  function LastSeparator(s: string): char {
    if Text.LastIndexOf(s, ',') > Text.LastIndexOf(s, '.') then ',' else '.'
  }

  /** The normalisation of a trimmed, non-blank text. With both separators
      the later-occurring one is the decimal separator: every other one is
      deleted and the first decimal separator becomes `.`. With commas only,
      the first comma becomes `.` and later commas stay. Without commas the
      text is passed on with its (absent) commas stripped. */
  function Normalize(s: string): (r: string)
    ensures |r| <= |s|
  {
    var hasComma := ',' in s;
    var hasDot := '.' in s;
    if hasComma && hasDot then
      var dec := LastSeparator(s);
      var grp := if dec == ',' then '.' else ',';
      Text.ReplaceFirst(Text.DeleteAll(s, grp), dec, '.')
    else if hasComma then
      Text.ReplaceFirst(Text.DeleteAll(s, '.'), ',', '.')
    else
      Text.DeleteAll(s, ',')
  }

  /** Only separators are touched: everything else stays, in order. */
  lemma NormalizeKeepsRest(s: string)
    ensures Unseparated(Normalize(s)) == Unseparated(s)
  {
    if ',' in s && '.' in s {
      var dec := LastSeparator(s);
      var grp := if dec == ',' then '.' else ',';
      UnseparatedDelete(s, grp);
      UnseparatedReplace(Text.DeleteAll(s, grp), dec);
    } else {
      UnseparatedDelete(s, '.');
      UnseparatedReplace(Text.DeleteAll(s, '.'), ',');
      UnseparatedDelete(s, ',');
    }
  }

  /** The first decimal separator, at `i`, becomes the one new `.`; the
      group separators before and after it are deleted and nothing else
      moves. */
  lemma DecimalAt(s: string, dec: char, grp: char, i: int)
    requires dec != grp && 0 <= i < |s| && s[i] == dec && dec !in s[..i]
    ensures Text.ReplaceFirst(Text.DeleteAll(s, grp), dec, '.')
         == Text.DeleteAll(s[..i], grp) + "." + Text.DeleteAll(s[i + 1..], grp)
  {
    Text.DeleteAround(s, i, grp);
    Text.DeleteKeepsAbsent(s[..i], grp, dec);
    Text.ReplaceFirstAfter(Text.DeleteAll(s[..i], grp), Text.DeleteAll(s[i + 1..], grp), dec, '.');
  }

  /** `1.234,56`: the comma comes last, so it is the decimal separator;
      every dot goes and the first comma, at `i`, becomes the one `.`, in
      its place. */
  lemma NormalizeCommaDecimal(s: string, i: int)
    requires ',' in s && '.' in s && Text.LastIndexOf(s, ',') > Text.LastIndexOf(s, '.')
    requires 0 <= i < |s| && s[i] == ',' && ',' !in s[..i]
    ensures Normalize(s) == Text.DeleteAll(s[..i], '.') + "." + Text.DeleteAll(s[i + 1..], '.')
  {
    CommaIsDecimal(s);
    DecimalAt(s, ',', '.', i);
  }

  /** Counted: one dot is left, and one comma fewer than the text had. */
  lemma CommaDecimalCounts(s: string)
    requires ',' in s && '.' in s && Text.LastIndexOf(s, ',') > Text.LastIndexOf(s, '.')
    ensures multiset(Normalize(s))['.'] == 1
    ensures multiset(Normalize(s))[','] == multiset(s)[','] - 1
  {
    CommaIsDecimal(s);
    DeleteDotsKeepsCommas(s);
    CommaBecomesDot(Text.DeleteAll(s, '.'));
  }

  lemma CommaIsDecimal(s: string)
    requires ',' in s && '.' in s && Text.LastIndexOf(s, ',') > Text.LastIndexOf(s, '.')
    ensures Normalize(s) == Text.ReplaceFirst(Text.DeleteAll(s, '.'), ',', '.')
  {
    assert LastSeparator(s) == ',';
  }

  lemma DeleteDotsKeepsCommas(s: string)
    requires ',' in s
    ensures multiset(Text.DeleteAll(s, '.'))[','] == multiset(s)[',']
    ensures ',' in Text.DeleteAll(s, '.')
  {
    Text.DeleteAllCounts(s, '.');
    assert multiset(s)[','] > 0;
  }

  lemma CommaBecomesDot(t: string)
    requires ',' in t && '.' !in t
    ensures multiset(Text.ReplaceFirst(t, ',', '.'))['.'] == 1
    ensures multiset(Text.ReplaceFirst(t, ',', '.'))[','] == multiset(t)[','] - 1
  {
    ReplaceCounts(t, ',', '.');
    assert multiset(t)['.'] == 0;
  }

  /** `1,234.56`: the dot comes last; every comma goes and the dots stay
      where they are, the first of them, at `i`, being the decimal point. */
  lemma NormalizeDotDecimal(s: string, i: int)
    requires ',' in s && '.' in s && Text.LastIndexOf(s, ',') < Text.LastIndexOf(s, '.')
    requires 0 <= i < |s| && s[i] == '.' && '.' !in s[..i]
    ensures Normalize(s) == Text.DeleteAll(s, ',')
    ensures Normalize(s) == Text.DeleteAll(s[..i], ',') + "." + Text.DeleteAll(s[i + 1..], ',')
  {
    DotIsDecimal(s);
    ReplaceSame(Text.DeleteAll(s, ','), '.');
    DecimalAt(s, '.', ',', i);
  }

  lemma DotIsDecimal(s: string)
    requires ',' in s && '.' in s && Text.LastIndexOf(s, ',') < Text.LastIndexOf(s, '.')
    ensures Normalize(s) == Text.ReplaceFirst(Text.DeleteAll(s, ','), '.', '.')
  {
    assert LastSeparator(s) == '.';
  }

  lemma ReplaceSame(t: string, c: char)
    ensures Text.ReplaceFirst(t, c, c) == t
  {
    var r := Text.ReplaceFirst(t, c, c);
    assert |r| == |t| && forall j :: 0 <= j < |t| ==> r[j] == t[j];
  }

  /** `1,5`: only the first comma becomes `.`; later commas stay where they are. */
  lemma NormalizeCommaOnly(s: string)
    requires ',' in s && '.' !in s
    ensures |Normalize(s)| == |s|
    ensures Normalize(s)[Text.IndexOf(s, ',')] == '.'
    ensures forall j :: 0 <= j < |s| && j != Text.IndexOf(s, ',') ==> Normalize(s)[j] == s[j]
  {
    DeleteAbsent(s, '.');
  }

  /** Without a comma the text goes to `Number(..)` as it is. */
  lemma NormalizeNoComma(s: string)
    requires ',' !in s
    ensures Normalize(s) == s
  {
    DeleteAbsent(s, ',');
  }

  /** `parseLocaleNumber(v)` up to the final `Number(..)`. */
  function ParseLocale(v: Value): (r: Parsed)
    ensures v.Number? ==> r == Given(v.n)
    ensures !v.Number? ==> (r == Blank <==> forall i :: 0 <= i < |RawText(v)| ==> Text.IsSpace(RawText(v)[i]))
    ensures !v.Number? && r != Blank ==> r == Normalized(Normalize(Text.Trim(RawText(v))))
  {
    if v.Number? then Given(v.n)
    else
      var s := Text.Trim(RawText(v));
      if s == "" then Blank else Normalized(Normalize(s))
  }

  // ---- fmtPct and the average yield on cost ----------------------------------

  /** `fmtPct(x)`; `fixed2` is `Number(x).toFixed(2)`. */
  function FmtPct(x: Option<Num>, fixed2: real -> string): (r: string)
    ensures r == "–" <==> x.None? || x.value.NaN?
    ensures x.Some? && Gt(x.value, 0.0) ==> |r| > 0 && r[0] == '+'
  {
    if x.None? || x.value.NaN? then "–"
    else
      var r := (if x.value.v > 0.0 then "+" else "") + fixed2(x.value.v) + "%";
      assert r[|r| - 1] == '%';
      r
  }

  /** The `+` sign marks exactly the strictly positive values, since
      `toFixed` never writes one itself. */
  lemma FmtPctSign(x: real, fixed2: real -> string)
    requires fixed2(x) == [] || fixed2(x)[0] != '+'
    ensures var r := FmtPct(Some(Real(x)), fixed2);
      r[0] == '+' <==> x > 0.0
  {
    var r := FmtPct(Some(Real(x)), fixed2);
    if x <= 0.0 {
      assert r == fixed2(x) + "%";
    }
  }

  /** `Ø YOC`: `costBasis > 0 ? (incomeAnnual / costBasis) * 100 : null`. */
  function AvgYoc(costBasis: Num, income: Num): (r: Option<Num>)
    ensures r.None? <==> !Gt(costBasis, 0.0)
    ensures r.Some? && income.Real? ==> r.value.Real? && (r.value.v > 0.0 <==> income.v > 0.0)
  {
    if Gt(costBasis, 0.0) then
      Some(if income.NaN? then NaN else Real(income.v / costBasis.v * 100.0))
    else None
  }

  /** Without a positive cost basis the page shows the placeholder; with
      one and a numeric income it shows a percentage. */
  lemma AvgYocShown(costBasis: Num, income: Num, fixed2: real -> string)
    ensures FmtPct(AvgYoc(costBasis, income), fixed2) == "–" <==> !Gt(costBasis, 0.0) || income.NaN?
  {
  }

  // ---- colour classes ----------------------------------------------------------

  /** `mc-up`, `mc-flat`, `mc-down`. */
  datatype Mood = Up | Flat | Down

  function MoodRank(m: Mood): nat {
    match m
    case Down => 0
    case Flat => 1
    case Up => 2
  }

  /** `x >= hi ? up : x >= lo ? flat : down`; `null` compares as 0 and NaN fails both tests. */
  function Band(x: Option<Num>, hi: real, lo: real): (m: Mood)
    requires 0.0 < lo <= hi
    ensures m == Up <==> Ge(Coerce(x), hi)
    ensures m == Flat <==> Ge(Coerce(x), lo) && !Ge(Coerce(x), hi)
    ensures x.None? || x.value.NaN? ==> m == Down
  {
    var n := Coerce(x);
    if Ge(n, hi) then Up else if Ge(n, lo) then Flat else Down
  }

  /** A higher value never gets a lower class. */
  lemma BandMonotone(a: real, b: real, hi: real, lo: real)
    requires 0.0 < lo <= hi && a <= b
    ensures MoodRank(Band(Some(Real(a)), hi, lo)) <= MoodRank(Band(Some(Real(b)), hi, lo))
  {
  }

  /** Yield on cost: at least 8 is up, from 5 flat, below down. */
  function YocClass(yocPct: Option<Num>): (m: Mood)
    ensures m == Up <==> Ge(Coerce(yocPct), 8.0)
    ensures m == Down <==> !Ge(Coerce(yocPct), 5.0)
  {
    Band(yocPct, 8.0, 5.0)
  }

  /** The TTM dividend over the current price in percent, `null` without a positive price. */
  function OfficialYield(price: Option<Num>, dps: Option<Num>): (r: Option<Num>)
    ensures r.None? <==> !Gt(Coerce(price), 0.0)
  {
    var p := Coerce(price);
    var d := Coerce(dps);
    if Gt(p, 0.0) then Some(if d.NaN? then NaN else Real(d.v / p.v * 100.0)) else None
  }

  /** Official yield: at least 6 is up, from 3 flat, below down. */
  function YieldClass(officialYield: Option<Num>): (m: Mood)
    ensures m == Up <==> Ge(Coerce(officialYield), 6.0)
    ensures m == Down <==> !Ge(Coerce(officialYield), 3.0)
  {
    Band(officialYield, 6.0, 3.0)
  }

  /** Without a price the yield column reads `–` in the down colour. */
  lemma NoPriceNoYield(price: Option<Num>, dps: Option<Num>, fixed2: real -> string)
    requires !Gt(Coerce(price), 0.0)
    ensures YieldClass(OfficialYield(price, dps)) == Down
    ensures FmtPct(OfficialYield(price, dps), fixed2) == "–"
  {
  }

  // ---- allocation chart -----------------------------------------------------------

  /** A row of the enriched portfolio, as far as the chart reads it. */
  datatype Holding = Holding(ticker: string, name: string, positionValue: Option<Num>)

  datatype Slice = Slice(caption: string, value: real)

  const MaxSlices: nat := 8

  function SliceValue(d: Slice): real {
    d.value
  }

  /** `r.ticker || r.name || "—"`. */
  function Label(h: Holding): (l: string)
    ensures l != []
  {
    if h.ticker != "" then h.ticker else if h.name != "" then h.name else "—"
  }

  /** `Number(r.positionValue || 0)`. */
  function ValueOf(h: Holding): real {
    OrElse(Coerce(h.positionValue), 0.0).v
  }

  /** The rows as slices, keeping those above 0: every slice is the label and
      value of a row of positive value, and every such row gives its slice. */
  function Candidates(rows: seq<Holding>): (r: seq<Slice>)
    ensures |r| <= |rows|
    ensures forall x :: x in r ==> x.value > 0.0
    ensures forall x :: x in r ==>
      exists i :: 0 <= i < |rows| && ValueOf(rows[i]) > 0.0 && x == Slice(Label(rows[i]), ValueOf(rows[i]))
    ensures forall i :: 0 <= i < |rows| && ValueOf(rows[i]) > 0.0 ==> Slice(Label(rows[i]), ValueOf(rows[i])) in r
    decreases |rows|
  {
    if |rows| == 0 then []
    else
      var h := rows[0];
      var rest := Candidates(rows[1..]);
      assert forall x :: x in rest ==>
        exists i :: 0 <= i < |rows| && ValueOf(rows[i]) > 0.0 && x == Slice(Label(rows[i]), ValueOf(rows[i])) by {
        forall x | x in rest
          ensures exists i :: 0 <= i < |rows| && ValueOf(rows[i]) > 0.0 && x == Slice(Label(rows[i]), ValueOf(rows[i]))
        {
          var j :| 0 <= j < |rows| - 1 && ValueOf(rows[1..][j]) > 0.0 && x == Slice(Label(rows[1..][j]), ValueOf(rows[1..][j]));
          assert rows[1..][j] == rows[j + 1];
        }
      }
      assert forall i :: 1 <= i < |rows| ==> rows[i] == rows[1..][i - 1];
      assert forall x :: x in SliceIfPositive(h) ==> ValueOf(rows[0]) > 0.0 && x == Slice(Label(rows[0]), ValueOf(rows[0]));
      SliceIfPositive(h) + rest
  }

  /** The slice of one row when its value is above 0, and nothing otherwise. */
  function SliceIfPositive(h: Holding): seq<Slice> {
    if ValueOf(h) > 0.0 then [Slice(Label(h), ValueOf(h))] else []
  }

  /** The rows are turned into slices one by one, in portfolio order: two
      rows with the same label and value give two slices. */
  lemma {:induction false} CandidatesAppend(a: seq<Holding>, b: seq<Holding>)
    ensures Candidates(a + b) == Candidates(a) + Candidates(b)
    decreases |a|
  {
    if |a| == 0 {
      assert a + b == b;
    } else {
      var ab := a + b;
      assert ab[0] == a[0] && ab[1..] == a[1..] + b;
      CandidatesAppend(a[1..], b);
      CandidatesStep(ab);
      CandidatesStep(a);
      Seqs.Regroup(Candidates(ab), Candidates(a), SliceIfPositive(a[0]), Candidates(a[1..]), Candidates(b));
    }
  }

  lemma CandidatesStep(rows: seq<Holding>)
    requires |rows| > 0
    ensures Candidates(rows) == SliceIfPositive(rows[0]) + Candidates(rows[1..])
  {
  }

  /** One row gives its slice exactly when its value is above 0. */
  lemma CandidatesOne(h: Holding)
    ensures Candidates([h]) == if ValueOf(h) > 0.0 then [Slice(Label(h), ValueOf(h))] else []
  {
    assert [h][1..] == [];
  }

  function Ranked(rows: seq<Holding>): (r: seq<Slice>)
    ensures Seqs.NonIncreasing(r, SliceValue)
    ensures multiset(r) == multiset(Candidates(rows)) && |r| == |Candidates(rows)|
  {
    Seqs.SortDesc(Candidates(rows), SliceValue)
  }

  /** The slices the chart leaves out. */
  function Dropped(rows: seq<Holding>): seq<Slice> {
    Seqs.Rest(Ranked(rows), MaxSlices)
  }

  /** The chart's data: the eight largest positive positions, largest first. */
  function Allocation(rows: seq<Holding>): (r: seq<Slice>)
    ensures |r| <= MaxSlices
    ensures Seqs.NonIncreasing(r, SliceValue)
  {
    var s := Ranked(rows);
    Seqs.TakeLargest(s, MaxSlices, SliceValue);
    Seqs.JsSlice(s, 0, MaxSlices)
  }

  /** Every slice on the chart is a positive position of the portfolio. */
  lemma AllocationPositive(rows: seq<Holding>)
    ensures forall x :: x in Allocation(rows) ==> x in Candidates(rows) && x.value > 0.0
  {
    var s := Ranked(rows);
    forall x | x in Allocation(rows) ensures x in Candidates(rows) {
      Seqs.SliceSubset(s, 0, MaxSlices, x);
      assert x in multiset(s);
    }
  }

  /** The chart and the dropped slices split the positive positions between
      them; the chart is full whenever anything is dropped, and nothing
      dropped is larger than anything shown. */
  lemma AllocationTopEight(rows: seq<Holding>)
    ensures var r := Allocation(rows);
      && multiset(r) + multiset(Dropped(rows)) == multiset(Candidates(rows))
      && (Dropped(rows) != [] ==> |r| == MaxSlices)
      && forall i, j :: 0 <= i < |r| && 0 <= j < |Dropped(rows)| ==> SliceValue(r[i]) >= SliceValue(Dropped(rows)[j])
  {
    Seqs.TakeLargest(Ranked(rows), MaxSlices, SliceValue);
  }
}

=== FILE: resolve.dfy ===
/** `resolveToTicker`: a ticker-shaped input is taken as the ticker itself;
    anything else goes to the symbol search, an ISIN in upper case. The
    search is an input: `None` is a request that threw or found nothing,
    `Some(t)` is the `ticker` field of its first result. */
module Resolve {
  import opened Js
  import Text

  predicate IsLetter(c: char) {
    Text.IsLower(c) || Text.IsUpper(c)
  }

  predicate IsDigit(c: char) {
    '0' <= c <= '9'
  }

  /** `/^[A-Za-z.\-]{1,10}$/`. */
  predicate TickerShaped(s: string) {
    1 <= |s| <= 10 && forall i :: 0 <= i < |s| ==> IsLetter(s[i]) || s[i] == '.' || s[i] == '-'
  }

  /** `/^[A-Z]{2}[A-Z0-9]{9}[0-9]$/`. */
  predicate IsIsin(q: string) {
    && |q| == 12
    && (forall i :: 0 <= i < 2 ==> Text.IsUpper(q[i]))
    && (forall i :: 2 <= i < 11 ==> Text.IsUpper(q[i]) || IsDigit(q[i]))
    && IsDigit(q[11])
  }

  /** The search text: the upper-cased input when that is an ISIN, else the trimmed input. */
  function Query(s: string): (q: string)
    ensures q == s || q == Text.Upper(s)
    ensures IsIsin(q) <==> IsIsin(Text.Upper(s))
  {
    var u := Text.Upper(s);
    if IsIsin(u) then u else s
  }

  function ResolveTicker(input: Option<string>, search: string -> Option<string>): (r: Option<string>)
    ensures input.None? || input.value == "" ==> r.None?
    ensures input.Some? && TickerShaped(Text.Trim(input.value)) ==> r == Some(Text.Upper(Text.Trim(input.value)))
    ensures r.Some? ==> r.value != [] && forall i :: 0 <= i < |r.value| ==> !Text.IsLower(r.value[i])
    ensures input.Some? && input.value != "" && !TickerShaped(Text.Trim(input.value)) ==>
      var answer := search(Query(Text.Trim(input.value)));
      && (r.Some? <==> answer.Some? && answer.value != "")
      && (r.Some? ==> r.value == Text.Upper(answer.value))
  {
    if input.None? || input.value == "" then None
    else
      var s := Text.Trim(input.value);
      if TickerShaped(s) then Some(Text.Upper(s))
      else match search(Query(s))
        case None => None
        case Some(t) => if t == "" then None else Some(Text.Upper(t))
  }

  /** A ticker-shaped input never reaches the network: the answer is the
      same whatever the search would have said. */
  lemma ShapedNeedsNoSearch(input: string, search1: string -> Option<string>, search2: string -> Option<string>)
    requires TickerShaped(Text.Trim(input))
    ensures ResolveTicker(Some(input), search1) == ResolveTicker(Some(input), search2)
  {
    assert input != "";
  }

  /** An ISIN always goes to the search, and only its upper-case form is
      asked: two searches that agree on that text give the same answer. */
  lemma IsinSearchedUpper(input: string, search1: string -> Option<string>, search2: string -> Option<string>)
    requires IsIsin(Text.Upper(Text.Trim(input)))
    requires search1(Text.Upper(Text.Trim(input))) == search2(Text.Upper(Text.Trim(input)))
    ensures !TickerShaped(Text.Trim(input))
    ensures ResolveTicker(Some(input), search1) == ResolveTicker(Some(input), search2)
  {
    var s := Text.Trim(input);
    assert Text.Upper(s)[11] == Text.UpperChar(s[11]);
    assert !IsLetter(s[11]) && s[11] != '.' && s[11] != '-';
  }

  /** Any other text is searched as typed (trimmed). */
  lemma OtherSearchedAsTyped(input: string, search1: string -> Option<string>, search2: string -> Option<string>)
    requires input != "" && !TickerShaped(Text.Trim(input)) && !IsIsin(Text.Upper(Text.Trim(input)))
    requires search1(Text.Trim(input)) == search2(Text.Trim(input))
    ensures ResolveTicker(Some(input), search1) == ResolveTicker(Some(input), search2)
  {
  }
}

=== FILE: retry.dfy ===
/** `withRetry(fn, tries)`: call `fn` until it succeeds or `tries` calls
    have failed, sleeping `300 * 2^i` ms after the `i`-th failure, and
    rethrow the last error. The function being retried is modelled by
    the outcome of each call: `fn(i)` is what the `i`-th call (from 0)
    returns or throws. */
module Retry {
  import opened Js

  datatype Attempt<T, E> = Ok(value: T) | Err(error: E)

  /** What `withRetry` resolves to or rejects with. With `tries <= 0` the
      loop never runs and `throw last` throws `undefined` (`Threw(None)`). */
  datatype Outcome<T, E> = Returned(value: T) | Threw(error: Option<E>)

  const BaseDelayMs: nat := 300
  const DefaultTries: int := 3

  function Pow2(i: nat): (r: nat)
    ensures r >= 1
  {
    if i == 0 then 1 else 2 * Pow2(i - 1)
  }

  /** The sleep after the `i`-th failed call. */
  function Backoff(i: nat): nat {
    BaseDelayMs * Pow2(i)
  }

  method WithRetry<T, E>(fn: nat -> Attempt<T, E>, tries: int) returns (out: Outcome<T, E>, calls: nat, sleeps: seq<nat>)
    ensures calls <= (if tries > 0 then tries else 0)
    ensures out.Returned? ==> calls >= 1 && fn(calls - 1) == Ok(out.value)
    ensures forall j :: 0 <= j < calls && (out.Threw? || j < calls - 1) ==> fn(j).Err?
    ensures out.Threw? ==> calls == (if tries > 0 then tries else 0)
    ensures out.Threw? ==> out.error == (if tries > 0 then Some(fn(tries - 1).error) else None)
    ensures |sleeps| == (if out.Returned? then calls - 1 else calls)
    ensures forall j :: 0 <= j < |sleeps| ==> sleeps[j] == Backoff(j)
  {
    var last: Option<E> := None;
    calls := 0;
    sleeps := [];
    var i := 0;
    while i < tries
      invariant 0 <= i <= (if tries > 0 then tries else 0)
      invariant calls == i && |sleeps| == i
      invariant forall j :: 0 <= j < i ==> fn(j).Err? && sleeps[j] == Backoff(j)
      invariant i == 0 ==> last == None
      invariant i > 0 ==> last == Some(fn(i - 1).error)
      decreases tries - i
    {
      calls := calls + 1;
      var a := fn(i);
      if a.Ok? {
        return Returned(a.value), calls, sleeps;
      }
      last := Some(a.error);
      sleeps := sleeps + [Backoff(i)];
      i := i + 1;
    }
    out := Threw(last);
  }
}

=== FILE: seqs.dfy ===
/** Array operations the handlers rely on: `slice` with JavaScript's index
    clamping, fixed-size chunking, and the two stable sorts the source
    performs (numeric key, largest first; string key, smallest first). */
module Seqs {
  import Text

  /** A relative index of `slice`, clamped into `[0, len]`; negative values count from the end. */
  function ClampIndex(rel: int, len: nat): (k: nat)
    ensures k <= len
    ensures 0 <= rel <= len ==> k == rel
    ensures rel > len ==> k == len
    ensures rel < 0 && len + rel >= 0 ==> k == len + rel
    ensures len + rel < 0 ==> k == 0
  {
    if rel < 0 then (if len + rel < 0 then 0 else len + rel)
    else if rel > len then len
    else rel
  }

  /** `s.slice(start, end)` for integer arguments. */
  function JsSlice<T>(s: seq<T>, start: int, end: int): (r: seq<T>)
    ensures |r| <= |s|
    ensures 0 <= start <= end <= |s| ==> r == s[start..end]
    ensures 0 <= start && end >= |s| ==> r == s[if start <= |s| then start else |s|..]
    ensures 0 <= end <= start ==> r == []
    ensures 0 <= start && end < 0 && 0 <= |s| + end ==>
              r == (if start <= |s| + end then s[start..|s| + end] else [])
  {
    var k := ClampIndex(start, |s|);
    var f := ClampIndex(end, |s|);
    if k < f then s[k..f] else []
  }

  /** Strictly increasing by `rank`, so no two elements share a rank. */
  predicate Increasing<T>(s: seq<T>, rank: T -> nat) {
    forall i, j :: 0 <= i < j < |s| ==> rank(s[i]) < rank(s[j])
  }

  /** Two increasing runs, the first ranked below `m` and the second from
      `m` on, concatenate to an increasing run. */
  lemma AppendIncreasing<T>(a: seq<T>, b: seq<T>, m: nat, rank: T -> nat)
    requires Increasing(a, rank) && Increasing(b, rank)
    requires forall x :: x in a ==> rank(x) < m
    requires forall y :: y in b ==> m <= rank(y)
    ensures Increasing(a + b, rank)
  {
    forall i, j | 0 <= i < j < |a + b| ensures rank((a + b)[i]) < rank((a + b)[j]) {
      if i < |a| && j >= |a| {
        assert (a + b)[i] in a && (a + b)[j] in b;
      }
    }
  }

  /** A slice between two non-negative indices holds at most their distance. */
  /** Unfolding the head of a concatenation: `k + (rest + tail)` is the
      unfolded list `k + rest` followed by `tail`. */
  lemma Regroup<T>(whole: seq<T>, first: seq<T>, k: seq<T>, rest: seq<T>, tail: seq<T>)
    requires whole == k + (rest + tail) && first == k + rest
    ensures whole == first + tail
  {
  }

  lemma SliceWidth<T>(s: seq<T>, start: int, end: int)
    requires 0 <= start <= end
    ensures |JsSlice(s, start, end)| <= end - start
  {
  }

  /** A slice holds nothing its source does not. */
  lemma SliceSubset<T>(s: seq<T>, start: int, end: int, x: T)
    requires x in JsSlice(s, start, end)
    ensures x in s
  {
    var k := ClampIndex(start, |s|);
    var f := ClampIndex(end, |s|);
    var i :| 0 <= i < f - k && s[k..f][i] == x;
    assert s[k + i] == x;
  }

  /** Concatenation of a sequence of sequences. */
  function Flatten<T>(xss: seq<seq<T>>): seq<T>
    decreases |xss|
  {
    if |xss| == 0 then [] else xss[0] + Flatten(xss[1..])
  }

  /** `for (i = 0; i < s.length; i += n) chunks.push(s.slice(i, i + n))`. */
  function Chunks<T>(s: seq<T>, n: nat): (r: seq<seq<T>>)
    requires n > 0
    ensures forall i :: 0 <= i < |r| ==> 0 < |r[i]| <= n
    ensures forall i :: 0 <= i < |r| - 1 ==> |r[i]| == n
    ensures |s| == 0 <==> |r| == 0
    decreases |s|
  {
    if |s| == 0 then []
    else if |s| <= n then [s]
    else [s[..n]] + Chunks(s[n..], n)
  }

  /** Chunking neither loses, duplicates nor reorders an element. */
  lemma {:induction false} FlattenChunks<T>(s: seq<T>, n: nat)
    requires n > 0
    ensures Flatten(Chunks(s, n)) == s
    decreases |s|
  {
    if |s| > n {
      FlattenChunks(s[n..], n);
      assert Chunks(s, n)[1..] == Chunks(s[n..], n);
      assert s == s[..n] + s[n..];
    }
  }

  lemma {:induction false} ChunkOffsets<T>(s: seq<T>, n: nat, k: nat)
    requires n > 0
    requires k < |Chunks(s, n)|
    ensures k * n < |s|
    ensures Chunks(s, n)[k] == s[k * n..if (k + 1) * n <= |s| then (k + 1) * n else |s|]
  {
    MulStep(k + 1, n);
    TimesIsProduct(k, n);
    ChunkAt(s, n, k, k * n);
  }

  /** The `k`-th chunk starts at `off`, which is `k * n`. */
  lemma {:induction false} ChunkAt<T>(s: seq<T>, n: nat, k: nat, off: nat)
    requires n > 0 && off == Times(k, n)
    requires k < |Chunks(s, n)|
    ensures off < |s|
    ensures Chunks(s, n)[k] == s[off..if off + n <= |s| then off + n else |s|]
    decreases k
  {
    if |s| <= n {
      ChunksShort(s, n);
    } else if k > 0 {
      var t := s[n..];
      ChunksLong(s, n);
      ChunkAt(t, n, k - 1, off - n);
      var hi := if off <= |t| then off else |t|;
      assert Chunks(s, n)[k] == Chunks(t, n)[k - 1];
      assert Chunks(t, n)[k - 1] == t[off - n..hi];
      SliceShift(s, n, off - n, hi);
      assert hi + n == if off + n <= |s| then off + n else |s|;
    } else {
      ChunksLong(s, n);
    }
  }

  /** `k * n` as repeated addition. */
  function Times(k: nat, n: nat): nat {
    if k == 0 then 0 else Times(k - 1, n) + n
  }

  lemma {:induction false} TimesIsProduct(k: nat, n: nat)
    ensures Times(k, n) == k * n
  {
    if k > 0 {
      TimesIsProduct(k - 1, n);
      MulStep(k, n);
    }
  }

  lemma ChunksShort<T>(s: seq<T>, n: nat)
    requires 0 < |s| <= n
    ensures Chunks(s, n) == [s]
  {
  }

  lemma ChunksLong<T>(s: seq<T>, n: nat)
    requires 0 < n < |s|
    ensures |Chunks(s, n)| == 1 + |Chunks(s[n..], n)|
    ensures Chunks(s, n)[0] == s[..n]
    ensures forall i :: 0 < i < |Chunks(s, n)| ==> Chunks(s, n)[i] == Chunks(s[n..], n)[i - 1]
  {
  }

  lemma SliceShift<T>(s: seq<T>, n: nat, lo: nat, hi: nat)
    requires n <= |s| && lo <= hi <= |s| - n
    ensures s[n..][lo..hi] == s[lo + n..hi + n]
  {
  }

  lemma MulStep(k: nat, n: nat)
    requires k > 0
    ensures (k - 1) * n + n == k * n && k * n + n == (k + 1) * n
  {
  }

  /** Splicing out the element at `k` removes exactly one occurrence of it. */
  lemma SpliceMultiset<T>(s: seq<T>, k: nat)
    requires k < |s|
    ensures multiset(s[..k] + s[k + 1..]) + multiset{s[k]} == multiset(s)
  {
    assert s == s[..k] + [s[k]] + s[k + 1..];
  }

  // ---- largest first by a numeric key -------------------------------------

  ghost predicate NonIncreasing<T>(s: seq<T>, key: T -> real) {
    forall i, j :: 0 <= i < j < |s| ==> key(s[i]) >= key(s[j])
  }

  /** A slice of a sorted sequence is sorted. */
  lemma SliceNonIncreasing<T>(s: seq<T>, start: int, end: int, key: T -> real)
    requires NonIncreasing(s, key)
    ensures NonIncreasing(JsSlice(s, start, end), key)
  {
    var k := ClampIndex(start, |s|);
    var f := ClampIndex(end, |s|);
    if k < f {
      var r := s[k..f];
      forall i, j | 0 <= i < j < |r| ensures key(r[i]) >= key(r[j]) {
        assert r[i] == s[k + i] && r[j] == s[k + j];
      }
    }
  }

  /** What `s.slice(0, n)` leaves behind. */
  function Rest<T>(s: seq<T>, n: nat): seq<T> {
    if |s| <= n then [] else s[n..]
  }

  /** The first `n` of a sorted sequence and the rest: a partition, each
      of the first at least as large as any of the rest. */
  lemma TakeLargest<T>(s: seq<T>, n: nat, key: T -> real)
    requires NonIncreasing(s, key)
    ensures var r := JsSlice(s, 0, n);
      && NonIncreasing(r, key)
      && multiset(r) + multiset(Rest(s, n)) == multiset(s)
      && (Rest(s, n) != [] ==> |r| == n)
      && forall i, j :: 0 <= i < |r| && 0 <= j < |Rest(s, n)| ==> key(r[i]) >= key(Rest(s, n)[j])
  {
    var r := JsSlice(s, 0, n);
    SliceNonIncreasing(s, 0, n, key);
    assert s == r + Rest(s, n);
    forall i, j | 0 <= i < |r| && 0 <= j < |Rest(s, n)| ensures key(r[i]) >= key(Rest(s, n)[j]) {
      assert r[i] == s[i] && Rest(s, n)[j] == s[|r| + j];
    }
  }

  function InsertDesc<T>(x: T, s: seq<T>, key: T -> real): (r: seq<T>)
    requires NonIncreasing(s, key)
    ensures NonIncreasing(r, key)
    ensures multiset(r) == multiset(s) + multiset{x}
    ensures forall y :: y in r ==> y == x || y in s
    decreases |s|
  {
    if |s| == 0 || key(x) >= key(s[0]) then [x] + s
    else
      assert s == [s[0]] + s[1..];
      var rest := InsertDesc(x, s[1..], key);
      assert forall y :: y in rest ==> key(s[0]) >= key(y) by {
        forall y | y in rest ensures key(s[0]) >= key(y) {
          if y != x {
            var j :| 0 <= j < |s[1..]| && s[1..][j] == y;
            assert s[j + 1] == y;
          }
        }
      }
      ConsNonIncreasing(s[0], rest, key);
      [s[0]] + rest
  }

  lemma ConsNonIncreasing<T>(h: T, s: seq<T>, key: T -> real)
    requires NonIncreasing(s, key)
    requires forall y :: y in s ==> key(h) >= key(y)
    ensures NonIncreasing([h] + s, key)
  {
    forall i, j | 0 <= i < j < |s| + 1 ensures key(([h] + s)[i]) >= key(([h] + s)[j]) {
      if i == 0 {
        assert s[j - 1] in s;
      }
    }
  }

  /** `s.sort((a, b) => key(b) - key(a))`: a stable sort, largest key first. */
  function SortDesc<T>(s: seq<T>, key: T -> real): (r: seq<T>)
    ensures NonIncreasing(r, key)
    ensures multiset(r) == multiset(s)
    ensures |r| == |s|
    decreases |s|
  {
    if |s| == 0 then []
    else
      assert s == [s[0]] + s[1..];
      InsertDesc(s[0], SortDesc(s[1..], key), key)
  }

  // ---- smallest first by a string key -------------------------------------

  ghost predicate Ascending<T>(s: seq<T>, key: T -> string) {
    forall i, j :: 0 <= i < j < |s| ==> Text.LexLe(key(s[i]), key(s[j]))
  }

  function InsertAsc<T>(x: T, s: seq<T>, key: T -> string): (r: seq<T>)
    requires Ascending(s, key)
    ensures Ascending(r, key)
    ensures multiset(r) == multiset(s) + multiset{x}
    ensures forall y :: y in r ==> y == x || y in s
    decreases |s|
  {
    if |s| == 0 then [x]
    else if Text.LexLe(key(x), key(s[0])) then
      LeBeforeSorted(x, s, key);
      [x] + s
    else
      assert s == [s[0]] + s[1..];
      Text.LexLeTotal(key(x), key(s[0]));
      var rest := InsertAsc(x, s[1..], key);
      ConsAscending(s[0], rest, key);
      [s[0]] + rest
  }

  lemma ConsAscending<T>(h: T, s: seq<T>, key: T -> string)
    requires Ascending(s, key)
    requires forall y :: y in s ==> Text.LexLe(key(h), key(y))
    ensures Ascending([h] + s, key)
  {
    forall i, j | 0 <= i < j < |s| + 1 ensures Text.LexLe(key(([h] + s)[i]), key(([h] + s)[j])) {
      if i == 0 {
        assert s[j - 1] in s;
      }
    }
  }

  lemma LeBeforeSorted<T>(x: T, s: seq<T>, key: T -> string)
    requires |s| > 0 && Ascending(s, key) && Text.LexLe(key(x), key(s[0]))
    ensures Ascending([x] + s, key)
  {
    forall j | 0 <= j < |s| ensures Text.LexLe(key(x), key(s[j])) {
      if j > 0 {
        Text.LexLeTransitive(key(x), key(s[0]), key(s[j]));
      }
    }
  }

  /** `s.sort((a, b) => String(key(a)).localeCompare(String(key(b))))`
      on strings whose collation agrees with code-point order: a stable
      sort, smallest key first. */
  function SortAsc<T>(s: seq<T>, key: T -> string): (r: seq<T>)
    ensures Ascending(r, key)
    ensures multiset(r) == multiset(s)
    decreases |s|
  {
    if |s| == 0 then []
    else
      assert s == [s[0]] + s[1..];
      InsertAsc(s[0], SortAsc(s[1..], key), key)
  }
}

=== FILE: store.dfy ===
/** The portfolio store behind the `/api/portfolio` routes: the positions of the
    JSON file, passed in and out as a sequence instead of being read from
    and written to disk. Every handler either answers with an error and
    leaves the list as it was, or answers 200 with the list it writes. */
module PortfolioStore {
  import opened Js
  import Text
  import Seqs

  datatype Position = Position(
    id: Option<string>,
    name: string,
    isin: string,
    ticker: string,
    shares: Num,
    avgPrice: Num,
    note: string,
    divPaidTotal: Num)

  /** `it.id` is truthy. */
  predicate HasId(p: Position) {
    p.id.Some? && p.id.value != ""
  }

  /** A parsed JSON request body. */
  type Body = map<string, Value>

  /** The HTTP status of a handler, the list as it stands afterwards, and
      the record the response carries (`added`, `updated` or `removed`). */
  datatype Outcome = Outcome(status: nat, store: seq<Position>, row: Option<Position>)

  // ---- ensureIds ----------------------------------------------------------

  /** How many of the first `n` positions lack an id. */
  function MissingBefore(items: seq<Position>, n: nat): nat
    requires n <= |items|
    decreases n
  {
    if n == 0 then 0
    else MissingBefore(items, n - 1) + (if HasId(items[n - 1]) then 0 else 1)
  }

  /** `if (!it.id) it.id = id`. */
  function WithId(p: Position, id: string): (q: Position)
    ensures q.(id := p.id) == p
    ensures q.id == (if HasId(p) then p.id else Some(id))
  {
    if HasId(p) then p else p.(id := Some(id))
  }

  /** `ensureIds(items)`: every position without an id gets the next fresh
      id (`uuid(k)` is the `k`-th `crypto.randomUUID()` of the call), all
      other fields stay; the flag says whether any id was assigned. */
  function EnsureIds(items: seq<Position>, uuid: nat -> string): (r: (seq<Position>, bool))
    ensures |r.0| == |items|
    ensures forall i :: 0 <= i < |items| ==> r.0[i].(id := items[i].id) == items[i]
    ensures forall i :: 0 <= i < |items| ==>
      r.0[i].id == (if HasId(items[i]) then items[i].id else Some(uuid(MissingBefore(items, i))))
    ensures r.1 <==> MissingBefore(items, |items|) > 0
  {
    var out := seq(|items|, i requires 0 <= i < |items| => WithId(items[i], uuid(MissingBefore(items, i))));
    assert forall i :: 0 <= i < |items| ==> out[i] == WithId(items[i], uuid(MissingBefore(items, i)));
    (out, MissingBefore(items, |items|) > 0)
  }

  /** The list is reported as changed exactly when some position lacked an id. */
  lemma EnsureIdsChanged(items: seq<Position>, uuid: nat -> string)
    ensures EnsureIds(items, uuid).1 <==> exists i :: 0 <= i < |items| && !HasId(items[i])
  {
    MissingPositive(items, |items|);
  }

  /** With fresh ids that are never empty, every position has an id afterwards. */
  lemma EnsureIdsComplete(items: seq<Position>, uuid: nat -> string)
    requires forall k :: uuid(k) != ""
    ensures forall i :: 0 <= i < |items| ==> HasId(EnsureIds(items, uuid).0[i])
  {
  }

  lemma {:induction false} MissingPositive(items: seq<Position>, n: nat)
    requires n <= |items|
    ensures MissingBefore(items, n) > 0 <==> exists i :: 0 <= i < n && !HasId(items[i])
    decreases n
  {
    if n > 0 {
      MissingPositive(items, n - 1);
    }
  }

  /** A position without an id counts among the missing ones before every later position. */
  lemma {:induction false} MissingGrows(items: seq<Position>, i: nat, j: nat)
    requires i < j <= |items| && !HasId(items[i])
    ensures MissingBefore(items, j) > MissingBefore(items, i)
    decreases j - i
  {
    if j - 1 > i {
      MissingGrows(items, i, j - 1);
    }
  }

  /** With ids that were unique, and fresh ids that never repeat nor hit an
      existing id, every id is unique after `ensureIds`. */
  lemma EnsureIdsUnique(items: seq<Position>, uuid: nat -> string)
    requires forall i, j :: 0 <= i < j < |items| && HasId(items[i]) && HasId(items[j]) ==> items[i].id != items[j].id
    requires forall a, b :: a != b ==> uuid(a) != uuid(b)
    requires forall k, i :: 0 <= i < |items| && HasId(items[i]) ==> items[i].id != Some(uuid(k))
    ensures forall i, j :: 0 <= i < j < |items| ==> EnsureIds(items, uuid).0[i].id != EnsureIds(items, uuid).0[j].id
  {
    var out := EnsureIds(items, uuid).0;
    forall i, j | 0 <= i < j < |items| ensures out[i].id != out[j].id {
      if !HasId(items[i]) && !HasId(items[j]) {
        MissingGrows(items, i, j);
      }
    }
  }

  // ---- add ----------------------------------------------------------------

  /** `it[k]` is truthy but not a string, so `(it[k] || '').trim()` throws. */
  predicate NotText(body: Body, k: string) {
    k in body && Truthy(body[k]) && !body[k].Str?
  }

  /** Building the row throws on one of the four text fields. */
  predicate Throws(body: Body) {
    NotText(body, "name") || NotText(body, "isin") || NotText(body, "ticker") || NotText(body, "note")
  }

  /** `(it[k] || '').trim()`, or `None` when that throws. */
  function TextField(body: Body, k: string): (r: Option<string>)
    ensures r.None? <==> NotText(body, k)
    ensures k !in body || !Truthy(body[k]) ==> r == Some("")
    ensures k in body && body[k].Str? ==> r == Some(Text.Trim(body[k].s))
  {
    if k !in body || !Truthy(body[k]) then Some("")
    else match body[k]
      case Str(s) => Some(Text.Trim(s))
      case _ => None
  }

  /** `Number(it[k] || 0)`. */
  function NumberField(body: Body, k: string, conv: Coercions): (r: Num)
    ensures k !in body || !Truthy(body[k]) ==> r == Real(0.0)
    ensures k in body && Truthy(body[k]) ==> r == ToNumber(body[k], conv)
  {
    if k !in body || !Truthy(body[k]) then Real(0.0) else ToNumber(body[k], conv)
  }

  /** The row `POST /api/portfolio/add` builds before validating, or `None` if building it throws. */
  function NewRow(body: Body, freshId: string, conv: Coercions): (r: Option<Position>)
    ensures r.None? <==> Throws(body)
    ensures r.Some? ==>
      && r.value.id == Some(freshId)
      && Some(r.value.name) == TextField(body, "name")
      && Some(r.value.isin) == TextField(body, "isin")
      && Some(r.value.note) == TextField(body, "note")
      && r.value.ticker == Text.Upper(TextField(body, "ticker").value)
      && r.value.shares == NumberField(body, "shares", conv)
      && r.value.avgPrice == NumberField(body, "avgPrice", conv)
      && r.value.divPaidTotal == NumberField(body, "divPaidTotal", conv)
  {
    var name := TextField(body, "name");
    var isin := TextField(body, "isin");
    var ticker := TextField(body, "ticker");
    var note := TextField(body, "note");
    if name.None? || isin.None? || ticker.None? || note.None? then None
    else Some(Position(
      Some(freshId), name.value, isin.value, Text.Upper(ticker.value),
      NumberField(body, "shares", conv), NumberField(body, "avgPrice", conv),
      note.value, NumberField(body, "divPaidTotal", conv)))
  }

  /** The acceptance test of the add handler: `!shares || !avgPrice` rejects
      only 0 and NaN, so negative quantities and prices pass. */
  predicate Acceptable(p: Position) {
    !Falsy(p.shares) && !Falsy(p.avgPrice) && (p.ticker != "" || p.isin != "" || p.name != "")
  }

  /** The body names no position: name, ISIN and ticker are all absent, falsy or blank. */
  predicate Unnamed(body: Body) {
    TextField(body, "name") == Some("") && TextField(body, "isin") == Some("") && TextField(body, "ticker") == Some("")
  }

  /** `POST /api/portfolio/add`. */
  function Add(items: seq<Position>, body: Body, freshId: string, conv: Coercions): (r: Outcome)
    ensures r.status == 200 || r.status == 400 || r.status == 500
    ensures r.status == 500 <==> Throws(body)
    ensures r.status == 400 <==> (!Throws(body) &&
      (Falsy(NumberField(body, "shares", conv)) || Falsy(NumberField(body, "avgPrice", conv)) || Unnamed(body)))
    ensures r.status != 200 ==> r.store == items && r.row == None
    ensures r.status == 200 ==> r.row == NewRow(body, freshId, conv) && r.store == items + [r.row.value]
  {
    match NewRow(body, freshId, conv)
    case None => Outcome(500, items, None)
    case Some(row) =>
      if !Acceptable(row) then Outcome(400, items, None)
      else Outcome(200, items + [row], Some(row))
  }

  /** The add endpoint's example: buying `q` shares of ticker `t` at price `p`
      stores a row holding exactly those values, with every other field empty;
      validation does not ask for positive values, so a short position at a
      negative price is stored as well. */
  lemma AddTicker(items: seq<Position>, t: string, q: real, p: real, freshId: string, conv: Coercions)
    requires t != [] && forall i :: 0 <= i < |t| ==> !Text.IsSpace(t[i])
    requires q != 0.0 && p != 0.0
    ensures var r := Add(items, map["ticker" := Str(t), "shares" := Number(q), "avgPrice" := Number(p)], freshId, conv);
      r.status == 200 && r.row == Some(Position(Some(freshId), "", "", Text.Upper(t), Real(q), Real(p), "", Real(0.0)))
  {
    var body: Body := map["ticker" := Str(t), "shares" := Number(q), "avgPrice" := Number(p)];
    assert "name" !in body && "isin" !in body && "note" !in body && "divPaidTotal" !in body;
    assert TextField(body, "ticker") == Some(t);
    assert !Throws(body) && !Unnamed(body);
    assert NumberField(body, "shares", conv) == Real(q);
    assert NumberField(body, "avgPrice", conv) == Real(p);
    assert NumberField(body, "divPaidTotal", conv) == Real(0.0);
  }

  // ---- update (PUT / PATCH) -----------------------------------------------

  /** `items.findIndex(p => p.id === id)`. */
  function FindIndex(items: seq<Position>, id: string): (r: int)
    ensures -1 <= r < |items|
    ensures r == -1 <==> forall i :: 0 <= i < |items| ==> items[i].id != Some(id)
    ensures r >= 0 ==> items[r].id == Some(id) && forall i :: 0 <= i < r ==> items[i].id != Some(id)
    decreases |items|
  {
    if |items| == 0 then -1
    else if items[0].id == Some(id) then 0
    else
      var k := FindIndex(items[1..], id);
      if k == -1 then -1 else k + 1
  }

  /** The keys an update may overwrite, one per editable field. */
  datatype Key = Name | Isin | Ticker | Shares | AvgPrice | Note | DivPaidTotal {
    /** The key as it appears in a request body. */
    function Text(): string {
      match this
      case Name => "name"
      case Isin => "isin"
      case Ticker => "ticker"
      case Shares => "shares"
      case AvgPrice => "avgPrice"
      case Note => "note"
      case DivPaidTotal => "divPaidTotal"
    }

    predicate IsNumeric() {
      this == Shares || this == AvgPrice || this == DivPaidTotal
    }
  }

  /** `['name','isin','ticker','shares','avgPrice','note','divPaidTotal']`. */
  const Allowed: seq<Key> := [Name, Isin, Ticker, Shares, AvgPrice, Note, DivPaidTotal]

  lemma AllowedIsEveryKey(k: Key)
    ensures k in Allowed
  {
    match k
    case Name => assert Allowed[0] == k;
    case Isin => assert Allowed[1] == k;
    case Ticker => assert Allowed[2] == k;
    case Shares => assert Allowed[3] == k;
    case AvgPrice => assert Allowed[4] == k;
    case Note => assert Allowed[5] == k;
    case DivPaidTotal => assert Allowed[6] == k;
  }

  /** The value of a field after normalisation. */
  datatype Field = TextVal(s: string) | NumVal(n: Num)

  /** The per-key normalisation both update handlers apply: the ticker is
      `String(v).toUpperCase().trim()`, numeric keys are `Number(v)`, the
      other keys `String(v || '').trim()`. */
  function Norm(k: Key, v: Value, conv: Coercions): (f: Field)
    ensures f.NumVal? <==> k.IsNumeric()
    ensures k.IsNumeric() ==> f.n == ToNumber(v, conv)
    ensures k == Ticker ==> f.s == Text.Trim(Text.Upper(ToText(v, conv)))
    ensures !k.IsNumeric() && k != Ticker ==> f.s == Text.Trim(if Truthy(v) then ToText(v, conv) else "")
  {
    if k == Ticker then TextVal(Text.Trim(Text.Upper(ToText(v, conv))))
    else if k.IsNumeric() then NumVal(ToNumber(v, conv))
    else TextVal(Text.Trim(if Truthy(v) then ToText(v, conv) else ""))
  }

  /** The field `k` of a position. */
  function FieldOf(p: Position, k: Key): (f: Field)
    ensures f.NumVal? <==> k.IsNumeric()
  {
    match k
    case Name => TextVal(p.name)
    case Isin => TextVal(p.isin)
    case Ticker => TextVal(p.ticker)
    case Shares => NumVal(p.shares)
    case AvgPrice => NumVal(p.avgPrice)
    case Note => TextVal(p.note)
    case DivPaidTotal => NumVal(p.divPaidTotal)
  }

  /** `{ ...p, [k]: f }` for a field of the kind the key expects. */
  function SetField(p: Position, k: Key, f: Field): (q: Position)
    requires f.NumVal? <==> k.IsNumeric()
    ensures q.id == p.id
    ensures FieldOf(q, k) == f
    ensures forall j :: j != k ==> FieldOf(q, j) == FieldOf(p, j)
  {
    match k
    case Name => p.(name := f.s)
    case Isin => p.(isin := f.s)
    case Ticker => p.(ticker := f.s)
    case Shares => p.(shares := f.n)
    case AvgPrice => p.(avgPrice := f.n)
    case Note => p.(note := f.s)
    case DivPaidTotal => p.(divPaidTotal := f.n)
  }

  /** An update whose every entry has the kind its key expects. */
  predicate WellKinded(upd: map<Key, Field>) {
    forall k :: k in upd ==> (upd[k].NumVal? <==> k.IsNumeric())
  }

  /** `{ ...p, ...upd }`: the keys of `upd` in whitelist order. */
  function Merge(p: Position, upd: map<Key, Field>, keys: seq<Key>): (q: Position)
    requires WellKinded(upd)
    ensures q.id == p.id
    ensures forall k :: FieldOf(q, k) == (if k in upd && k in keys then upd[k] else FieldOf(p, k))
    decreases |keys|
  {
    if |keys| == 0 then p
    else
      var q := Merge(p, upd, keys[1..]);
      if keys[0] in upd then SetField(q, keys[0], upd[keys[0]]) else q
  }

  /** Field by field: a whitelisted key of the body overwrites that field with
      its normalised value; every other field, and the id, stay as they were. */
  ghost predicate Overwrites(before: Position, after: Position, body: Body, conv: Coercions) {
    && after.id == before.id
    && forall k: Key :: FieldOf(after, k) ==
         (if k.Text() in body then Norm(k, body[k.Text()], conv) else FieldOf(before, k))
  }

  /** The PUT handler's loop `for (const k of allowed) if (k in req.body) upd[k] = norm(k, req.body[k])`. */
  function PutUpdate(keys: seq<Key>, body: Body, conv: Coercions): (upd: map<Key, Field>)
    ensures WellKinded(upd)
    decreases |keys|
  {
    if |keys| == 0 then map[]
    else
      var rest := PutUpdate(keys[1..], body, conv);
      var k := keys[0];
      if k.Text() in body then rest[k := Norm(k, body[k.Text()], conv)] else rest
  }

  /** The update is the normalised body restricted to the listed keys. */
  lemma PutUpdateIsRestriction(keys: seq<Key>, body: Body, conv: Coercions)
    ensures PutUpdate(keys, body, conv) == map k | k in keys && k.Text() in body :: Norm(k, body[k.Text()], conv)
  {
    var upd := PutUpdate(keys, body, conv);
    var m := map k | k in keys && k.Text() in body :: Norm(k, body[k.Text()], conv);
    forall k ensures (k in upd <==> k in m) && (k in upd ==> upd[k] == m[k]) {
      PutUpdateAt(keys, body, conv, k);
    }
  }

  lemma {:induction false} PutUpdateAt(keys: seq<Key>, body: Body, conv: Coercions, k: Key)
    ensures k in PutUpdate(keys, body, conv) <==> k in keys && k.Text() in body
    ensures k in PutUpdate(keys, body, conv) ==> PutUpdate(keys, body, conv)[k] == Norm(k, body[k.Text()], conv)
    decreases |keys|
  {
    if |keys| > 0 {
      PutUpdateAt(keys[1..], body, conv, k);
      assert k in keys <==> k == keys[0] || k in keys[1..];
    }
  }

  /** The record-level effect shared by PUT and PATCH: 404 for an unknown id,
      otherwise the first record with that id replaced by the merge. */
  function Update(items: seq<Position>, id: string, upd: map<Key, Field>): (r: Outcome)
    requires WellKinded(upd)
    ensures var k := FindIndex(items, id);
      && (r.status == 404 <==> k == -1)
      && (r.status == 404 ==> r.store == items && r.row == None)
      && (r.status != 404 ==> r.status == 200 && r.row == Some(Merge(items[k], upd, Allowed)) && r.store == items[k := r.row.value])
  {
    var k := FindIndex(items, id);
    if k == -1 then Outcome(404, items, None)
    else
      var row := Merge(items[k], upd, Allowed);
      Outcome(200, items[k := row], Some(row))
  }

  /** `PUT /api/portfolio/:id`. */
  function Put(items: seq<Position>, id: string, body: Body, conv: Coercions): (r: Outcome)
    ensures r.status == 404 <==> forall i :: 0 <= i < |items| ==> items[i].id != Some(id)
    ensures r.status == 404 ==> r.store == items && r.row == None
    ensures r.status != 404 ==> r.status == 200 && r.row.Some? && |r.store| == |items|
    ensures r.status == 200 ==> var k := FindIndex(items, id);
      && r.store[k] == r.row.value
      && forall i :: 0 <= i < |items| && i != k ==> r.store[i] == items[i]
  {
    Update(items, id, PutUpdate(Allowed, body, conv))
  }

  /** PUT overwrites exactly the whitelisted fields the body carries, with
      their normalised values, and keeps the id and every other field. */
  lemma PutOverwrites(items: seq<Position>, id: string, body: Body, conv: Coercions)
    requires Put(items, id, body, conv).status == 200
    ensures Overwrites(items[FindIndex(items, id)], Put(items, id, body, conv).row.value, body, conv)
  {
    MergeOverwrites(items[FindIndex(items, id)], body, conv);
  }

  lemma MergeOverwrites(p: Position, body: Body, conv: Coercions)
    ensures Overwrites(p, Merge(p, PutUpdate(Allowed, body, conv), Allowed), body, conv)
  {
    var upd := PutUpdate(Allowed, body, conv);
    var q := Merge(p, upd, Allowed);
    forall k: Key ensures FieldOf(q, k) == (if k.Text() in body then Norm(k, body[k.Text()], conv) else FieldOf(p, k)) {
      AllowedIsEveryKey(k);
      PutUpdateAt(Allowed, body, conv, k);
    }
  }

  /** A position is determined by its id and its seven fields. */
  lemma SameFields(p: Position, q: Position)
    requires p.id == q.id
    requires forall k: Key :: FieldOf(p, k) == FieldOf(q, k)
    ensures p == q
  {
    assert FieldOf(p, Name) == FieldOf(q, Name) && FieldOf(p, Isin) == FieldOf(q, Isin);
    assert FieldOf(p, Ticker) == FieldOf(q, Ticker) && FieldOf(p, Note) == FieldOf(q, Note);
    assert FieldOf(p, Shares) == FieldOf(q, Shares) && FieldOf(p, AvgPrice) == FieldOf(q, AvgPrice);
    assert FieldOf(p, DivPaidTotal) == FieldOf(q, DivPaidTotal);
  }

  /** Merging the same update twice is merging it once. */
  lemma MergeIdempotent(p: Position, upd: map<Key, Field>)
    requires WellKinded(upd)
    ensures Merge(Merge(p, upd, Allowed), upd, Allowed) == Merge(p, upd, Allowed)
  {
    SameFields(Merge(Merge(p, upd, Allowed), upd, Allowed), Merge(p, upd, Allowed));
  }

  /** Repeating a PUT changes nothing more: the second request finds the
      same record and leaves the list as the first one wrote it. */
  lemma PutIdempotent(items: seq<Position>, id: string, body: Body, conv: Coercions)
    ensures var r := Put(items, id, body, conv);
      Put(r.store, id, body, conv) == r
  {
    UpdateIdempotent(items, id, PutUpdate(Allowed, body, conv));
  }

  lemma UpdateIdempotent(items: seq<Position>, id: string, upd: map<Key, Field>)
    requires WellKinded(upd)
    ensures Update(Update(items, id, upd).store, id, upd) == Update(items, id, upd)
  {
    var r1 := Update(items, id, upd);
    if r1.status != 404 {
      var k := FindIndex(items, id);
      var row := r1.row.value;
      var s := r1.store;
      FindAfterReplace(items, id, row);
      MergeIdempotent(items[k], upd);
      var r2 := Update(s, id, upd);
      assert r2.row == r1.row;
      assert r2.store == s;
    }
  }

  /** Replacing the first match by a record with the same id leaves it the first match. */
  lemma FindAfterReplace(items: seq<Position>, id: string, p: Position)
    requires FindIndex(items, id) != -1 && p.id == Some(id)
    ensures FindIndex(items[FindIndex(items, id) := p], id) == FindIndex(items, id)
  {
    var k := FindIndex(items, id);
    var s := items[k := p];
    assert s[k].id == Some(id);
    assert forall i :: 0 <= i < k ==> s[i].id != Some(id) by {
      assert forall i :: 0 <= i < k ==> s[i] == items[i];
    }
    var r := FindIndex(s, id);
    assert r != -1;
    assert r <= k;
  }

  /** `PATCH /api/portfolio/:id`: the body is stripped of every key outside
      the whitelist, then each remaining entry is normalised. This is the
      update PUT builds from the whitelisted keys of the body, so PATCH has
      the same effect as PUT on every list, id and body. */
  function Patch(items: seq<Position>, id: string, body: Body, conv: Coercions): (r: Outcome)
    ensures r == Put(items, id, body, conv)
    ensures r.status == 404 <==> forall i :: 0 <= i < |items| ==> items[i].id != Some(id)
  {
    var upd := map k | k in Allowed && k.Text() in body :: Norm(k, body[k.Text()], conv);
    PutUpdateIsRestriction(Allowed, body, conv);
    Update(items, id, upd)
  }

  // ---- delete -------------------------------------------------------------

  /** `DELETE /api/portfolio/:id`: splice out the first record with that id. */
  function Delete(items: seq<Position>, id: string): (r: Outcome)
    ensures r.status == 404 <==> forall i :: 0 <= i < |items| ==> items[i].id != Some(id)
    ensures var k := FindIndex(items, id);
      && (k == -1 ==> r.status == 404 && r.store == items && r.row == None)
      && (k != -1 ==> r.status == 200 && r.row == Some(items[k]) && r.store == items[..k] + items[k + 1..])
    ensures r.status == 200 ==> |r.store| == |items| - 1 && r.row.value.id == Some(id)
  {
    var k := FindIndex(items, id);
    if k == -1 then Outcome(404, items, None)
    else Outcome(200, items[..k] + items[k + 1..], Some(items[k]))
  }

  /** Deleting removes one occurrence of the returned record and nothing else. */
  lemma DeleteRemovesOne(items: seq<Position>, id: string)
    requires Delete(items, id).status == 200
    ensures multiset(Delete(items, id).store) + multiset{Delete(items, id).row.value} == multiset(items)
  {
    var k := FindIndex(items, id);
    var r := Delete(items, id);
    assert r.store == items[..k] + items[k + 1..] && r.row.value == items[k];
    Seqs.SpliceMultiset(items, k);
  }

  /** Deleting the position just added, by its fresh id, undoes the add. */
  lemma AddThenDelete(items: seq<Position>, body: Body, freshId: string, conv: Coercions)
    requires forall i :: 0 <= i < |items| ==> items[i].id != Some(freshId)
    requires Add(items, body, freshId, conv).status == 200
    ensures var a := Add(items, body, freshId, conv);
      Delete(a.store, freshId) == Outcome(200, items, a.row)
  {
    var a := Add(items, body, freshId, conv);
    var s := a.store;
    assert s == items + [a.row.value];
    assert s[|items|].id == Some(freshId);
    assert FindIndex(s, freshId) == |items|;
    assert s[..|items|] + s[|items| + 1..] == items;
  }

  // ---- tickers of the stored positions ------------------------------------

  /** `(it.ticker || '').trim().toUpperCase()`. */
  function TickerOf(p: Position): (t: string)
    ensures t == [] <==> Text.Trim(p.ticker) == []
  {
    Text.Upper(Text.Trim(p.ticker))
  }

  /** `items.map(it => (it.ticker || '').trim().toUpperCase()).filter(Boolean)`. */
  function Tickers(items: seq<Position>): (r: seq<string>)
    ensures |r| <= |items|
    ensures forall j :: 0 <= j < |r| ==> r[j] != []
    decreases |items|
  {
    if |items| == 0 then []
    else
      var t := TickerOf(items[0]);
      if t == [] then Tickers(items[1..]) else [t] + Tickers(items[1..])
  }

  /** Every position with a non-blank ticker contributes it, and nothing
      else appears: the list is exactly the non-empty normalised tickers. */
  lemma TickersExact(items: seq<Position>, t: string)
    ensures t in Tickers(items) <==> t != [] && exists i :: 0 <= i < |items| && TickerOf(items[i]) == t
  {
    if t in Tickers(items) {
      TickersSound(items, t);
    }
    if t != [] && exists i :: 0 <= i < |items| && TickerOf(items[i]) == t {
      var i :| 0 <= i < |items| && TickerOf(items[i]) == t;
      TickersComplete(items, i);
    }
  }

  lemma {:induction false} TickersSound(items: seq<Position>, t: string)
    requires t in Tickers(items)
    ensures exists i :: 0 <= i < |items| && TickerOf(items[i]) == t
    decreases |items|
  {
    if TickerOf(items[0]) != t {
      TickersSound(items[1..], t);
      var i :| 0 <= i < |items| - 1 && TickerOf(items[1..][i]) == t;
      assert items[i + 1] == items[1..][i];
    }
  }

  lemma {:induction false} TickersComplete(items: seq<Position>, i: nat)
    requires i < |items| && TickerOf(items[i]) != []
    ensures TickerOf(items[i]) in Tickers(items)
    decreases i
  {
    if i == 0 {
      TickersHead(items);
    } else {
      TickersComplete(items[1..], i - 1);
      assert items[1..][i - 1] == items[i];
      TickersTail(items, TickerOf(items[i]));
    }
  }

  lemma TickersHead(items: seq<Position>)
    requires |items| > 0 && TickerOf(items[0]) != []
    ensures TickerOf(items[0]) in Tickers(items)
  {
    assert Tickers(items)[0] == TickerOf(items[0]);
  }

  lemma TickersTail(items: seq<Position>, t: string)
    requires |items| > 0 && t in Tickers(items[1..])
    ensures t in Tickers(items)
  {
    var rest := Tickers(items[1..]);
    if TickerOf(items[0]) != [] {
      assert Tickers(items) == [TickerOf(items[0])] + rest;
    }
  }
}

=== FILE: text.dfy ===
/** String operations of the JavaScript runtime the handlers rely on:
    `trim`, ASCII case mapping, `includes`, `split`/`join`, `indexOf`,
    single and global `replace` of one character, and string ordering. */
module Text {

  /** JavaScript WhiteSpace and LineTerminator code points, the set `trim` removes. */
  predicate IsSpace(c: char) {
    || c == ' ' || c == '\t' || c == '\n' || c == '\r' || c == '\U{B}' || c == '\U{C}'
    || c == '\U{A0}' || c == '\U{1680}' || ('\U{2000}' <= c <= '\U{200A}')
    || c == '\U{2028}' || c == '\U{2029}' || c == '\U{202F}' || c == '\U{205F}'
    || c == '\U{3000}' || c == '\U{FEFF}'
  }

  /** The number of white-space characters `s` starts with. */
  function LeadingSpaces(s: string): (k: nat)
    ensures k <= |s|
    ensures forall i :: 0 <= i < k ==> IsSpace(s[i])
    ensures k < |s| ==> !IsSpace(s[k])
    decreases |s|
  {
    if |s| > 0 && IsSpace(s[0]) then 1 + LeadingSpaces(s[1..]) else 0
  }

  /** Where the white space `s` ends with begins. */
  function TrailingStart(s: string): (k: nat)
    ensures k <= |s|
    ensures forall i :: k <= i < |s| ==> IsSpace(s[i])
    ensures k > 0 ==> !IsSpace(s[k - 1])
    decreases |s|
  {
    if |s| > 0 && IsSpace(s[|s| - 1]) then TrailingStart(s[..|s| - 1]) else |s|
  }

  /** `s.trim()`: `s` without its leading and trailing white space. */
  function Trim(s: string): (r: string)
    ensures |r| <= |s|
    ensures r == [] <==> forall i :: 0 <= i < |s| ==> IsSpace(s[i])
    ensures r != [] ==> !IsSpace(r[0]) && !IsSpace(r[|r| - 1])
    ensures r != [] ==> StartsAt(s, r, LeadingSpaces(s))
    ensures (forall i :: 0 <= i < |s| ==> !IsSpace(s[i])) ==> r == s
  {
    var a := LeadingSpaces(s);
    if a == |s| then "" else s[a..TrailingStart(s)]
  }

  predicate IsLower(c: char) { 'a' <= c <= 'z' }
  predicate IsUpper(c: char) { 'A' <= c <= 'Z' }

  /** The ASCII upper case of a character: a lower-case letter becomes its
      capital, which lower-cases back to it; anything else is kept. */
  function UpperChar(c: char): (d: char)
    ensures !IsLower(d)
    ensures IsLower(c) ==> IsUpper(d) && LowerChar(d) == c
    ensures !IsLower(c) ==> d == c
  {
    if IsLower(c) then (c as int - 32) as char else c
  }

  /** The ASCII lower case of a character: a capital becomes a small
      letter; anything else is kept. */
  function LowerChar(c: char): (d: char)
    ensures !IsUpper(d)
    ensures IsUpper(c) ==> IsLower(d)
    ensures !IsUpper(c) ==> d == c
  {
    if IsUpper(c) then (c as int + 32) as char else c
  }

  /** `s.toUpperCase()` on ASCII letters; other characters are kept. */
  function Upper(s: string): (r: string)
    ensures |r| == |s|
    ensures forall i :: 0 <= i < |s| ==> r[i] == UpperChar(s[i])
  {
    seq(|s|, i requires 0 <= i < |s| => UpperChar(s[i]))
  }

  /** `s.toLowerCase()` on ASCII letters; other characters are kept. */
  function Lower(s: string): (r: string)
    ensures |r| == |s|
    ensures forall i :: 0 <= i < |s| ==> r[i] == LowerChar(s[i])
  {
    seq(|s|, i requires 0 <= i < |s| => LowerChar(s[i]))
  }

  /** Upper-casing twice is upper-casing once, and a text without small
      letters is already upper case. */
  lemma UpperIdempotent(s: string)
    ensures Upper(Upper(s)) == Upper(s)
    ensures (forall i :: 0 <= i < |s| ==> !IsLower(s[i])) ==> Upper(s) == s
  {
  }

  /** Upper-casing loses nothing that lower-casing keeps: both cases of a
      letter lower-case alike. */
  lemma LowerOfUpper(s: string)
    ensures Lower(Upper(s)) == Lower(s)
  {
  }

  /** `w` occurs in `s` starting at position `i`. */
  predicate StartsAt(s: string, w: string, i: int) {
    0 <= i <= |s| - |w| && s[i..i + |w|] == w
  }

  /** `s.includes(w)`. */
  predicate Contains(s: string, w: string) {
    exists i | 0 <= i <= |s| - |w| :: StartsAt(s, w, i)
  }

  /** Whatever contains a word contains every piece of it. */
  lemma ContainsPiece(s: string, w: string, a: nat, b: nat)
    requires Contains(s, w) && a <= b <= |w|
    ensures Contains(s, w[a..b])
  {
    var i :| 0 <= i <= |s| - |w| && StartsAt(s, w, i);
    forall k | a <= k < b ensures s[i + k] == w[k] {
      assert s[i..i + |w|][k] == s[i + k];
    }
    assert s[i + a..i + b] == w[a..b];
    assert StartsAt(s, w[a..b], i + a);
  }

  /** A case-insensitive regular-expression test for a lower-case ASCII word.
      Without the `u` flag, `/i` folds an ASCII letter only onto its own
      other case, so lower-casing the ASCII letters of the text is exact. */
  predicate ContainsCI(s: string, w: string) {
    Contains(Lower(s), w)
  }

  /** `xs.join(sep)`. */
  function Join(xs: seq<string>, sep: string): string
    decreases |xs|
  {
    if |xs| == 0 then ""
    else if |xs| == 1 then xs[0]
    else xs[0] + sep + Join(xs[1..], sep)
  }

  /** `s.split(c)` for a one-character separator. */
  function Split(s: string, c: char): (r: seq<string>)
    ensures |r| >= 1
    ensures forall i :: 0 <= i < |r| ==> c !in r[i]
    decreases |s|
  {
    if |s| == 0 then [""]
    else
      var rest := Split(s[1..], c);
      if s[0] == c then [""] + rest
      else [[s[0]] + rest[0]] + rest[1..]
  }

  /** Joining the pieces of a split with the separator gives the string back. */
  lemma {:induction false} JoinSplit(s: string, c: char)
    ensures Join(Split(s, c), [c]) == s
    decreases |s|
  {
    if |s| > 0 {
      var rest := Split(s[1..], c);
      JoinSplit(s[1..], c);
      if s[0] == c {
        assert s == [c] + s[1..];
      } else {
        if |rest| == 1 {
          assert Join(rest, [c]) == rest[0];
        } else {
          assert Join(rest, [c]) == rest[0] + [c] + Join(rest[1..], [c]);
          assert Split(s, c)[1..] == rest[1..];
        }
        assert s == [s[0]] + s[1..];
      }
    }
  }

  /** Splitting `x + c + y` where `x` has no `c` yields `x` followed by the pieces of `y`. */
  lemma {:induction false} SplitAt(x: string, y: string, c: char)
    requires c !in x
    ensures Split(x + [c] + y, c) == [x] + Split(y, c)
    decreases |x|
  {
    if |x| == 0 {
      assert x + [c] + y == [c] + y;
      assert ([c] + y)[1..] == y;
    } else {
      var s := x + [c] + y;
      assert s[1..] == x[1..] + [c] + y;
      SplitAt(x[1..], y, c);
      assert [x[0]] + x[1..] == x;
    }
  }

  /** Splitting a string that holds no `c` gives it back whole. */
  lemma {:induction false} SplitNone(x: string, c: char)
    requires c !in x
    ensures Split(x, c) == [x]
    decreases |x|
  {
    if |x| > 0 {
      SplitNone(x[1..], c);
      assert [x[0]] + x[1..] == x;
    }
  }

  /** Splitting a join of separator-free pieces gives the pieces back. */
  lemma {:induction false} SplitJoin(xs: seq<string>, c: char)
    requires |xs| >= 1
    requires forall i :: 0 <= i < |xs| ==> c !in xs[i]
    ensures Split(Join(xs, [c]), c) == xs
    decreases |xs|
  {
    if |xs| == 1 {
      SplitNone(xs[0], c);
    } else {
      SplitJoin(xs[1..], c);
      SplitAt(xs[0], Join(xs[1..], [c]), c);
      assert [xs[0]] + xs[1..] == xs;
    }
  }

  /** `s.indexOf(c)`: the first position of `c`, or -1. */
  function IndexOf(s: string, c: char): (r: int)
    ensures -1 <= r < |s|
    ensures r == -1 <==> c !in s
    ensures r >= 0 ==> s[r] == c && c !in s[..r]
    decreases |s|
  {
    if |s| == 0 then -1
    else if s[0] == c then 0
    else var k := IndexOf(s[1..], c); if k == -1 then -1 else k + 1
  }

  /** `s.lastIndexOf(c)`: the last position of `c`, or -1. */
  function LastIndexOf(s: string, c: char): (r: int)
    ensures -1 <= r < |s|
    ensures r == -1 <==> c !in s
    ensures r >= 0 ==> s[r] == c && c !in s[r + 1..]
    decreases |s|
  {
    if |s| == 0 then -1
    else if s[|s| - 1] == c then |s| - 1
    else LastIndexOf(s[..|s| - 1], c)
  }

  /** `s.replace(/c/g, "")`: every `c` deleted, everything else kept in
      order (the order is stated by `DeleteAllAppend`). */
  function DeleteAll(s: string, c: char): (r: string)
    ensures c !in r
    ensures |r| <= |s|
    decreases |s|
  {
    if |s| == 0 then ""
    else
      assert s == [s[0]] + s[1..];
      (if s[0] == c then "" else [s[0]]) + DeleteAll(s[1..], c)
  }

  /** Deleting works piece by piece, so it keeps the order of what stays:
      together with the one-character cases of `DeleteAll`'s contract this
      fixes the result. */
  lemma {:induction false} DeleteAllAppend(a: string, b: string, c: char)
    ensures DeleteAll(a + b, c) == DeleteAll(a, c) + DeleteAll(b, c)
    decreases |a|
  {
    if |a| == 0 {
      assert a + b == b;
    } else {
      var ab, t := a + b, a[1..];
      assert ab[0] == a[0];
      assert ab[1..] == t + b;
      DeleteAllAppend(t, b, c);
      var h := if a[0] == c then "" else [a[0]];
      calc {
        DeleteAll(ab, c);
        h + DeleteAll(t + b, c);
        h + (DeleteAll(t, c) + DeleteAll(b, c));
        (h + DeleteAll(t, c)) + DeleteAll(b, c);
        DeleteAll(a, c) + DeleteAll(b, c);
      }
    }
  }

  /** Only the deleted character's count changes: every other keeps its
      count and the length drops by the number removed. */
  lemma {:induction false} DeleteAllCounts(s: string, c: char)
    ensures forall d :: d != c ==> multiset(DeleteAll(s, c))[d] == multiset(s)[d]
    ensures |DeleteAll(s, c)| == |s| - multiset(s)[c]
    decreases |s|
  {
    if |s| > 0 {
      var h, t := if s[0] == c then "" else [s[0]], s[1..];
      DeleteAllCounts(t, c);
      assert s == [s[0]] + t;
      assert DeleteAll(s, c) == h + DeleteAll(t, c);
      assert multiset(DeleteAll(s, c)) == multiset(h) + multiset(DeleteAll(t, c));
      assert multiset(s) == multiset{s[0]} + multiset(t);
    }
  }

  /** Deleting `c` around a character that is not `c` keeps that character in place. */
  lemma DeleteAround(s: string, i: int, c: char)
    requires 0 <= i < |s| && s[i] != c
    ensures DeleteAll(s, c) == DeleteAll(s[..i], c) + [s[i]] + DeleteAll(s[i + 1..], c)
  {
    assert s == s[..i] + [s[i]] + s[i + 1..];
    DeleteAllAppend(s[..i] + [s[i]], s[i + 1..], c);
    DeleteAllAppend(s[..i], [s[i]], c);
    assert [s[i]][1..] == "";
    assert DeleteAll([s[i]], c) == [s[i]] + DeleteAll("", c);
  }

  /** Deleting never brings in a character the text did not hold. */
  lemma DeleteKeepsAbsent(s: string, c: char, d: char)
    requires d !in s
    ensures d !in DeleteAll(s, c)
  {
    if d != c {
      DeleteAllCounts(s, c);
      assert multiset(s)[d] == 0;
    }
  }

  /** The first `c` of `x + [c] + y` is the one after `x` when `x` has none. */
  lemma {:induction false} IndexOfAfter(x: string, y: string, c: char)
    requires c !in x
    ensures IndexOf(x + [c] + y, c) == |x|
    decreases |x|
  {
    if |x| > 0 {
      assert (x + [c] + y)[1..] == x[1..] + [c] + y;
      IndexOfAfter(x[1..], y, c);
    }
  }

  /** Replacing the first `c` of `x + [c] + y`, where `x` has none, puts `d`
      right after `x`. */
  lemma ReplaceFirstAfter(x: string, y: string, c: char, d: char)
    requires c !in x
    ensures ReplaceFirst(x + [c] + y, c, d) == x + [d] + y
  {
    var s := x + [c] + y;
    IndexOfAfter(x, y, c);
    assert s[..|x|] == x && s[|x| + 1..] == y;
  }

  /** `s.replace(c, d)` with a string pattern: only the first `c` becomes `d`. */
  function ReplaceFirst(s: string, c: char, d: char): (r: string)
    ensures |r| == |s|
    ensures c !in s ==> r == s
    ensures c in s ==> r[IndexOf(s, c)] == d
    ensures forall j :: 0 <= j < |s| && j != IndexOf(s, c) ==> r[j] == s[j]
  {
    var i := IndexOf(s, c);
    if i == -1 then s else s[..i] + [d] + s[i + 1..]
  }

  /** `a <= b` on strings in code-point order, which agrees with JavaScript's
      UTF-16 code-unit order on the ASCII dates compared here. */
  predicate LexLe(a: string, b: string)
    decreases |a|
  {
    |a| == 0 || (|b| > 0 && (a[0] < b[0] || (a[0] == b[0] && LexLe(a[1..], b[1..]))))
  }

  lemma {:induction false} LexLeTotal(a: string, b: string)
    ensures LexLe(a, b) || LexLe(b, a)
    decreases |a|
  {
    if |a| > 0 && |b| > 0 && a[0] == b[0] {
      LexLeTotal(a[1..], b[1..]);
    }
  }

  lemma {:induction false} LexLeTransitive(a: string, b: string, c: string)
    requires LexLe(a, b) && LexLe(b, c)
    ensures LexLe(a, c)
    decreases |a|
  {
    if |a| > 0 && a[0] == b[0] && b[0] == c[0] {
      LexLeTransitive(a[1..], b[1..], c[1..]);
    }
  }

  /** Decimal text of a natural number, most significant digit first. */
  function NatText(n: nat): (r: string)
    ensures |r| >= 1
    ensures forall i :: 0 <= i < |r| ==> '0' <= r[i] <= '9'
    decreases n
  {
    (if n >= 10 then NatText(n / 10) else "") + [('0' as int + n % 10) as char]
  }

  /** `String(n)` for an integer. */
  function IntText(n: int): string {
    if n < 0 then "-" + NatText(-n) else NatText(n)
  }

  predicate IsDigits(s: string) {
    forall i :: 0 <= i < |s| ==> '0' <= s[i] <= '9'
  }

  /** The value of a string of decimal digits. */
  function DigitsValue(s: string): nat
    requires IsDigits(s)
    decreases |s|
  {
    if |s| == 0 then 0
    else DigitsValue(s[..|s| - 1]) * 10 + (s[|s| - 1] as int - '0' as int)
  }

  /** Reading back the decimal text of `n` gives `n`. */
  lemma {:induction false} NatTextRoundTrip(n: nat)
    ensures DigitsValue(NatText(n)) == n
    decreases n
  {
    var r := NatText(n);
    if n >= 10 {
      NatTextRoundTrip(n / 10);
      assert r[..|r| - 1] == NatText(n / 10);
    } else {
      assert r[..|r| - 1] == "";
    }
  }

  /** Four-digit numbers print as exactly four characters. */
  lemma NatTextWidth(n: nat)
    requires 1000 <= n <= 9999
    ensures |NatText(n)| == 4
  {
    assert (n / 10) / 10 == n / 100;
    assert (n / 100) / 10 == n / 1000;
    assert |NatText(n / 1000)| == 1;
    assert |NatText(n / 100)| == 2;
    assert |NatText(n / 10)| == 3;
  }
}
